=== FILE: README.md ===
# ProductivityHub core, modelled in Dafny

ProductivityHub is a mobile productivity app with an Express backend. This
project models the parts of it that carry the logic:

- **The client-side state and rules.** These are the password policy, the
  theme helpers, the Redux slices for themes, plugins and authentication, and
  the `FakePlugin` model.
- **The backend.** This covers:
  - the authentication routes (register, verify e-mail, log in);
  - the JWT middleware (`authenticateToken`, `optionalAuth`);
  - the user-preferences routes (current theme, enabled themes, enabled
    plugins and their settings);
  - the pure functions of the migration runner.

Everything is modelled as pure functions over immutable values.

- The database is a value: `Tables.Db`. It holds the `users` rows in insertion
  order, the `user_preferences` rows keyed by user, and the
  `user_enabled_plugins` rows keyed by (user, plugin).
- An HTTP handler takes the request and the tables. It returns the new tables
  and the response.
- A Redux reducer maps a state and an action to a state.
- An async thunk is split in two. Its pure part maps what the I/O returned
  to the action it dispatches.

Collaborators the code cannot see become parameters or symbolic values:

- **bcrypt.** A hash is the symbolic term `BcryptHash(rounds, salt, key)`.
  The key is at most the first 72 bytes of the password's UTF-8 encoding,
  the only part bcrypt uses. Comparing checks the key.
- **`jwt.verify`.** Verification is a parameter `string -> JwtCheck` that
  answers valid (with the user id), malformed or expired.
- **Environment-dependent values.** The clock, fresh ids and tokens, whether
  the e-mail was sent, whether a query succeeds and whether a migration file
  fails are all inputs.

The modules follow the source files:

| module | models |
|---|---|
| `PasswordPolicy` | `src/utils/passwordValidation.ts` |
| `ThemeUtils` | `src/utils/themeUtils.ts` and the theme catalogue |
| `ThemeSlice` | `src/store/slices/themeSlice.ts` |
| `PluginSlice` | `src/store/slices/pluginSlice.ts` |
| `AuthSlice` | `src/store/slices/authSlice.ts` |
| `FakePlugin` | `src/models/FakePLugin.ts` |
| `Tables` | the database rows, the password hash, JWT session tokens |
| `AuthRoutes` | `productivity-hub-backend/src/routes/auth.ts` |
| `AuthMiddleware` | `productivity-hub-backend/src/middleware/auth.ts` |
| `UserPreferences` | `productivity-hub-backend/src/routes/userPreferences.ts` |
| `Migrations` | the pure functions of `productivity-hub-backend/src/migrate.ts` |
| `Wrappers`, `Seqs`, `Text` | `Option`, filtering and subsequences, JavaScript `trim`, string length in UTF-16 code units and in validator.js's units, UTF-8 encoding, and `a \|\| b` on messages |

Three behaviours of the code are worth stating on their own:

- **Replaying an e-mail verification link is not idempotent.** The code
  clears the verification token when it succeeds, so a second request with
  the same link is answered 400 "Invalid verification token"
  (`AuthRoutes.VerificationReplayIsRejected`).
- **The "already verified" branch of verify-email is unreachable.** The code
  checks for an already-verified user, but that branch cannot be reached
  while the verified-iff-no-token invariant holds
  (`AuthRoutes.AlreadyVerifiedIsUnreachable`).
- **A load can leave the current theme outside the enabled list.** The
  load-fulfilled reducers overwrite the enabled list without checking that
  the current theme is still in it
  (`ThemeSlice.LoadFulfilledCanLeaveCurrentDisabled`). Only the local
  actions keep the invariant (`ThemeSlice.LocalRunKeepsConsistent`).

## Model

| member | source | states |
|---|---|---|
| PasswordPolicy.ValidatePassword | src/utils/passwordValidation.ts:19-57 | valid exactly when there are no errors; each rule's message is present exactly when the password breaks that rule, the length being JavaScript's `length` in UTF-16 code units; at most five messages |
| PasswordPolicy.ErrorsFollowRuleOrder | src/utils/passwordValidation.ts:23-49 | the errors are the messages of the broken rules, in the fixed order length, upper, lower, digit, special |
| PasswordPolicy.MessagesDistinct | src/utils/passwordValidation.ts:25-48 | no two rules share a message, so a message names the rule it came from |
| PasswordPolicy.ShortPasswordRejected | src/utils/passwordValidation.ts:24-26 | a password shorter than 8 UTF-16 code units, or of fewer than 4 characters, is shorter than 8 code units and is invalid, with the length message first |
| PasswordPolicy.AstralPasswordIsLongEnough | src/utils/passwordValidation.ts:24-26 | a six-character password with two characters beyond U+FFFF has length 8 and passes the length rule |
| PasswordPolicy.StrongExampleIsValid | src/utils/passwordValidation.ts:77-79 | "Str0ng!Pass" is valid with no errors, as the usage note says |
| PasswordPolicy.WeakExampleErrors | src/utils/passwordValidation.ts:73-75 | "weak" fails the length, uppercase, number and special-character rules, in that order |
| Text.Trim | productivity-hub-backend/src/routes/auth.ts:47-50 | the result has no whitespace at either end, and it is empty exactly when the input is all whitespace |
| Text.TrimIsSlice | productivity-hub-backend/src/routes/auth.ts:47-50 | trimming removes characters only from the two ends: what is kept is the slice of the input that starts right after the leading white space |
| Text.TrimOfBlank | productivity-hub-backend/src/routes/auth.ts:47-50 | a name trims to the empty string exactly when every character of it is JavaScript white space |
| Text.Utf16LengthOfBmp | src/utils/passwordValidation.ts:24 | `length` equals the number of characters exactly when none lies beyond U+FFFF |
| Text.ValidatorLengthWithoutSelectors | productivity-hub-backend/src/routes/auth.ts:35 | the `isLength` count equals the number of characters exactly when there is no U+FE0E or U+FE0F |
| Text.LengthsAgreeOnPlainText | productivity-hub-backend/src/routes/auth.ts:35 | on plain text the client's and the server's length are both the number of characters |
| Text.BlankTrimsToNothing | productivity-hub-backend/src/routes/auth.ts:47-50 | a blank name fails `trim().isLength({ min: 1 })`, and so does a lone U+FE0F, which is not blank |
| Text.MessageOr | src/store/slices/pluginSlice.ts:109-124 | an error message that is present and non-empty wins; otherwise the fixed fallback is used |
| ThemeUtils.FindTheme | src/store/slices/themeSlice.ts:181 | finds a theme with that id exactly when one is in the catalogue, and the one found is the first catalogue theme carrying that id, as `find` returns |
| ThemeUtils.FirstWithIdUnique | src/store/slices/themeSlice.ts:181 | however many catalogue themes share an id, only one of them is the first, so the theme `find` picks is determined |
| ThemeUtils.GetEnabledThemes | src/utils/themeUtils.ts:5-10 | exactly the catalogue themes whose id is enabled, none added |
| ThemeUtils.EnabledThemesKeepOrder | src/utils/themeUtils.ts:5-10 | the enabled themes appear in catalogue order |
| ThemeUtils.IsThemeEnabled | src/utils/themeUtils.ts:12-14 | true exactly when the id occurs in the enabled list |
| ThemeUtils.CanDisableTheme | src/utils/themeUtils.ts:16-18 | false exactly for the two core themes, light-default and dark-default |
| ThemeUtils.GetFirstEnabledTheme | src/utils/themeUtils.ts:20-26 | none exactly when no catalogue theme is enabled; otherwise the earliest enabled catalogue theme |
| ThemeSlice.InitialStateIsConsistent | src/store/slices/themeSlice.ts:33-40 | the initial state's current theme is light-default, enabled, and in the catalogue |
| ThemeSlice.SetTheme | src/store/slices/themeSlice.ts:180-187 | switches to the theme and clears the error only when it is available and enabled, the theme object being the first catalogue theme with that id; otherwise the state is unchanged |
| ThemeSlice.ToggleTheme | src/store/slices/themeSlice.ts:189-199 | flips between light-default and dark-default when the target is available and enabled, taking the first catalogue theme with the target id and leaving everything else alone; otherwise nothing changes |
| ThemeSlice.AddTheme | src/store/slices/themeSlice.ts:201-203 | the new theme becomes available and nothing else changes |
| ThemeSlice.ClearThemeError | src/store/slices/themeSlice.ts:205-207 | the error is gone and nothing else changes |
| ThemeSlice.EnableTheme | src/store/slices/themeSlice.ts:209-213 | the id ends up enabled; it is appended only when it was absent |
| ThemeSlice.EnableThemeIdempotent | src/store/slices/themeSlice.ts:209-213 | enabling twice is enabling once |
| ThemeSlice.DisableTheme | src/store/slices/themeSlice.ts:215-235 | a core theme is refused with the core-theme error; any other id is removed from the enabled list, and a removed current theme falls back to the first enabled catalogue theme |
| ThemeSlice.DisableThemeKeepsConsistent | src/store/slices/themeSlice.ts:215-235 | disabling keeps the current theme enabled and in the catalogue when both core themes are enabled |
| ThemeSlice.ApplyPreferences | src/store/slices/themeSlice.ts:241-252 | the enabled list is replaced by the payload's; the current theme follows the payload only when that theme is in the catalogue, and is then the first catalogue theme with that id |
| ThemeSlice.Reduce | src/store/slices/themeSlice.ts:175-292 | dispatches each reducer; a settled save and every rejected enable, disable or local load change nothing; a settled server load clears the loading flag, and a rejected one stores its reason or the fallback message |
| ThemeSlice.LocalActionKeepsConsistent | src/store/slices/themeSlice.ts:180-235 | every local reducer keeps the current theme enabled and in the catalogue |
| ThemeSlice.LocalRunKeepsConsistent | src/store/slices/themeSlice.ts:180-235 | any sequence of local actions from the initial state keeps that invariant |
| ThemeSlice.LoadFulfilledCanLeaveCurrentDisabled | src/store/slices/themeSlice.ts:241-252 | a stored snapshot whose theme is available but not enabled leaves the current theme outside the enabled list |
| ThemeSlice.LoadLocalThemePreferences | src/store/slices/themeSlice.ts:49-86 | the stored theme and stored enabled list are used only when both are present; otherwise the system colour scheme picks the dark or light core theme with the core list; a thrown storage error gives the light core theme with the core list; the thunk never rejects |
| ThemeSlice.LocalFallbackIsConsistent | src/store/slices/themeSlice.ts:49-86 | with nothing stored, the loaded theme is a core theme and is enabled |
| ThemeSlice.LoadUserPreferences | src/store/slices/themeSlice.ts:91-111 | null fields default to light-default and the core list; a failed request rejects with its fixed message; device-write failures are swallowed and never change the outcome |
| ThemeSlice.EnableThemeOnServer | src/store/slices/themeSlice.ts:142-152 | fulfils with the server's lists under the same defaults, or rejects with the enable message |
| ThemeSlice.DisableThemeOnServer | src/store/slices/themeSlice.ts:157-170 | fulfils with the server's lists under the same defaults, or rejects with the disable message |
| ThemeSlice.SaveCurrentThemeToAPI | src/store/slices/themeSlice.ts:117-137 | the device store gets the theme whenever its write succeeds, even when the server call failed; the thunk fulfils exactly when the server call succeeds, whatever happens to the device write |
| ThemeSlice.SaveOutcomeIgnoresDeviceWrite | src/store/slices/themeSlice.ts:117-137 | a failed device write changes what the device holds but never the thunk's outcome, because the storage service swallows its own errors |
| ThemeSlice.FailedSaveKeepsOptimisticTheme | src/store/slices/themeSlice.ts:117-137 | after selecting a theme and a failed save, the selection is kept in the store and on the device |
| PluginSlice.EnablePlugin | src/store/slices/pluginSlice.ts:65-76 | appends a known plugin that is not enabled yet and clears the error; otherwise nothing changes; the list stays duplicate-free |
| PluginSlice.EnablePluginIdempotent | src/store/slices/pluginSlice.ts:65-76 | enabling twice is enabling once |
| PluginSlice.DisablePlugin | src/store/slices/pluginSlice.ts:79-85 | the id is gone, every other id stays, and nothing new appears |
| PluginSlice.DisablePluginKeepsOrder | src/store/slices/pluginSlice.ts:79-85 | the remaining plugins keep their order |
| PluginSlice.EnableThenDisableRestores | src/store/slices/pluginSlice.ts:65-85 | enabling a plugin and then disabling it restores the enabled list |
| PluginSlice.AddPlugin | src/store/slices/pluginSlice.ts:88-90 | the plugin becomes known and nothing else changes |
| PluginSlice.LoadEnabledPluginsFromStorage | src/store/slices/pluginSlice.ts:43-49 | the stored list, or empty when nothing is stored |
| PluginSlice.Reduce | src/store/slices/pluginSlice.ts:101-126 | pending sets loading and clears the error; fulfilled loads replace the list; rejections store the message or its fallback |
| PluginSlice.UserActionsKeepEnabledKnown | src/store/slices/pluginSlice.ts:65-126 | every action except a load keeps each enabled id a known plugin |
| FakePlugin.New | src/models/FakePLugin.ts:12-18 | a new plugin is disabled and keeps its id, name, description and icon |
| FakePlugin.Enable | src/models/FakePLugin.ts:20-23 | the plugin is enabled and its identity is unchanged |
| FakePlugin.Disable | src/models/FakePLugin.ts:25-28 | the plugin is disabled and its identity is unchanged |
| FakePlugin.EnableDisableIdempotent | src/models/FakePLugin.ts:20-28 | each switch is idempotent, and the last switch decides the state |
| FakePlugin.GetStatus | src/models/FakePLugin.ts:38-40 | active exactly when enabled, never error |
| FakePlugin.GetDisplayInfo | src/models/FakePLugin.ts:42-49 | shows the plugin's name, icon and description with its current status |
| FakePlugin.NewPluginIsInactive | src/models/FakePLugin.ts:12-40 | a new plugin reports inactive, and reports active once enabled |
| Tables.HashThenCompare | productivity-hub-backend/src/routes/auth.ts:252 | a stored hash accepts its own password, and accepts another password exactly when its first 72 UTF-8 bytes are the same; when neither password is longer than 72 bytes, only the password itself is accepted |
| Tables.BcryptKey | productivity-hub-backend/src/routes/auth.ts:252 | the key is the whole UTF-8 encoding of a password of at most 72 bytes, and its first 72 bytes otherwise |
| Tables.SharedPrefixCollides | productivity-hub-backend/src/routes/auth.ts:252 | two passwords that share their first 72 characters are accepted by each other's hash, whatever follows |
| Text.Utf8 | productivity-hub-backend/src/routes/auth.ts:252 | a string's UTF-8 encoding has between one and four bytes per character |
| Text.EncodeCharDecodes | productivity-hub-backend/src/routes/auth.ts:252 | the first byte of a character's encoding gives the encoding's length, and the encoding decodes back to the character |
| Text.Utf8Append | productivity-hub-backend/src/routes/auth.ts:252 | the encoding of a concatenation is the concatenation of the encodings |
| Text.Utf8Injective | productivity-hub-backend/src/routes/auth.ts:252 | two strings have the same encoding exactly when they are equal |
| Tables.FirstMatch | productivity-hub-backend/src/routes/auth.ts:65-68 | none exactly when no row matches; otherwise the first matching row |
| Tables.FindByEmail | productivity-hub-backend/src/routes/auth.ts:238-243 | none exactly when no row has the e-mail; otherwise the first row with it |
| Tables.FindByToken | productivity-hub-backend/src/routes/auth.ts:145-148 | none exactly when no row holds the token; otherwise the first row holding it |
| Tables.FindVerifiedById | productivity-hub-backend/src/middleware/auth.ts:49-53 | none exactly when no verified row has the id; otherwise the first verified row with it |
| Tables.FirstMatchAppend | productivity-hub-backend/src/routes/auth.ts:85-96 | appending a row keeps an existing first match; when nothing earlier matches, the new row is the first match exactly when it matches |
| Tables.FindByEmailAppend | productivity-hub-backend/src/routes/auth.ts:85-96 | after inserting a user with a fresh e-mail, looking up that e-mail finds the new row |
| Tables.FindByTokenAppend | productivity-hub-backend/src/routes/auth.ts:85-96 | after inserting a user with a fresh token, looking up that token finds the new row |
| Tables.FirstMatchUpdate | productivity-hub-backend/src/routes/auth.ts:182-188 | changing a row without changing whether it matches keeps every lookup's answer |
| Tables.FindByEmailUpdate | productivity-hub-backend/src/routes/auth.ts:182-188 | marking a user verified keeps the e-mail lookup |
| Tables.CreateJwtToken | productivity-hub-backend/src/routes/auth.ts:18-25 | the token names the user and e-mail, is issued at the current second and expires seven days later |
| Tables.VerifySession | productivity-hub-backend/src/middleware/auth.ts:46 | a token is valid exactly before its expiry second and names its user; it expires afterwards |
| Tables.SessionLifetime | productivity-hub-backend/src/routes/auth.ts:18-25 | a fresh token verifies for its user throughout the next seven days and is expired from then on |
| AuthRoutes.RegisterPasswordErrorsAsWritten | productivity-hub-backend/src/routes/auth.ts:34-46 | no errors exactly when the password passes every rule, with the length in validator.js units; a password without a digit gets the number message twice |
| AuthRoutes.RegisterPasswordErrors | productivity-hub-backend/src/routes/auth.ts:34-46 | with the digit rule once, the register route reports the same password errors, in the same order, as the client's policy whenever the two length units agree, in particular on all plain text |
| AuthRoutes.DuplicateDigitRule | productivity-hub-backend/src/routes/auth.ts:41-44 | the as-written and corrected lists agree exactly when the password has a digit, and otherwise differ by one extra number message |
| AuthRoutes.DuplicateDigitExample | productivity-hub-backend/src/routes/auth.ts:41-44 | "Password!" gets [number, number] as written and [number] corrected |
| AuthRoutes.AstralPasswordLengthsDisagree | productivity-hub-backend/src/routes/auth.ts:35 | "Aa1!😀😀" passes the client's length rule and fails the server's |
| AuthRoutes.OnlyDigitMissing | productivity-hub-backend/src/routes/auth.ts:41-44 | a password breaking only the digit rule gets the number message twice as written and once corrected |
| AuthRoutes.RegisterErrors | productivity-hub-backend/src/routes/auth.ts:29-60 | no errors exactly when the e-mail is valid, the password passes every rule of the chain and something `isLength` counts is left of the trimmed name; on plain-text passwords this is the client's policy; a password without a digit puts the number message in the details twice |
| AuthRoutes.DigitTwiceInDetails | productivity-hub-backend/src/routes/auth.ts:29-60 | with a valid e-mail and name, a password missing only a digit yields the details [number, number] |
| AuthRoutes.RegisterReportsDigitTwice | productivity-hub-backend/src/routes/auth.ts:52-60 | registering with "Password!" is answered 400 with the number message twice and writes nothing |
| AuthRoutes.Register | productivity-hub-backend/src/routes/auth.ts:28-130 | 400 with details exactly on validation errors; 409 exactly for a known e-mail; both leave the tables alone; otherwise an unverified user row with a token expiring in 24 hours plus default preferences, with 201 when the e-mail is sent and 500 otherwise |
| AuthRoutes.RegisterKeepsWellFormed | productivity-hub-backend/src/routes/auth.ts:85-108 | registering with a fresh id and token keeps e-mails, ids and tokens unique and keeps verified-iff-no-token |
| AuthRoutes.SecondRegistrationConflicts | productivity-hub-backend/src/routes/auth.ts:65-74 | registering the same e-mail a second time gets 409 and changes nothing |
| AuthRoutes.VerifyEmail | productivity-hub-backend/src/routes/auth.ts:134-212 | 400 exactly for a missing, repeated or empty token; 400 invalid exactly when no row holds it; for the first row holding it: already verified gives 200 "Email already verified" with no session, unverified and past its expiry gives 400 expired, unverified and not past it (expiry included) succeeds; success marks that row verified, clears the token and expiry, leaves the other users, the preferences and the plugin rows unchanged, and returns a session for that user; the tables change only on success |
| AuthRoutes.VerifyEmailKeepsWellFormed | productivity-hub-backend/src/routes/auth.ts:182-188 | verifying keeps the table invariants |
| AuthRoutes.AlreadyVerifiedIsUnreachable | productivity-hub-backend/src/routes/auth.ts:159-169 | in well-formed tables a token lookup never finds a verified user |
| AuthRoutes.VerificationReplayIsRejected | productivity-hub-backend/src/routes/auth.ts:150-154 | using a verification link a second time is answered 400 invalid token |
| AuthRoutes.Login | productivity-hub-backend/src/routes/auth.ts:215-288 | never changes the tables; 400 exactly for an invalid e-mail or a password `isLength` counts as empty; 401 exactly for an unknown e-mail or a password the stored hash does not accept; 403 exactly for an accepted password of an unverified user; a valid request with an accepted password of a verified user gets a session for that user, and only such a request does |
| AuthRoutes.RegisteredButUnverified | productivity-hub-backend/src/routes/auth.ts:261-265 | right after registering, the correct password gets 403 until the e-mail is verified |
| AuthRoutes.LoginErrors | productivity-hub-backend/src/routes/auth.ts:216-235 | no validation errors exactly when the e-mail is valid and `isLength` counts something in the password; an empty password gets "Password is required" |
| AuthRoutes.LoginVerified | productivity-hub-backend/src/routes/auth.ts:237-288 | for a verified user the e-mail finds, the login succeeds exactly when the stored hash accepts the password, and is otherwise refused with 401 |
| AuthRoutes.RegisterVerifyLogin | productivity-hub-backend/src/routes/auth.ts:28-288 | register, verify and log in: the registered password logs in; another password logs in exactly when its first 72 UTF-8 bytes are the registered password's, and otherwise gets 401 |
| AuthRoutes.LongPasswordSharesLogin | productivity-hub-backend/src/routes/auth.ts:252 | after registering and verifying with a password of 72 characters or more, any password sharing its first 72 characters logs in too |
| AuthRoutes.VerifyThenLogin | productivity-hub-backend/src/routes/auth.ts:134-288 | after the user's e-mail is verified, a login with a password the stored hash accepts succeeds; any other password gets 401 |
| AuthMiddleware.JoinSplit | productivity-hub-backend/src/middleware/auth.ts:33 | joining the pieces of a split header with spaces gives back the header |
| AuthMiddleware.SplitJoin | productivity-hub-backend/src/middleware/auth.ts:33 | splitting a space-joined list of space-free pieces gives back the pieces |
| AuthMiddleware.Split | productivity-hub-backend/src/middleware/auth.ts:33 | `split(' ')`: at least one piece, and no piece contains a space |
| AuthMiddleware.ExtractToken | productivity-hub-backend/src/middleware/auth.ts:32-39 | the token is the non-empty second space-separated piece of the header, when there is one |
| AuthMiddleware.BearerHeader | productivity-hub-backend/src/middleware/auth.ts:32-39 | "Bearer t" yields t for every non-empty, space-free t |
| AuthMiddleware.AnySchemeIsAccepted | productivity-hub-backend/src/middleware/auth.ts:32-39 | the scheme word is not checked: any first word is accepted |
| AuthMiddleware.BareTokenIsRejected | productivity-hub-backend/src/middleware/auth.ts:32-39 | a header with no space carries no token |
| AuthMiddleware.HandleThrownAsWritten | productivity-hub-backend/src/middleware/auth.ts:77-94 | as written: every verification failure, expiry included, gets 401 "Invalid token"; other errors get 500 |
| AuthMiddleware.ExpiryBranchIsDead | productivity-hub-backend/src/middleware/auth.ts:77-87 | the catch block as written never answers "Token has expired"; an expired token reads as invalid |
| AuthMiddleware.HandleThrown | productivity-hub-backend/src/middleware/auth.ts:77-94 | expired tokens get "Token has expired", other verification failures get "Invalid token", other errors get 500 |
| AuthMiddleware.HandlersAgreeExceptOnExpiry | productivity-hub-backend/src/middleware/auth.ts:77-94 | the code as written and the corrected handler answer alike except for an expired token's message |
| AuthMiddleware.AuthenticateToken | productivity-hub-backend/src/middleware/auth.ts:29-95 | 401 without a token; the request proceeds only as a verified user whose id the token names; 500 exactly for a missing secret or a failed lookup; rejections are 401 or 500; a malformed or expired token is answered 401 "Invalid token", and "Token has expired" is never sent |
| AuthMiddleware.AuthenticateTokenCorrected | productivity-hub-backend/src/middleware/auth.ts:77-87 | with the subclass checked first, an expired token gets 401 "Token has expired" and a malformed one 401 "Invalid token" |
| AuthMiddleware.Guard | productivity-hub-backend/src/middleware/auth.ts:29-95 | with either catch block: 401 without a token; the request proceeds only as a verified user whose id the token names; a rejection is 401 or 500, and 500 exactly for a missing secret or a failed user query |
| AuthMiddleware.GuardsAgreeExceptOnExpiry | productivity-hub-backend/src/middleware/auth.ts:29-95 | the guard as written and the corrected guard admit and refuse the same requests with the same status, and differ only in answering an expired token "Invalid token" instead of "Token has expired" |
| AuthMiddleware.OptionalAuth | productivity-hub-backend/src/middleware/auth.ts:98-136 | attaches a user exactly when the strict guard would let the request through as that user, and never refuses |
| AuthMiddleware.SessionAdmitsItsUser | productivity-hub-backend/src/middleware/auth.ts:29-95 | a token issued at login admits its verified user until it expires, and afterwards is refused with 401 "Invalid token" |
| UserPreferences.ValidId | productivity-hub-backend/src/routes/userPreferences.ts:69-84 | accepts exactly the ids of which something `isLength` counts is left after trimming, and yields the trimmed id; blank ids are refused |
| UserPreferences.IdErrors | productivity-hub-backend/src/routes/userPreferences.ts:69-84 | the id validator reports nothing exactly when the id is valid; a missing id gets "Invalid value" and then the route's required message; a present but blank id gets only the required message |
| UserPreferences.PluginPostErrors | productivity-hub-backend/src/routes/userPreferences.ts:280-300 | no errors exactly when the plugin id is valid and the settings are absent or an object; "Plugin ID is required" exactly for an invalid id, "Invalid value" exactly for a missing one, and "Settings must be an object", last, exactly for non-object settings |
| UserPreferences.GetPreferences | productivity-hub-backend/src/routes/userPreferences.ts:17-65 | 404 without a preferences row; otherwise the current theme, the enabled list, the row's update time and exactly the caller's plugin rows with their settings and enable times; never changes the tables |
| UserPreferences.PutCurrentTheme | productivity-hub-backend/src/routes/userPreferences.ts:68-131 | 400 with the id's validation messages exactly for an invalid id; refuses a missing row or a theme that is not enabled, leaving the tables alone; otherwise the caller's current theme becomes the requested one, the enabled list stays as it was, the row's update time becomes now, and no other user's row or plugin changes |
| UserPreferences.PostEnabledTheme | productivity-hub-backend/src/routes/userPreferences.ts:134-200 | 400 with the id's validation messages exactly for an invalid id; refuses a missing row or an already-enabled theme; otherwise appends the theme to the caller's list, keeps the current theme and sets the row's update time to now |
| UserPreferences.DeleteEnabledTheme | productivity-hub-backend/src/routes/userPreferences.ts:203-273 | refuses an empty id, a core theme, a missing row or a theme that is not enabled; otherwise removes it, a removed current theme falls back to the first remaining one (none when nothing remains), and the row's update time becomes now |
| UserPreferences.DefaultPrefsAreValid | productivity-hub-backend/src/routes/auth.ts:101-108 | the preferences written at registration have an enabled current theme and both core themes |
| UserPreferences.DeleteEnabledThemeKeepsValid | productivity-hub-backend/src/routes/userPreferences.ts:215-251 | removing a theme keeps the current theme enabled and the core themes present |
| UserPreferences.PostEnabledThemeKeepsValid | productivity-hub-backend/src/routes/userPreferences.ts:171-185 | enabling a theme keeps the preferences valid |
| UserPreferences.EnableThenDisableTheme | productivity-hub-backend/src/routes/userPreferences.ts:134-273 | enabling a new theme and then disabling it restores the enabled list |
| UserPreferences.PostEnabledPlugin | productivity-hub-backend/src/routes/userPreferences.ts:280-341 | 400 with the validation messages exactly for an invalid id or non-object settings; refuses an already-enabled plugin; otherwise adds a row whose settings default to an empty object |
| UserPreferences.DeleteEnabledPlugin | productivity-hub-backend/src/routes/userPreferences.ts:344-385 | refuses an empty id or a plugin that is not enabled; otherwise removes exactly that row |
| UserPreferences.PutPluginSettings | productivity-hub-backend/src/routes/userPreferences.ts:388-438 | 400 with "Settings must be an object" exactly for missing or non-object settings; 404 for a plugin that is not enabled; otherwise the plugin table is the old one with only that row's settings replaced, its enable time kept |
| UserPreferences.EnableThenDisablePlugin | productivity-hub-backend/src/routes/userPreferences.ts:280-385 | enabling a plugin and then disabling it restores the plugin rows |
| UserPreferences.SettingsAreReadBack | productivity-hub-backend/src/routes/userPreferences.ts:17-65 | settings written by the settings route are what the next read returns |
| UserPreferences.Route | productivity-hub-backend/src/routes/userPreferences.ts:17-438 | no route touches another user's rows, and every refusal leaves the tables alone |
| UserPreferences.Serve | productivity-hub-backend/src/routes/userPreferences.ts:10 | requests without a valid session are refused by the guard before any route runs |
| UserPreferences.RouteKeepsPrefsValid | productivity-hub-backend/src/routes/userPreferences.ts:68-273 | every route keeps every user's current theme enabled and the core themes present |
| UserPreferences.ServeKeepsPrefsValid | productivity-hub-backend/src/routes/userPreferences.ts:10-438 | the same holds behind the guard |
| UserPreferences.RegisterKeepsPrefsValid | productivity-hub-backend/src/routes/auth.ts:101-108 | registration keeps all preferences valid |
| AuthSlice.CheckAuth | src/store/slices/authSlice.ts:30-46 | a stored user signs in; nothing stored or a storage failure fulfils with no user |
| AuthSlice.Register | src/store/slices/authSlice.ts:48-59 | fulfils with the created user or rejects with the server's message or the registration fallback |
| AuthSlice.Login | src/store/slices/authSlice.ts:62-81 | on success fulfils and asks for preferences and plugins to be loaded; otherwise rejects with the message or fallback and asks for nothing |
| AuthSlice.VerifyEmail | src/store/slices/authSlice.ts:83-100 | the same as login, for verification |
| AuthSlice.FromServer | src/services/api/apiClient.ts:39-70 | a server answer counts as success exactly when it is a created, verified or logged-in response, and carries the server's error text otherwise |
| AuthSlice.Reduce | src/store/slices/authSlice.ts:113-194 | pending sets loading and clears the error; registration stores the user but stays signed out; login and verification store the server's user and sign in, keeping the error as it was; the profile check signs in exactly when it found a user and keeps the error; rejections store the message; logout clears the user; initialisation never goes back |
| AuthSlice.ReduceKeepsCoherent | src/store/slices/authSlice.ts:113-194 | every action keeps "signed in implies a user is present"; the converse is not kept, since a registration stores the user while signed out |
| AuthSlice.RunKeepsCoherent | src/store/slices/authSlice.ts:113-194 | any sequence of actions from the initial state keeps it |
| AuthSlice.RegistrationDoesNotSignIn | src/store/slices/authSlice.ts:145-157 | a successful registration leaves the app signed out |
| AuthSlice.WrongPasswordShowsServerMessage | src/store/slices/authSlice.ts:62-81 | a 401 from the server shows "Invalid credentials" and leaves the app signed out |
| AuthSlice.LoginSignsIn | src/store/slices/authSlice.ts:159-172 | a successful login signs in the user the server returned |
| AuthSlice.VerificationSignsIn | src/store/slices/authSlice.ts:174-187 | a successful verification signs in the user the server returned and asks for preferences and plugins |
| AuthSlice.LogoutSignsOut | src/store/slices/authSlice.ts:189-194 | logging out signs out whatever the state |
| Migrations.LexLeTotal | productivity-hub-backend/src/migrate.ts:36 | any two names are comparable |
| Migrations.LexLeTransitive | productivity-hub-backend/src/migrate.ts:36 | the order is transitive |
| Migrations.LexLeAntisymmetric | productivity-hub-backend/src/migrate.ts:36 | names that compare both ways are equal |
| Migrations.Sort | productivity-hub-backend/src/migrate.ts:36 | the result is sorted and has the same names, each as often, as the input |
| Migrations.FilterAndSortSqlFiles | productivity-hub-backend/src/migrate.ts:31-39 | exactly the `.sql` names of the listing, each as often as listed, in sorted order |
| Migrations.FilterAndSortIdempotent | productivity-hub-backend/src/migrate.ts:31-39 | filtering and sorting an already filtered and sorted list changes nothing |
| Migrations.SortIsUnique | productivity-hub-backend/src/migrate.ts:36 | two sorted arrangements of the same names are equal, so the order does not depend on the directory listing |
| Migrations.GetPendingMigrations | productivity-hub-backend/src/migrate.ts:18-25 | exactly the migrations not yet applied, in their original order |
| Migrations.ExtractFilenames | productivity-hub-backend/src/migrate.ts:27-29 | the file name of each row, row by row |
| Migrations.ExecutePending | productivity-hub-backend/src/migrate.ts:130-180 | each pending file before the first failing one is recorded in order; the failing one is reported and not recorded; the record and the stopping point are those of `ExecuteAll` |
| Migrations.FirstFailureUnique | productivity-hub-backend/src/migrate.ts:130-180 | the stopping point is determined: the only index before which nothing fails and at which a file fails (or the end) is the first failure `RunMigrations` stops at |
| Migrations.RunMigrations | productivity-hub-backend/src/migrate.ts:223-276 | no files exactly when the listing has no `.sql` name; up to date exactly when there are `.sql` names and all are applied, leaving the record alone; a completed run records exactly the sorted pending list; a failed run records a proper prefix of it and reports the next pending file, which fails; earlier records are kept |
| Migrations.ExecuteAll | productivity-hub-backend/src/migrate.ts:259-261 | over a non-empty pending list, completes with the whole list or fails at a failing file after recording the prefix before it, none of which fails |
| Migrations.PendingFacts | productivity-hub-backend/src/migrate.ts:236-253 | no files exactly when no `.sql` name is listed; nothing pending exactly when every `.sql` name is applied; pending names are never applied ones |
| Migrations.RerunAfterFailureResumes | productivity-hub-backend/src/migrate.ts:223-276 | after a failed run, the next run's pending list is the old one without the committed files, starting at the file that failed |
| Migrations.RerunAfterCompletionIsUpToDate | productivity-hub-backend/src/migrate.ts:223-276 | running again after a completed run finds every file applied and reports it up to date, leaving the record alone |

## Findings

| source | as written | input that shows it | evidently intended | confidence | as-written member | corrected member |
|---|---|---|---|---|---|---|
| productivity-hub-backend/src/routes/auth.ts:41-44 | the register password validator lists the digit rule twice | the password "Password!" gives the number message twice in `details` | one digit rule, so the messages match the client's policy | high, not executed | AuthRoutes.RegisterPasswordErrorsAsWritten, AuthRoutes.DuplicateDigitRule, AuthRoutes.DuplicateDigitExample, AuthRoutes.RegisterReportsDigitTwice | AuthRoutes.RegisterPasswordErrors |
| productivity-hub-backend/src/middleware/auth.ts:77-87 | the catch block checks `JsonWebTokenError` before `TokenExpiredError`, which is its subclass | an expired token is answered "Invalid token", never "Token has expired" | check the subclass first, so expired tokens get the expiry message | high, not executed | AuthMiddleware.HandleThrownAsWritten, AuthMiddleware.ExpiryBranchIsDead, AuthMiddleware.AuthenticateToken | AuthMiddleware.HandleThrown, AuthMiddleware.AuthenticateTokenCorrected |

## Left out

- I/O of every kind is left out. This covers Postgres connections, transactions and `pool.end`, AsyncStorage, `fetch`/axios, `readdirSync`/`readFileSync`, console logging and `process.exit`. Their results are inputs to the model.
- The bcrypt hash function itself is left out. A hash is a symbolic term holding the first 72 bytes of the password's UTF-8 encoding, so comparing accepts exactly the passwords with the same first 72 bytes. How the native library treats a NUL character inside a password is not modelled.
- JWT signing and the HMAC are left out. `jwt.verify` is a parameter that answers valid (with a user id), malformed or expired.
- `isEmail` and `normalizeEmail` from express-validator are left out. Their verdict is the boolean `emailValid`, and the normalised e-mail is taken as given.
- E-mail sending is left out. Only whether it succeeded is modelled, because that decides 201 versus 500 at routes/auth.ts:113-129.
- The database failures that end in the generic 500 catch blocks are left out, except the mail failure in register and the failed lookup in the middleware. Those catch blocks only log and answer with a fixed 500 message.
- `getTokenExpiration` reads the hours from the environment (productivity-hub-backend/src/services/emailService.ts:46-49). The model takes the hours as an input and uses 24 in the lifecycle lemmas.
- UserPreferences.GetPreferences: returns the caller's plugin rows as a map from plugin id to row. It does not model the SQL `ORDER BY enabled_at`, so the order of the `plugins.enabled` array is not stated.
- Migrations.LexLeTotal: compares characters by code point. JavaScript's default sort compares UTF-16 code units, and the two orders differ only outside the Basic Multilingual Plane.
- `logMigrationStatus`, `logExecutionPlan`, `setupMigrationTracking` and `testConnection` in migrate.ts are left out. They only log or create the tracking table.
- The `ORDER BY applied_at` query of migrate.ts is left out. The applied names are an input list in the order they were applied.
- `initialize` and `cleanup` of FakePLugin.ts are left out. They only log.
- The device write of `saveEnabledPluginsToStorage` is left out, because it is I/O. The reducer cases of that thunk are modelled.
- The screens, navigation and API client wiring are left out. They are outside the modelled core.
- The `details` arrays of express-validator are modelled only as lists of messages. The per-field `param`/`location` objects are left out.
- UserPreferences.ValidId: an id field is either missing or a string. A present value that is not a string (a number, say) is not modelled. For such a value express-validator reports "Invalid value" from `isString` and then checks the stringified value's length.
- AuthSlice.Login: assumes `loadEnabledPluginsFromAPI` exists. src/store/slices/authSlice.ts:12 imports it, but src/store/slices/pluginSlice.ts does not export it. As the two files stand, the dispatch at authSlice.ts:73 would call `undefined` inside the `try`, and the login would reject with "Login failed". The model sends the follow-up as intended.
- AuthSlice.VerifyEmail: assumes `loadEnabledPluginsFromAPI` exists, for the same reason. As the files stand, the dispatch at authSlice.ts:92 would make verification reject with "Email verification failed".
- `isLength` is modelled as in validator.js releases that skip U+FE0E and U+FE0F when counting. Releases that count them differ only on text containing those two characters.
- AuthSlice.FromServer: axios rejecting non-2xx responses is modelled as "any non-success response is a failure carrying its error text". The HTTP client itself is left out.

=== FILE: auth_middleware.dfy ===
/**
 * The request guards: `authenticateToken`, which every preferences route
 * runs first, and `optionalAuth`, which never refuses a request.
 */
module AuthMiddleware {
  import opened Wrappers
  import opened Tables

  const TokenRequiredError: string := "Access token is required"
  const InvalidTokenError: string := "Invalid token"
  const ExpiredTokenError: string := "Token has expired"
  const UserNotFoundError: string := "Invalid token - user not found or not verified"
  const MiddlewareError: string := "Internal server error during authentication"

  // --------------------------------------------------- the Authorization header

  /** The index of the first space, if any. */
  function SpaceIndex(s: string): (r: Option<nat>)
    ensures r.None? <==> ' ' !in s
    ensures r.Some? ==> r.value < |s| && s[r.value] == ' ' && ' ' !in s[..r.value]
  {
    if |s| == 0 then None
    else if s[0] == ' ' then Some(0)
    else
      match SpaceIndex(s[1..])
      case None => None
      case Some(i) =>
        assert s[..i + 1] == [s[0]] + s[1..][..i];
        Some(i + 1)
  }

  /** `s.split(' ')`: the pieces between single spaces, empty pieces included. */
  function Split(s: string): (parts: seq<string>)
    ensures |parts| >= 1
    ensures forall k :: 0 <= k < |parts| ==> ' ' !in parts[k]
    decreases |s|
  {
    match SpaceIndex(s)
    case None => [s]
    case Some(i) => [s[..i]] + Split(s[i + 1..])
  }

  /** `parts.join(' ')`. */
  function Join(parts: seq<string>): string
    requires |parts| >= 1
  {
    if |parts| == 1 then parts[0] else parts[0] + " " + Join(parts[1..])
  }

  /** Joining the pieces of a split gives the string back. */
  lemma {:induction false} JoinSplit(s: string)
    ensures Join(Split(s)) == s
    decreases |s|
  {
    match SpaceIndex(s)
    case None =>
    case Some(i) =>
      JoinSplit(s[i + 1..]);
      assert Split(s)[1..] == Split(s[i + 1..]);
      assert s == s[..i] + " " + s[i + 1..];
  }

  /** Splitting space-free pieces joined by spaces gives the pieces back. */
  lemma {:induction false} SplitJoin(parts: seq<string>)
    requires |parts| >= 1
    requires forall k :: 0 <= k < |parts| ==> ' ' !in parts[k]
    ensures Split(Join(parts)) == parts
    decreases |parts|
  {
    if |parts| > 1 {
      SplitJoin(parts[1..]);
      SplitJoinStep(parts);
    }
  }

  /** One step of `SplitJoin`: the first piece is split off at the first space. */
  lemma SplitJoinStep(parts: seq<string>)
    requires |parts| > 1 && ' ' !in parts[0]
    requires Split(Join(parts[1..])) == parts[1..]
    ensures Split(Join(parts)) == parts
  {
    var rest := Join(parts[1..]);
    FirstSpace(parts[0], rest);
    assert Join(parts) == parts[0] + " " + rest;
    assert parts == [parts[0]] + parts[1..];
  }

  /** In `a + " " + b` with a space-free `a`, the first space is the one after `a`. */
  lemma FirstSpace(a: string, b: string)
    requires ' ' !in a
    ensures SpaceIndex(a + " " + b) == Some(|a|)
    ensures Split(a + " " + b) == [a] + Split(b)
  {
    var s := a + " " + b;
    assert s[|a|] == ' ' && s[..|a|] == a && s[|a| + 1..] == b;
  }

  /**
   * `authHeader && authHeader.split(' ')[1]`, taken only when truthy: the
   * second space-separated piece, whatever the first piece says.
   */
  function ExtractToken(header: Option<string>): (t: Option<string>)
    ensures t.Some? ==> t.value != [] && ' ' !in t.value
    ensures t.Some? ==> header.Some? && |Split(header.value)| >= 2 && Split(header.value)[1] == t.value
  {
    match header
    case None => None
    case Some(h) =>
      if h == [] then None
      else
        var parts := Split(h);
        if |parts| < 2 || parts[1] == [] then None else Some(parts[1])
  }

  /**
   * A header of space-free pieces whose second piece is non-empty yields
   * that piece; with the inverse `JoinSplit`, a header yields a token
   * exactly when it has this shape.
   */
  lemma BearerHeader(parts: seq<string>)
    requires |parts| >= 2 && parts[1] != []
    requires forall k :: 0 <= k < |parts| ==> ' ' !in parts[k]
    ensures ExtractToken(Some(Join(parts))) == Some(parts[1])
  {
    SplitJoin(parts);
  }

  /** The scheme word is never looked at: `Basic t` is read like `Bearer t`. */
  lemma AnySchemeIsAccepted(scheme: string, token: string)
    requires ' ' !in scheme && ' ' !in token && token != []
    ensures ExtractToken(Some(scheme + " " + token)) == Some(token)
  {
    var parts := [scheme, token];
    assert Join(parts[1..]) == token;
    assert Join(parts) == scheme + " " + token;
    BearerHeader(parts);
  }

  /** A bare token without a scheme is not found. */
  lemma BareTokenIsRejected(token: string)
    requires ' ' !in token
    ensures ExtractToken(Some(token)).None?
  {
    SplitJoin([token]);
  }

  // ------------------------------------------------------------- the guard

  /** What `jwt.verify`, the secret check and the user query can throw. */
  datatype Thrown = SecretMissing | VerifyFailed(check: JwtCheck) | QueryFailed

  /** `error instanceof jwt.JsonWebTokenError`: a `TokenExpiredError` is one too, being its subclass. */
  predicate IsJsonWebTokenError(e: Thrown) {
    e.VerifyFailed? && (e.check.JwtMalformed? || e.check.JwtExpired?)
  }

  /** `error instanceof jwt.TokenExpiredError`. */
  predicate IsTokenExpiredError(e: Thrown) {
    e.VerifyFailed? && e.check.JwtExpired?
  }

  /** The fields `req.user` receives. */
  datatype RequestUser = RequestUser(id: UserId, email: Email, name: string, emailVerified: bool)

  /** Either the request goes on to the route, or it is answered here. */
  datatype Outcome = Next(user: RequestUser) | Reject(status: int, error: string)

  /**
   * The catch block as written: the general class is checked first, so an
   * expired token is answered "Invalid token" and the expiry branch is dead.
   */
  function HandleThrownAsWritten(e: Thrown): (r: Outcome)
    ensures r.Reject? && r.status in {401, 500}
    ensures r.status == 401 <==> e.VerifyFailed? && !e.check.JwtValid?
  {
    if IsJsonWebTokenError(e) then Reject(401, InvalidTokenError)
    else if IsTokenExpiredError(e) then Reject(401, ExpiredTokenError)
    else Reject(500, MiddlewareError)
  }

  /** The catch block with the subclass checked first, so expiry gets its own message. */
  function HandleThrown(e: Thrown): (r: Outcome)
    ensures r.Reject? && r.status in {401, 500}
    ensures r.status == 401 <==> e.VerifyFailed? && !e.check.JwtValid?
    ensures r == Reject(401, ExpiredTokenError) <==> IsTokenExpiredError(e)
  {
    if IsTokenExpiredError(e) then Reject(401, ExpiredTokenError)
    else if IsJsonWebTokenError(e) then Reject(401, InvalidTokenError)
    else Reject(500, MiddlewareError)
  }

  /** As written, no error ever gets the expiry message; an expired token reads as invalid. */
  lemma ExpiryBranchIsDead(e: Thrown)
    ensures HandleThrownAsWritten(e) != Reject(401, ExpiredTokenError)
    ensures HandleThrownAsWritten(VerifyFailed(JwtExpired)) == Reject(401, InvalidTokenError)
    ensures HandleThrown(VerifyFailed(JwtExpired)) == Reject(401, ExpiredTokenError)
  {
  }

  /** The two catch blocks differ only in the message for an expired token; the status is the same. */
  lemma HandlersAgreeExceptOnExpiry(e: Thrown)
    ensures HandleThrownAsWritten(e).status == HandleThrown(e).status
    ensures !IsTokenExpiredError(e) ==> HandleThrownAsWritten(e) == HandleThrown(e)
  {
  }

  /**
   * The guard with a given catch block: `corrected` picks `HandleThrown`,
   * otherwise the catch block as written. `verify` stands for `jwt.verify`
   * under the configured secret; `queryOk` says whether the user query
   * succeeds.
   */
  function Guard(db: Db, header: Option<string>, secretConfigured: bool,
                 verify: string -> JwtCheck, queryOk: bool, corrected: bool): (r: Outcome)
    ensures ExtractToken(header).None? ==> r == Reject(401, TokenRequiredError)
    ensures r.Next? ==>
              && ExtractToken(header).Some?
              && verify(ExtractToken(header).value) == JwtValid(r.user.id)
              && exists i :: 0 <= i < |db.users| && db.users[i].id == r.user.id && db.users[i].emailVerified
                             && r.user == RequestUser(db.users[i].id, db.users[i].email, db.users[i].name, true)
    ensures r.Reject? ==> r.status in {401, 500}
    ensures r.Reject? && r.status == 500
            <==> ExtractToken(header).Some?
                 && (!secretConfigured || (verify(ExtractToken(header).value).JwtValid? && !queryOk))
  {
    match ExtractToken(header)
    case None => Reject(401, TokenRequiredError)
    case Some(token) =>
      if !secretConfigured then Handle(SecretMissing, corrected)
      else
        match verify(token)
        case JwtValid(userId) =>
          if !queryOk then Handle(QueryFailed, corrected)
          else
            (match FindVerifiedById(db.users, userId)
             case None => Reject(401, UserNotFoundError)
             case Some(i) =>
               var u := db.users[i];
               Next(RequestUser(u.id, u.email, u.name, u.emailVerified)))
        case other => Handle(VerifyFailed(other), corrected)
  }

  function Handle(e: Thrown, corrected: bool): Outcome {
    if corrected then HandleThrown(e) else HandleThrownAsWritten(e)
  }

  /**
   * `authenticateToken` as written. The request goes on only with a token
   * whose claimed user exists and is verified; every refusal is a 401,
   * except a server fault (500); an expired token is answered
   * "Invalid token", like a malformed one.
   */
  function AuthenticateToken(db: Db, header: Option<string>, secretConfigured: bool,
                             verify: string -> JwtCheck, queryOk: bool): (r: Outcome)
    ensures ExtractToken(header).None? ==> r == Reject(401, TokenRequiredError)
    ensures r.Next? ==>
              && ExtractToken(header).Some?
              && verify(ExtractToken(header).value) == JwtValid(r.user.id)
              && exists i :: 0 <= i < |db.users| && db.users[i].id == r.user.id && db.users[i].emailVerified
                             && r.user == RequestUser(db.users[i].id, db.users[i].email, db.users[i].name, true)
    ensures r.Reject? ==> r.status in {401, 500}
    ensures r.Reject? && r.status == 500
            <==> ExtractToken(header).Some?
                 && (!secretConfigured || (verify(ExtractToken(header).value).JwtValid? && !queryOk))
    ensures ExtractToken(header).Some? && secretConfigured && !verify(ExtractToken(header).value).JwtValid?
            ==> r == Reject(401, InvalidTokenError)
    ensures r != Reject(401, ExpiredTokenError)
  {
    Guard(db, header, secretConfigured, verify, queryOk, false)
  }

  /** The guard with the corrected catch block: an expired token gets its own message. */
  function AuthenticateTokenCorrected(db: Db, header: Option<string>, secretConfigured: bool,
                                      verify: string -> JwtCheck, queryOk: bool): (r: Outcome)
    ensures ExtractToken(header).Some? && secretConfigured && verify(ExtractToken(header).value).JwtExpired?
            ==> r == Reject(401, ExpiredTokenError)
    ensures ExtractToken(header).Some? && secretConfigured && verify(ExtractToken(header).value).JwtMalformed?
            ==> r == Reject(401, InvalidTokenError)
  {
    Guard(db, header, secretConfigured, verify, queryOk, true)
  }

  /** The two guards give the same answer except on an expired token, where only the message differs. */
  lemma GuardsAgreeExceptOnExpiry(db: Db, header: Option<string>, secretConfigured: bool,
                                  verify: string -> JwtCheck, queryOk: bool)
    ensures var a := AuthenticateToken(db, header, secretConfigured, verify, queryOk);
            var c := AuthenticateTokenCorrected(db, header, secretConfigured, verify, queryOk);
            && (a.Reject? <==> c.Reject?)
            && (a.Reject? ==> a.status == c.status)
            && (a != c ==> a == Reject(401, InvalidTokenError) && c == Reject(401, ExpiredTokenError))
  {
  }

  /**
   * `optionalAuth`: always lets the request through, with a user exactly
   * when the strict guard would have let it through with that user.
   */
  function OptionalAuth(db: Db, header: Option<string>, secretConfigured: bool,
                        verify: string -> JwtCheck, queryOk: bool): (user: Option<RequestUser>)
    ensures user.Some? <==> AuthenticateToken(db, header, secretConfigured, verify, queryOk).Next?
    ensures user.Some? ==> user.value == AuthenticateToken(db, header, secretConfigured, verify, queryOk).user
  {
    match ExtractToken(header)
    case None => None
    case Some(token) =>
      if !secretConfigured then None
      else
        match verify(token)
        case JwtValid(userId) =>
          if !queryOk then None
          else
            (match FindVerifiedById(db.users, userId)
             case None => None
             case Some(i) =>
               var u := db.users[i];
               Some(RequestUser(u.id, u.email, u.name, u.emailVerified)))
        case _ => None
  }

  /**
   * A session token signed for a verified user, presented as
   * `<scheme> <token>`, admits that user until it expires and is refused
   * with 401 "Invalid token" afterwards.
   */
  lemma SessionAdmitsItsUser(db: Db, i: nat, session: SessionToken, nowMs: nat, scheme: string, token: string)
    requires i < |db.users| && db.users[i].emailVerified && session.userId == db.users[i].id
    requires forall j :: 0 <= j < |db.users| && j != i ==> db.users[j].id != db.users[i].id
    requires ' ' !in scheme && ' ' !in token && token != []
    ensures var r := AuthenticateToken(db, Some(scheme + " " + token), true,
                                       (t: string) => VerifySession(session, nowMs), true);
            && (nowMs / 1000 < session.expiresAt ==> r.Next? && r.user.id == db.users[i].id)
            && (nowMs / 1000 >= session.expiresAt ==> r == Reject(401, InvalidTokenError))
  {
    AnySchemeIsAccepted(scheme, token);
    var found := FindVerifiedById(db.users, session.userId);
    if nowMs / 1000 < session.expiresAt {
      assert found.Some? by {
        assert db.users[i].id == session.userId && db.users[i].emailVerified;
      }
      assert found.value == i;
    }
  }
}

=== FILE: auth_routes.dfy ===
/**
 * The authentication routes: `POST /register`, `GET /verify-email` and
 * `POST /login`, each a function from the tables and the request to the
 * new tables and the HTTP response.
 */
module AuthRoutes {
  import opened Wrappers
  import opened Text
  import opened ThemeUtils
  import opened PasswordPolicy
  import opened Tables

  /** The `error` field of every 400 a validator chain produces. */
  const ValidationError: string := "Validation failed"
  const EmailError: string := "Please provide a valid email"
  const NameError: string := "Name is required"
  const PasswordRequiredError: string := "Password is required"
  const UserExistsError: string := "User already exists with this email"
  const RegistrationError: string := "Internal server error during registration"
  const TokenRequiredError: string := "Verification token is required"
  const InvalidTokenError: string := "Invalid verification token"
  const TokenExpiredError: string := "Verification token has expired. Please request a new verification email."
  const BadCredentialsError: string := "Invalid email or password"
  const UnverifiedError: string :=
    "Please verify your email address before logging in. Check your inbox for a verification email."
  const AlreadyVerifiedMessage: string := "Email already verified"
  const VerifiedMessage: string := "Email verified successfully! You are now logged in."

  /** `EMAIL_VERIFICATION_EXPIRES_HOURS` when unset. */
  const DefaultVerificationHours: nat := 24
  /** `BCRYPT_SALT_ROUNDS` when unset. */
  const DefaultSaltRounds: nat := 10

  /** The user fields a response shows. */
  datatype PublicUser = PublicUser(id: UserId, email: Email, name: string, emailVerified: bool)

  datatype AuthResponse =
    | ValidationFailed(details: seq<string>)
    | Failure(status: nat, error: string)
    | Registered(user: PublicUser)
    | Verified(message: string, user: PublicUser, token: Option<SessionToken>)
    | LoggedIn(user: PublicUser, session: SessionToken)
  {
    /** A successful verification, which logs the user in. */
    predicate StartsSession() {
      Verified? && token.Some?
    }
  }

  function Status(r: AuthResponse): nat {
    match r
    case ValidationFailed(_) => 400
    case Failure(status, _) => status
    case Registered(_) => 201
    case Verified(_, _, _) => 200
    case LoggedIn(_, _) => 200
  }

  function Public(u: User): PublicUser {
    PublicUser(u.id, u.email, u.name, u.emailVerified)
  }

  // ---------------------------------------------------------------- register

  /** `isLength({ min: 8 })` of the register chain, in validator.js's units. */
  predicate ServerTooShort(pw: string) {
    ValidatorLength(pw) < MinLength
  }

  /**
   * The register route's password checks exactly as its validator chain
   * lists them: the digit rule is listed twice, so a password without a
   * digit gets its message twice. The length is validator.js's.
   */
  function RegisterPasswordErrorsAsWritten(pw: string): (errs: seq<string>)
    ensures errs == [] <==> !ServerTooShort(pw) && HasUpper(pw) && HasLower(pw) && HasDigit(pw) && HasSpecial(pw)
    ensures ServerTooShort(pw) <==> LengthError in errs
    ensures HasDigit(pw) ==> NumberError !in errs
    ensures !HasDigit(pw) ==> multiset(errs)[NumberError] == 2
  {
    NumberMessageIsDistinct();
    LengthMessageIsDistinct();
    AsWrittenList(LengthError, UppercaseError, LowercaseError, NumberError, SpecialError,
                  ServerTooShort(pw), !HasUpper(pw), !HasLower(pw), !HasDigit(pw), !HasSpecial(pw));
    When(ServerTooShort(pw), LengthError)
    + When(!HasUpper(pw), UppercaseError)
    + When(!HasLower(pw), LowercaseError)
    + When(!HasDigit(pw), NumberError)
    + When(!HasDigit(pw), NumberError)
    + When(!HasSpecial(pw), SpecialError)
  }

  /**
   * The as-written list over any five distinct messages, in terms of which
   * rules are broken: the digit rule contributes two entries.
   */
  lemma AsWrittenList<T>(len: T, up: T, low: T, num: T, sp: T,
                      short: bool, noUpper: bool, noLower: bool, noDigit: bool, noSpecial: bool)
    requires len != up && len != low && len != num && len != sp
    requires num != up && num != low && num != sp
    ensures var errs := When(short, len) + When(noUpper, up) + When(noLower, low)
                        + When(noDigit, num) + When(noDigit, num) + When(noSpecial, sp);
            && (errs == [] <==> !short && !noUpper && !noLower && !noDigit && !noSpecial)
            && (short <==> len in errs)
            && (!noDigit ==> num !in errs)
            && (noDigit ==> multiset(errs)[num] == 2)
  {
    var l, u, w, d, x := When(short, len), When(noUpper, up), When(noLower, low), When(noDigit, num), When(noSpecial, sp);
    WhenFacts(short, len, num);
    WhenFacts(noUpper, up, num);
    WhenFacts(noLower, low, num);
    WhenFacts(noDigit, num, num);
    WhenFacts(noSpecial, sp, num);
    WhenFacts(noUpper, up, len);
    WhenFacts(noLower, low, len);
    WhenFacts(noDigit, num, len);
    WhenFacts(noSpecial, sp, len);
    var errs := l + u + w + d + d + x;
    assert |errs| == |l| + |u| + |w| + |d| + |d| + |x|;
    assert len in errs <==> len in l || len in u || len in w || len in d || len in x;
    assert num in errs <==> num in l || num in u || num in w || num in d || num in x;
    assert multiset(errs) == multiset(l) + multiset(u) + multiset(w) + multiset(d) + multiset(d) + multiset(x);
  }

  /** What one guarded push contributes: its length, whether it holds `y`, and how often. */
  lemma WhenFacts<T>(cond: bool, x: T, y: T)
    ensures |When(cond, x)| == (if cond then 1 else 0)
    ensures y in When(cond, x) <==> cond && x == y
    ensures multiset(When(cond, x))[y] == (if cond && x == y then 1 else 0)
  {
  }

  /**
   * The register route's password checks with the digit rule once. Where
   * the two length units agree, which includes all plain text, this is the
   * list the client's `validatePassword` produces: the agreement the client
   * promises to keep.
   */
  function RegisterPasswordErrors(pw: string): (errs: seq<string>)
    ensures (ServerTooShort(pw) <==> Utf16Length(pw) < MinLength) ==> errs == ValidatePassword(pw).errors
    ensures IsPlainText(pw) ==> errs == ValidatePassword(pw).errors
    ensures !HasDigit(pw) ==> multiset(errs)[NumberError] == 1
  {
    NumberMessageIsDistinct();
    LengthMessageIsDistinct();
    LengthsAgreeOnPlainText(pw);
    When(ServerTooShort(pw), LengthError)
    + When(!HasUpper(pw), UppercaseError)
    + When(!HasLower(pw), LowercaseError)
    + When(!HasDigit(pw), NumberError)
    + When(!HasSpecial(pw), SpecialError)
  }

  /**
   * The two length units part on characters beyond U+FFFF: `'Aa1!😀😀'`
   * passes the client's length rule (eight code units) and fails the
   * server's (six code points), so the client shows no length error for a
   * password the server refuses.
   */
  lemma AstralPasswordLengthsDisagree()
    ensures LengthError !in ValidatePassword("Aa1!\U{1F600}\U{1F600}").errors
    ensures LengthError in RegisterPasswordErrorsAsWritten("Aa1!\U{1F600}\U{1F600}")
    ensures LengthError in RegisterPasswordErrors("Aa1!\U{1F600}\U{1F600}")
  {
    AstralExampleLengths();
    LengthUnitsDisagree("Aa1!\U{1F600}\U{1F600}");
  }

  /** Long enough in code units but short in code points: only the server reports the length. */
  lemma LengthUnitsDisagree(pw: string)
    requires Utf16Length(pw) >= MinLength && ServerTooShort(pw)
    ensures LengthError !in ValidatePassword(pw).errors
    ensures LengthError in RegisterPasswordErrorsAsWritten(pw) && LengthError in RegisterPasswordErrors(pw)
  {
  }

  /** The two lists differ exactly when the password has no digit, by one extra entry. */
  lemma DuplicateDigitRule(pw: string)
    ensures RegisterPasswordErrorsAsWritten(pw) == RegisterPasswordErrors(pw) <==> HasDigit(pw)
    ensures |RegisterPasswordErrorsAsWritten(pw)| == |RegisterPasswordErrors(pw)| + (if HasDigit(pw) then 0 else 1)
  {
    if !HasDigit(pw) {
      assert multiset(RegisterPasswordErrorsAsWritten(pw))[NumberError] == 2;
    }
  }

  /** "Password!" is told twice that it needs a number, where the client tells it once. */
  lemma DuplicateDigitExample()
    ensures RegisterPasswordErrorsAsWritten("Password!") == [NumberError, NumberError]
    ensures RegisterPasswordErrors("Password!") == [NumberError]
  {
    PasswordExampleRules();
    OnlyDigitMissing("Password!");
  }

  /** A password that breaks only the digit rule gets the number message twice as written, once corrected. */
  lemma OnlyDigitMissing(pw: string)
    requires !ServerTooShort(pw) && HasUpper(pw) && HasLower(pw) && HasSpecial(pw) && !HasDigit(pw)
    ensures RegisterPasswordErrorsAsWritten(pw) == [NumberError, NumberError]
    ensures RegisterPasswordErrors(pw) == [NumberError]
  {
    assert RegisterPasswordErrorsAsWritten(pw) == [] + [] + [] + [NumberError] + [NumberError] + [];
  }

  /** "Password!" is long enough and has an upper-case letter, a lower-case letter and a special character, but no digit. */
  lemma PasswordExampleRules()
    ensures !ServerTooShort("Password!")
    ensures HasUpper("Password!") && HasLower("Password!") && HasSpecial("Password!") && !HasDigit("Password!")
  {
    var pw := "Password!";
    assert pw[0] == 'P' && pw[1] == 'a' && pw[8] == '!';
    assert IsUpper(pw[0]) && IsLower(pw[1]) && IsSpecial(pw[8]);
    assert !HasDigit(pw) && IsPlainText(pw) by {
      forall i | 0 <= i < |pw| ensures !IsDigit(pw[i]) && InBmp(pw[i]) && !IsPresentationSelector(pw[i]) {
        assert pw == ['P', 'a', 's', 's', 'w', 'o', 'r', 'd', '!'];
      }
    }
    LengthsAgreeOnPlainText(pw);
  }

  /** `e-mail`, `password` and `name` as the validators see them. */
  datatype RegisterRequest = RegisterRequest(email: Email, emailValid: bool, password: string, name: string)

  /**
   * What the route takes from outside the request: the id the database
   * assigns, the fresh verification token, the bcrypt configuration and
   * salt, the verification lifetime in hours and whether the mail goes out.
   */
  datatype RegisterEnv = RegisterEnv(
    newUserId: UserId,
    verificationToken: string,
    saltRounds: nat,
    salt: nat,
    verificationHours: nat,
    mailSent: bool)

  /**
   * The validation errors, field by field, as express-validator reports
   * them: e-mail, the password chain as written (digit rule twice), name.
   * The name is missing when nothing `isLength` counts is left after
   * trimming.
   */
  function RegisterErrors(req: RegisterRequest): (errs: seq<string>)
    ensures errs == [] <==> (&& req.emailValid && !ServerTooShort(req.password)
                             && HasUpper(req.password) && HasLower(req.password)
                             && HasDigit(req.password) && HasSpecial(req.password)
                             && !TrimsToNothing(req.name))
    ensures IsPlainText(req.password) ==>
              (errs == [] <==> req.emailValid && ValidatePassword(req.password).isValid && !TrimsToNothing(req.name))
  {
    LengthsAgreeOnPlainText(req.password);
    When(!req.emailValid, EmailError)
    + RegisterPasswordErrorsAsWritten(req.password)
    + When(TrimsToNothing(req.name), NameError)
  }

  /** A registration with the password "Password!" is refused with the number message listed twice. */
  lemma RegisterReportsDigitTwice(db: Db, email: Email, name: string, env: RegisterEnv, now: nat)
    requires !TrimsToNothing(name)
    ensures Register(db, RegisterRequest(email, true, "Password!", name), env, now)
            == (db, ValidationFailed([NumberError, NumberError]))
  {
    var req := RegisterRequest(email, true, "Password!", name);
    PasswordExampleRules();
    DigitTwiceInDetails(req);
    var r := Register(db, req, env, now);
    assert r.1.ValidationFailed? && r.1.details == [NumberError, NumberError];
  }

  /** With a valid e-mail and name, a password missing only a digit leaves the number message twice as the whole list. */
  lemma DigitTwiceInDetails(req: RegisterRequest)
    requires req.emailValid && !TrimsToNothing(req.name)
    requires !ServerTooShort(req.password) && HasUpper(req.password) && HasLower(req.password)
    requires HasSpecial(req.password) && !HasDigit(req.password)
    ensures RegisterErrors(req) == [NumberError, NumberError]
  {
    OnlyDigitMissing(req.password);
    assert RegisterErrors(req) == [] + [NumberError, NumberError] + [];
  }

  /** The row the route inserts: trimmed name, unverified, token and expiry set. */
  function NewUser(req: RegisterRequest, env: RegisterEnv, now: nat): User {
    User(env.newUserId, req.email, Trim(req.name),
         Hash(req.password, env.saltRounds, env.salt),
         false, Some(env.verificationToken),
         Some(now + env.verificationHours * 60 * 60 * 1000))
  }

  /** The preferences row every new account starts with. */
  function DefaultPrefs(now: nat): Prefs {
    Prefs(Some(LightDefault), CoreThemeIds, now)
  }

  /**
   * `POST /register`. A validation failure or a known e-mail leaves the
   * tables alone; otherwise the user and preferences rows are written, and
   * they stay written when the verification mail then fails (500).
   */
  function Register(db: Db, req: RegisterRequest, env: RegisterEnv, now: nat): (r: (Db, AuthResponse))
    ensures r.1.ValidationFailed? <==> RegisterErrors(req) != []
    ensures r.1.ValidationFailed? ==> r.1.details == RegisterErrors(req)
    ensures r.1 == Failure(409, UserExistsError)
            <==> RegisterErrors(req) == [] && exists i :: 0 <= i < |db.users| && db.users[i].email == req.email
    ensures r.1.ValidationFailed? || r.1 == Failure(409, UserExistsError) ==> r.0 == db
    ensures r.1.Registered? || r.1 == Failure(500, RegistrationError) ==>
              && r.0.users == db.users + [NewUser(req, env, now)]
              && r.0.prefs == db.prefs[env.newUserId := DefaultPrefs(now)]
              && r.0.plugins == db.plugins
    ensures r.1 == Failure(500, RegistrationError)
            <==> RegisterErrors(req) == [] && FindByEmail(db.users, req.email).None? && !env.mailSent
    ensures r.1.Registered? ==> r.1.user == PublicUser(env.newUserId, req.email, Trim(req.name), false)
    ensures || r.1.ValidationFailed? || r.1.Registered?
            || r.1 == Failure(409, UserExistsError) || r.1 == Failure(500, RegistrationError)
  {
    var errors := RegisterErrors(req);
    if errors != [] then (db, ValidationFailed(errors))
    else if FindByEmail(db.users, req.email).Some? then (db, Failure(409, UserExistsError))
    else
      var u := NewUser(req, env, now);
      var db' := Db(db.users + [u], db.prefs[u.id := DefaultPrefs(now)], db.plugins);
      if !env.mailSent then (db', Failure(500, RegistrationError))
      else (db', Registered(PublicUser(u.id, u.email, u.name, false)))
  }

  /** An id and a token the tables have not handed out. */
  ghost predicate FreshFor(db: Db, env: RegisterEnv) {
    && (forall i :: 0 <= i < |db.users| ==> db.users[i].id != env.newUserId)
    && (forall i :: 0 <= i < |db.users| ==> db.users[i].verificationToken != Some(env.verificationToken))
  }

  /** A registration either writes nothing or adds exactly the new user and its default preferences. */
  lemma RegisterWrites(db: Db, req: RegisterRequest, env: RegisterEnv, now: nat)
    ensures var db' := Register(db, req, env, now).0;
            || db' == db
            || (&& db' == Db(db.users + [NewUser(req, env, now)], db.prefs[env.newUserId := DefaultPrefs(now)], db.plugins)
                && FindByEmail(db.users, req.email).None?)
  {
  }

  /** Appending an unverified user with a fresh e-mail, id and token keeps the invariants. */
  lemma AppendUserKeepsWellFormed(db: Db, u: User, prefs: map<UserId, Prefs>)
    requires WellFormed(db)
    requires forall i :: 0 <= i < |db.users| ==> db.users[i].email != u.email && db.users[i].id != u.id
    requires forall i :: 0 <= i < |db.users| ==> db.users[i].verificationToken != u.verificationToken
    requires !u.emailVerified && u.verificationToken.Some? && u.verificationExpires.Some?
    ensures WellFormed(Db(db.users + [u], prefs, db.plugins))
  {
    var users := db.users + [u];
    forall i, j | 0 <= i < j < |users|
      ensures users[i].email != users[j].email && users[i].id != users[j].id
    {
      if j == |db.users| {
        assert users[i] == db.users[i] && users[j] == u;
      } else {
        assert users[i] == db.users[i] && users[j] == db.users[j];
      }
    }
    forall i | 0 <= i < |users|
      ensures (users[i].emailVerified <==> users[i].verificationToken.None?)
      ensures (users[i].emailVerified <==> users[i].verificationExpires.None?)
    {
      if i < |db.users| { assert users[i] == db.users[i]; }
    }
    forall i, j | 0 <= i < j < |users| && users[i].verificationToken.Some?
      ensures users[i].verificationToken != users[j].verificationToken
    {
      if j == |db.users| {
        assert users[i] == db.users[i] && users[j] == u;
      } else {
        assert users[i] == db.users[i] && users[j] == db.users[j];
      }
    }
  }

  lemma RegisterKeepsWellFormed(db: Db, req: RegisterRequest, env: RegisterEnv, now: nat)
    requires WellFormed(db) && FreshFor(db, env)
    ensures WellFormed(Register(db, req, env, now).0)
  {
    RegisterWrites(db, req, env, now);
    if Register(db, req, env, now).0 != db {
      var u := NewUser(req, env, now);
      forall i | 0 <= i < |db.users| ensures db.users[i].email != u.email {
        assert !(db.users[i].email == req.email);
      }
      AppendUserKeepsWellFormed(db, u, db.prefs[env.newUserId := DefaultPrefs(now)]);
    }
  }

  /** Registering an e-mail that is already in the table is refused without a write. */
  lemma SecondRegistrationConflicts(db: Db, req: RegisterRequest, env: RegisterEnv, now: nat,
                                    req2: RegisterRequest, env2: RegisterEnv, later: nat)
    requires Status(Register(db, req, env, now).1) == 201
    requires req2.email == req.email && RegisterErrors(req2) == []
    ensures Register(Register(db, req, env, now).0, req2, env2, later).1 == Failure(409, UserExistsError)
    ensures Register(Register(db, req, env, now).0, req2, env2, later).0 == Register(db, req, env, now).0
  {
    var db1 := Register(db, req, env, now).0;
    assert db1.users[|db.users|].email == req.email;
    KnownEmailConflicts(db1, req2, env2, later, |db.users|);
  }

  /** A valid request for an e-mail some row already holds is refused with 409 and writes nothing. */
  lemma KnownEmailConflicts(db: Db, req: RegisterRequest, env: RegisterEnv, now: nat, i: nat)
    requires RegisterErrors(req) == []
    requires i < |db.users| && db.users[i].email == req.email
    ensures Register(db, req, env, now) == (db, Failure(409, UserExistsError))
  {
  }

  // ------------------------------------------------------------ verify-email

  /** `req.query.token`: absent, a single string, or a repeated parameter (an array). */
  datatype QueryParam = Absent | Single(value: string) | Repeated

  /** `new Date(user.email_verification_expires)` in milliseconds; NULL reads as the epoch. */
  function ExpiryMillis(u: User): nat {
    u.verificationExpires.GetOr(0)
  }

  /**
   * `GET /verify-email`. The first user holding the token is looked at; an
   * already verified one is reported without a write; an expired token is
   * refused; otherwise the user becomes verified, the token and expiry are
   * cleared and a session token is issued.
   */
  function VerifyEmail(db: Db, token: QueryParam, now: nat): (r: (Db, AuthResponse))
    ensures r.1 == Failure(400, TokenRequiredError) <==> !token.Single? || token.value == []
    ensures r.1 == Failure(400, InvalidTokenError)
            <==> token.Single? && token.value != []
                 && forall i :: 0 <= i < |db.users| ==> db.users[i].verificationToken != Some(token.value)
    ensures !r.1.StartsSession() ==> r.0 == db
    ensures r.1.StartsSession() ==>
              && token.Single? && FindByToken(db.users, token.value).Some?
              && var i := FindByToken(db.users, token.value).value;
                   && !db.users[i].emailVerified
                   && now <= ExpiryMillis(db.users[i])
                   && r.0.users == db.users[i := db.users[i].(emailVerified := true,
                                                              verificationToken := None,
                                                              verificationExpires := None)]
                   && r.1.user == Public(r.0.users[i])
                   && r.1.token == Some(CreateJwtToken(db.users[i].id, db.users[i].email, now))
                   && r.0.prefs == db.prefs && r.0.plugins == db.plugins
    ensures token.Single? && token.value != [] && FindByToken(db.users, token.value).Some? ==>
              var u := db.users[FindByToken(db.users, token.value).value];
              && (u.emailVerified ==> r == (db, Verified(AlreadyVerifiedMessage, Public(u).(emailVerified := true), None)))
              && (!u.emailVerified && now > ExpiryMillis(u) ==> r == (db, Failure(400, TokenExpiredError)))
              && (!u.emailVerified && now <= ExpiryMillis(u) ==> r.1.StartsSession())
    ensures Status(r.1) in {200, 400}
  {
    if !token.Single? || token.value == [] then (db, Failure(400, TokenRequiredError))
    else
      match FindByToken(db.users, token.value)
      case None => (db, Failure(400, InvalidTokenError))
      case Some(i) =>
        var u := db.users[i];
        if u.emailVerified then (db, Verified(AlreadyVerifiedMessage, Public(u).(emailVerified := true), None))
        else if now > ExpiryMillis(u) then (db, Failure(400, TokenExpiredError))
        else
          var v := u.(emailVerified := true, verificationToken := None, verificationExpires := None);
          var db' := db.(users := db.users[i := v]);
          (db', Verified(VerifiedMessage, Public(v), Some(CreateJwtToken(v.id, v.email, now))))
  }

  lemma VerifyEmailKeepsWellFormed(db: Db, token: QueryParam, now: nat)
    requires WellFormed(db)
    ensures WellFormed(VerifyEmail(db, token, now).0)
  {
    var r := VerifyEmail(db, token, now);
    if r.0 != db {
      var i := FindByToken(db.users, token.value).value;
      var users := r.0.users;
      assert users == db.users[i := users[i]];
      assert users[i].verificationToken.None? && users[i].emailVerified;
      forall a, b | 0 <= a < b < |users|
        ensures users[a].email != users[b].email && users[a].id != users[b].id
      {
        assert users[a].email == db.users[a].email && users[a].id == db.users[a].id;
        assert users[b].email == db.users[b].email && users[b].id == db.users[b].id;
      }
    }
  }

  /**
   * Under the table invariants a token never leads to an already verified
   * user: the "Email already verified" answer cannot be produced.
   */
  lemma AlreadyVerifiedIsUnreachable(db: Db, token: QueryParam, now: nat)
    requires WellFormed(db)
    ensures !(VerifyEmail(db, token, now).1.Verified? && VerifyEmail(db, token, now).1.token.None?)
  {
  }

  /**
   * Using a verification link a second time fails as an unknown token:
   * the first use cleared it.
   */
  lemma VerificationReplayIsRejected(db: Db, token: QueryParam, now: nat, later: nat)
    requires WellFormed(db)
    requires VerifyEmail(db, token, now).1.Verified?
    ensures VerifyEmail(VerifyEmail(db, token, now).0, token, later).1 == Failure(400, InvalidTokenError)
  {
    var db1 := VerifyEmail(db, token, now).0;
    var i := FindByToken(db.users, token.value).value;
    forall j | 0 <= j < |db1.users|
      ensures db1.users[j].verificationToken != Some(token.value)
    {
      if j != i {
        assert db1.users[j] == db.users[j];
        if j < i {
          assert db.users[j].verificationToken != Some(token.value);
        } else {
          assert db.users[i].verificationToken.Some?;
        }
      }
    }
  }

  // ------------------------------------------------------------------- login

  datatype LoginRequest = LoginRequest(email: Email, emailValid: bool, password: string)

  function LoginErrors(req: LoginRequest): (errs: seq<string>)
    ensures errs == [] <==> req.emailValid && ValidatorLength(req.password) > 0
    ensures req.password == [] ==> PasswordRequiredError in errs
  {
    When(!req.emailValid, EmailError) + When(ValidatorLength(req.password) == 0, PasswordRequiredError)
  }

  /**
   * `POST /login`. An unknown e-mail and a wrong password get the same 401;
   * a right password on an unverified account gets 403; only a verified
   * account with the right password gets a session token. Nothing is written.
   */
  function Login(db: Db, req: LoginRequest, now: nat): (r: (Db, AuthResponse))
    ensures r.0 == db
    ensures r.1.ValidationFailed? <==> LoginErrors(req) != []
    ensures r.1.ValidationFailed? ==> r.1.details == LoginErrors(req)
    ensures r.1 == Failure(401, BadCredentialsError)
            <==> LoginErrors(req) == [] &&
                 match FindByEmail(db.users, req.email)
                 case None => true
                 case Some(i) => !Compare(req.password, db.users[i].passwordHash)
    ensures r.1 == Failure(403, UnverifiedError)
            <==> LoginErrors(req) == [] &&
                 match FindByEmail(db.users, req.email)
                 case None => false
                 case Some(i) => Compare(req.password, db.users[i].passwordHash) && !db.users[i].emailVerified
    ensures r.1.LoggedIn? ==>
              && FindByEmail(db.users, req.email).Some?
              && var i := FindByEmail(db.users, req.email).value;
                && Compare(req.password, db.users[i].passwordHash)
                && db.users[i].emailVerified
                && r.1.user == Public(db.users[i])
                && r.1.session == CreateJwtToken(db.users[i].id, db.users[i].email, now)
    ensures && LoginErrors(req) == [] && FindByEmail(db.users, req.email).Some?
            && Compare(req.password, db.users[FindByEmail(db.users, req.email).value].passwordHash)
            && db.users[FindByEmail(db.users, req.email).value].emailVerified
            ==> r.1.LoggedIn?
    ensures Status(r.1) in {200, 400, 401, 403}
  {
    var errors := LoginErrors(req);
    if errors != [] then (db, ValidationFailed(errors))
    else
      match FindByEmail(db.users, req.email)
      case None => (db, Failure(401, BadCredentialsError))
      case Some(i) =>
        var u := db.users[i];
        if !Compare(req.password, u.passwordHash) then (db, Failure(401, BadCredentialsError))
        else if !u.emailVerified then (db, Failure(403, UnverifiedError))
        else (db, LoggedIn(Public(u).(emailVerified := true), CreateJwtToken(u.id, u.email, now)))
  }

  // ------------------------------------------------------------ the lifecycle

  /**
   * After a successful registration the new row is the one both the e-mail
   * and the verification token find.
   */
  lemma RegisteredRowIsFound(db: Db, req: RegisterRequest, env: RegisterEnv, now: nat)
    requires FreshFor(db, env)
    requires Status(Register(db, req, env, now).1) == 201
    ensures var users := Register(db, req, env, now).0.users;
            && |users| == |db.users| + 1
            && users[|db.users|] == NewUser(req, env, now)
            && FindByEmail(users, req.email) == Some(|db.users|)
            && FindByToken(users, env.verificationToken) == Some(|db.users|)
  {
    var u := NewUser(req, env, now);
    assert FindByEmail(db.users, u.email).None?;
    FindByEmailAppend(db.users, u);
    FindByTokenAppend(db.users, u, env.verificationToken);
  }

  /** Logging in as a user the e-mail finds, unverified and with the right password: 403. */
  lemma LoginUnverified(db: Db, i: nat, password: string, now: nat)
    requires i < |db.users| && ValidatorLength(password) > 0
    requires FindByEmail(db.users, db.users[i].email) == Some(i)
    requires Compare(password, db.users[i].passwordHash) && !db.users[i].emailVerified
    ensures Login(db, LoginRequest(db.users[i].email, true, password), now).1 == Failure(403, UnverifiedError)
  {
  }

  /**
   * Logging in as a verified user the e-mail finds: a password the stored
   * hash accepts succeeds, any other gets 401.
   */
  lemma LoginVerified(db: Db, i: nat, password: string, now: nat)
    requires i < |db.users| && ValidatorLength(password) > 0
    requires FindByEmail(db.users, db.users[i].email) == Some(i)
    requires db.users[i].emailVerified
    ensures Login(db, LoginRequest(db.users[i].email, true, password), now).1.LoggedIn?
            <==> Compare(password, db.users[i].passwordHash)
    ensures !Compare(password, db.users[i].passwordHash)
            ==> Login(db, LoginRequest(db.users[i].email, true, password), now).1 == Failure(401, BadCredentialsError)
  {
  }

  /** A successful registration writes the new row after the existing ones. */
  lemma RegisterSuccessRow(db: Db, req: RegisterRequest, env: RegisterEnv, now: nat)
    requires Status(Register(db, req, env, now).1) == 201
    ensures Register(db, req, env, now).0.users == db.users + [NewUser(req, env, now)]
    ensures req.password != []
  {
    assert ValidatePassword(req.password).isValid;
  }

  /** Right after a successful registration the account cannot log in yet (403). */
  lemma RegisteredButUnverified(db: Db, req: RegisterRequest, env: RegisterEnv, now: nat, later: nat)
    requires FreshFor(db, env)
    requires Status(Register(db, req, env, now).1) == 201
    ensures Login(Register(db, req, env, now).0, LoginRequest(req.email, true, req.password), later).1
            == Failure(403, UnverifiedError)
  {
    var db1 := Register(db, req, env, now).0;
    RegisterSuccessRow(db, req, env, now);
    RegisteredRowIsFound(db, req, env, now);
    HashThenCompare(req.password, req.password, env.saltRounds, env.salt);
    LoginUnverified(db1, |db.users|, req.password, later);
  }

  /** The tables after registering. */
  function RegisterTables(db: Db, req: RegisterRequest, env: RegisterEnv, now: nat): Db {
    Register(db, req, env, now).0
  }

  /** The tables after registering and then following the verification link. */
  function VerifiedTables(db: Db, req: RegisterRequest, env: RegisterEnv, now: nat, clicked: nat): Db {
    VerifyEmail(RegisterTables(db, req, env, now), Single(env.verificationToken), clicked).0
  }

  /**
   * The account lifecycle: following the link of a successful registration
   * before it expires verifies the account; then the registered password
   * logs in, and so does any password that agrees with it on the first 72
   * bytes; every other password is refused (401).
   */
  lemma RegisterVerifyLogin(db: Db, req: RegisterRequest, env: RegisterEnv, now: nat,
                            clicked: nat, later: nat, other: string)
    requires FreshFor(db, env)
    requires Status(Register(db, req, env, now).1) == 201
    requires env.verificationToken != []
    requires clicked <= now + env.verificationHours * 60 * 60 * 1000
    requires ValidatorLength(other) > 0
    ensures VerifyEmail(RegisterTables(db, req, env, now), Single(env.verificationToken), clicked).1.StartsSession()
    ensures Login(VerifiedTables(db, req, env, now, clicked), LoginRequest(req.email, true, req.password), later).1.LoggedIn?
    ensures Login(VerifiedTables(db, req, env, now, clicked), LoginRequest(req.email, true, other), later).1.LoggedIn?
            <==> BcryptKey(other) == BcryptKey(req.password)
    ensures BcryptKey(other) != BcryptKey(req.password)
            ==> Login(VerifiedTables(db, req, env, now, clicked), LoginRequest(req.email, true, other), later).1
                == Failure(401, BadCredentialsError)
  {
    var db1 := Register(db, req, env, now).0;
    RegisterSuccessRow(db, req, env, now);
    RegisteredRowIsFound(db, req, env, now);
    var u := NewUser(req, env, now);
    assert db1.users[|db.users|] == u;
    assert ExpiryMillis(u) == now + env.verificationHours * 60 * 60 * 1000;
    assert ValidatorLength(req.password) > 0;
    HashThenCompare(req.password, other, env.saltRounds, env.salt);
    VerifyThenLogin(db1, |db.users|, env.verificationToken, req.password, clicked, later);
    VerifyThenLogin(db1, |db.users|, env.verificationToken, other, clicked, later);
  }

  /**
   * bcrypt's 72-byte limit seen through the routes: after registering and
   * verifying with a password of 72 characters or more, a different
   * password that shares those first 72 characters logs in too.
   */
  lemma LongPasswordSharesLogin(db: Db, req: RegisterRequest, env: RegisterEnv, now: nat,
                                clicked: nat, later: nat, prefix: string, x: string, y: string)
    requires FreshFor(db, env)
    requires Status(Register(db, req, env, now).1) == 201
    requires env.verificationToken != []
    requires clicked <= now + env.verificationHours * 60 * 60 * 1000
    requires req.password == prefix + x && |prefix| >= BcryptMaxKeyBytes
    requires ValidatorLength(prefix + y) > 0
    ensures Login(VerifiedTables(db, req, env, now, clicked), LoginRequest(req.email, true, prefix + y), later).1.LoggedIn?
  {
    SharedPrefixCollides(prefix, x, y, env.saltRounds, env.salt);
    HashThenCompare(prefix + x, prefix + y, env.saltRounds, env.salt);
    RegisterVerifyLogin(db, req, env, now, clicked, later, prefix + y);
  }

  /**
   * Verifying the row a token and an e-mail both find, then logging in with
   * that e-mail: a password the row's hash accepts succeeds, any other is
   * refused.
   */
  lemma VerifyThenLogin(db: Db, n: nat, token: string, password: string, clicked: nat, later: nat)
    requires n < |db.users| && token != [] && ValidatorLength(password) > 0
    requires FindByToken(db.users, token) == Some(n)
    requires FindByEmail(db.users, db.users[n].email) == Some(n)
    requires !db.users[n].emailVerified && clicked <= ExpiryMillis(db.users[n])
    ensures VerifyEmail(db, Single(token), clicked).1.StartsSession()
    ensures Login(VerifyEmail(db, Single(token), clicked).0, LoginRequest(db.users[n].email, true, password), later).1.LoggedIn?
            <==> Compare(password, db.users[n].passwordHash)
    ensures !Compare(password, db.users[n].passwordHash)
            ==> Login(VerifyEmail(db, Single(token), clicked).0, LoginRequest(db.users[n].email, true, password), later).1
                == Failure(401, BadCredentialsError)
  {
    var v := db.users[n].(emailVerified := true, verificationToken := None, verificationExpires := None);
    var db2 := VerifyEmail(db, Single(token), clicked).0;
    assert db2.users == db.users[n := v];
    FindByEmailUpdate(db.users, n, v);
    LoginVerified(db2, n, password, later);
  }
}

=== FILE: auth_slice.dfy ===
/**
 * The client's authentication store: the session state, the thunks that
 * call the authentication routes, and the reducer that folds their
 * outcomes into the state.
 */
module AuthSlice {
  import opened Wrappers
  import opened Text
  import Tables
  import AuthRoutes

  datatype User = User(id: string, email: string, name: string, emailVerified: bool)

  datatype AuthState = AuthState(
    user: Option<User>,
    isAuthenticated: bool,
    isLoading: bool,
    error: Option<string>,
    isInitialized: bool)

  const InitialState: AuthState := AuthState(None, false, false, None, false)

  const RegistrationFailed: string := "Registration failed"
  const LoginFailed: string := "Login failed"
  const VerificationFailed: string := "Email verification failed"

  /** What a request to the server gives a thunk: the user, or the `error` field of a failed response. */
  datatype ApiResult = ApiOk(user: User) | ApiFailed(serverError: Option<string>)

  /** The loads a successful login or verification dispatches. */
  datatype FollowUp = LoadUserPreferences | LoadEnabledPluginsFromApi

  datatype AuthAction =
    | ClearError
    | UpdateUser(user: User)
    | CheckAuthPending
    | CheckAuthFulfilled(found: Option<User>)
    | CheckAuthRejected
    | RegisterPending
    | RegisterFulfilled(registered: User)
    | RegisterRejected(message: string)
    | LoginPending
    | LoginFulfilled(loggedIn: User)
    | LoginRejected(message: string)
    | VerifyEmailPending
    | VerifyEmailFulfilled(verified: User)
    | VerifyEmailRejected(message: string)
    | LogoutFulfilled

  // ------------------------------------------------------------------ thunks

  /**
   * `checkAuth`: asks for the profile only when a token is stored; a throw
   * anywhere (None) counts as signed out. It never rejects.
   */
  function CheckAuth(hasToken: Option<bool>, profile: Option<User>): (a: AuthAction)
    ensures a.CheckAuthFulfilled?
    ensures a.found.Some? <==> hasToken == Some(true) && profile.Some?
    ensures a.found.Some? ==> a.found == profile
  {
    if hasToken == Some(true) then CheckAuthFulfilled(profile) else CheckAuthFulfilled(None)
  }

  /** `register`: the created user, or the server's error message (falling back to "Registration failed"). */
  function Register(result: ApiResult): (a: AuthAction)
    ensures a.RegisterFulfilled? <==> result.ApiOk?
    ensures a.RegisterFulfilled? ==> a.registered == result.user
    ensures a.RegisterRejected? ==> a.message == MessageOr(result.serverError, RegistrationFailed)
  {
    match result
    case ApiOk(u) => RegisterFulfilled(u)
    case ApiFailed(e) => RegisterRejected(MessageOr(e, RegistrationFailed))
  }

  /** `login`: on success also dispatches the preference and plugin loads. */
  function Login(result: ApiResult): (r: (AuthAction, seq<FollowUp>))
    ensures r.0.LoginFulfilled? <==> result.ApiOk?
    ensures r.0.LoginFulfilled? ==> r.0.loggedIn == result.user
    ensures r.0.LoginRejected? ==> r.0.message == MessageOr(result.serverError, LoginFailed)
    ensures r.1 != [] <==> result.ApiOk?
  {
    match result
    case ApiOk(u) => (LoginFulfilled(u), [LoadUserPreferences, LoadEnabledPluginsFromApi])
    case ApiFailed(e) => (LoginRejected(MessageOr(e, LoginFailed)), [])
  }

  /** `verifyEmail`: on success also dispatches the preference and plugin loads. */
  function VerifyEmail(result: ApiResult): (r: (AuthAction, seq<FollowUp>))
    ensures r.0.VerifyEmailFulfilled? <==> result.ApiOk?
    ensures r.0.VerifyEmailFulfilled? ==> r.0.verified == result.user
    ensures r.0.VerifyEmailRejected? ==> r.0.message == MessageOr(result.serverError, VerificationFailed)
    ensures r.1 != [] <==> result.ApiOk?
  {
    match result
    case ApiOk(u) => (VerifyEmailFulfilled(u), [LoadUserPreferences, LoadEnabledPluginsFromApi])
    case ApiFailed(e) => (VerifyEmailRejected(MessageOr(e, VerificationFailed)), [])
  }

  /** How a response of the authentication routes reaches a thunk: its user, or its `error` field. */
  function FromServer(r: AuthRoutes.AuthResponse): (result: ApiResult)
    ensures result.ApiOk? <==> r.Registered? || r.Verified? || r.LoggedIn?
    ensures r.Failure? ==> result == ApiFailed(Some(r.error))
  {
    match r
    case ValidationFailed(_) => ApiFailed(Some(AuthRoutes.ValidationError))
    case Failure(_, e) => ApiFailed(Some(e))
    case Registered(u) => ApiOk(User(u.id, u.email, u.name, u.emailVerified))
    case Verified(_, u, _) => ApiOk(User(u.id, u.email, u.name, u.emailVerified))
    case LoggedIn(u, _) => ApiOk(User(u.id, u.email, u.name, u.emailVerified))
  }

  // ----------------------------------------------------------------- reducer

  /** The auth reducer: the two plain reducers and the cases of every thunk. */
  function Reduce(s: AuthState, a: AuthAction): (r: AuthState)
    ensures (a.CheckAuthPending? || a.RegisterPending? || a.LoginPending? || a.VerifyEmailPending?)
            ==> r == s.(isLoading := true, error := None)
    ensures (a.CheckAuthFulfilled? || a.CheckAuthRejected? || a.LoginFulfilled? || a.VerifyEmailFulfilled?)
            ==> r.isInitialized && !r.isLoading && (r.isAuthenticated <==> r.user.Some?) && r.error == s.error
    ensures a.CheckAuthFulfilled? ==> r.user == a.found
    ensures a.CheckAuthRejected? ==> r.user.None? && !r.isAuthenticated
    ensures a.LoginFulfilled? ==> r.user == Some(a.loggedIn) && r.isAuthenticated
    ensures a.VerifyEmailFulfilled? ==> r.user == Some(a.verified) && r.isAuthenticated
    ensures a.RegisterFulfilled? ==>
              r.user == Some(a.registered) && !r.isAuthenticated && !r.isLoading
              && r.isInitialized == s.isInitialized && r.error == s.error
    ensures (a.RegisterRejected? || a.LoginRejected? || a.VerifyEmailRejected?)
            ==> r == s.(isLoading := false, error := Some(a.message))
    ensures a.LogoutFulfilled? ==> r.user.None? && !r.isAuthenticated && r.error.None? && !r.isLoading
    ensures a.ClearError? ==> r == s.(error := None)
    ensures a.UpdateUser? ==> r == s.(user := Some(a.user))
    ensures s.isInitialized ==> r.isInitialized
  {
    match a
    case ClearError => s.(error := None)
    case UpdateUser(u) => s.(user := Some(u))
    case CheckAuthPending => s.(isLoading := true, error := None)
    case CheckAuthFulfilled(found) =>
      s.(isLoading := false, isInitialized := true, user := found, isAuthenticated := found.Some?)
    case CheckAuthRejected => s.(isLoading := false, isInitialized := true, user := None, isAuthenticated := false)
    case RegisterPending => s.(isLoading := true, error := None)
    case RegisterFulfilled(u) => s.(isLoading := false, user := Some(u), isAuthenticated := false)
    case RegisterRejected(m) => s.(isLoading := false, error := Some(m))
    case LoginPending => s.(isLoading := true, error := None)
    case LoginFulfilled(u) => s.(isLoading := false, user := Some(u), isAuthenticated := true, isInitialized := true)
    case LoginRejected(m) => s.(isLoading := false, error := Some(m))
    case VerifyEmailPending => s.(isLoading := true, error := None)
    case VerifyEmailFulfilled(u) =>
      s.(isLoading := false, user := Some(u), isAuthenticated := true, isInitialized := true)
    case VerifyEmailRejected(m) => s.(isLoading := false, error := Some(m))
    case LogoutFulfilled => s.(user := None, isAuthenticated := false, error := None, isLoading := false)
  }

  /** A signed-in state always has a user. */
  ghost predicate Coherent(s: AuthState) {
    s.isAuthenticated ==> s.user.Some?
  }

  /** Every action keeps a signed-in state holding a user. */
  lemma ReduceKeepsCoherent(s: AuthState, a: AuthAction)
    requires Coherent(s)
    ensures Coherent(Reduce(s, a))
  {
  }

  function ReduceAll(s: AuthState, actions: seq<AuthAction>): AuthState
    decreases |actions|
  {
    if |actions| == 0 then s else ReduceAll(Reduce(s, actions[0]), actions[1..])
  }

  /** Along any run from the initial state the state stays coherent, and once initialised it stays so. */
  lemma {:induction false} RunKeepsCoherent(s: AuthState, actions: seq<AuthAction>)
    requires Coherent(s)
    ensures Coherent(ReduceAll(s, actions))
    ensures s.isInitialized ==> ReduceAll(s, actions).isInitialized
    decreases |actions|
  {
    if |actions| > 0 {
      ReduceKeepsCoherent(s, actions[0]);
      RunKeepsCoherent(Reduce(s, actions[0]), actions[1..]);
    }
  }

  /** Registering does not sign in: the user is kept but the state stays signed out. */
  lemma RegistrationDoesNotSignIn(s: AuthState, u: User)
    ensures var r := Reduce(Reduce(s, RegisterPending), Register(ApiOk(u)));
            r.user == Some(u) && !r.isAuthenticated && !r.isLoading && r.error.None?
  {
  }

  /**
   * A login with a wrong password: the server's 401 message ends up as the
   * store's error, the state is not signed in, and nothing more is loaded.
   */
  lemma WrongPasswordShowsServerMessage(db: Tables.Db, req: AuthRoutes.LoginRequest, now: nat)
    requires AuthRoutes.Login(db, req, now).1 == AuthRoutes.Failure(401, AuthRoutes.BadCredentialsError)
    ensures var step := Login(FromServer(AuthRoutes.Login(db, req, now).1));
            && step.1 == []
            && var r := Reduce(Reduce(InitialState, LoginPending), step.0);
               r.error == Some(AuthRoutes.BadCredentialsError) && !r.isAuthenticated
  {
  }

  /** A successful login signs in with the server's user and loads preferences and plugins. */
  lemma LoginSignsIn(s: AuthState, u: User)
    ensures var step := Login(ApiOk(u));
            && step.1 == [LoadUserPreferences, LoadEnabledPluginsFromApi]
            && var r := Reduce(Reduce(s, LoginPending), step.0);
               r.user == Some(u) && r.isAuthenticated && r.isInitialized && !r.isLoading && r.error.None?
  {
  }

  /** A successful verification signs in with the server's user and loads preferences and plugins. */
  lemma VerificationSignsIn(s: AuthState, u: User)
    ensures var step := VerifyEmail(ApiOk(u));
            && step.1 == [LoadUserPreferences, LoadEnabledPluginsFromApi]
            && var r := Reduce(Reduce(s, VerifyEmailPending), step.0);
               r.user == Some(u) && r.isAuthenticated && r.isInitialized && !r.isLoading && r.error.None?
  {
  }

  /** Logging out after any session returns to a signed-out state that keeps `isInitialized`. */
  lemma LogoutSignsOut(s: AuthState)
    ensures var r := Reduce(s, LogoutFulfilled);
            && r == InitialState.(isInitialized := s.isInitialized)
  {
  }
}

=== FILE: fake_plugin.dfy ===
/**
 * `FakePlugin`, the placeholder implementation of the plugin capability
 * interface: fixed display data and one mutable flag.
 */
module FakePlugin {

  datatype Status = Active | Inactive | Error

  /** The name the status has in the interface's string union. */
  function StatusName(s: Status): string {
    match s
    case Active => "active"
    case Inactive => "inactive"
    case Error => "error"
  }

  datatype DisplayInfo = DisplayInfo(name: string, status: Status, icon: string, description: string)

  datatype Plugin = Plugin(id: string, name: string, description: string, icon: string, enabled: bool)

  /** The constructor: a new plugin starts disabled. */
  function New(id: string, name: string, description: string, icon: string): (p: Plugin)
    ensures !p.enabled
    ensures p.id == id && p.name == name && p.description == description && p.icon == icon
  {
    Plugin(id, name, description, icon, false)
  }

  /** `enable`: sets the flag and nothing else. */
  function Enable(p: Plugin): (r: Plugin)
    ensures r.enabled
    ensures r.id == p.id && r.name == p.name && r.description == p.description && r.icon == p.icon
  {
    p.(enabled := true)
  }

  /** `disable`: clears the flag and nothing else. */
  function Disable(p: Plugin): (r: Plugin)
    ensures !r.enabled
    ensures r.id == p.id && r.name == p.name && r.description == p.description && r.icon == p.icon
  {
    p.(enabled := false)
  }

  lemma EnableDisableIdempotent(p: Plugin)
    ensures Enable(Enable(p)) == Enable(p)
    ensures Disable(Disable(p)) == Disable(p)
    ensures Disable(Enable(p)) == Disable(p) && Enable(Disable(p)) == Enable(p)
  {
  }

  /** `getStatus`: active exactly when enabled; never the error status. */
  function GetStatus(p: Plugin): (s: Status)
    ensures s == Active <==> p.enabled
    ensures s != Error
    ensures StatusName(s) == (if p.enabled then "active" else "inactive")
  {
    if p.enabled then Active else Inactive
  }

  /** `getDisplayInfo`: copies the display fields and reports `getStatus()`. */
  function GetDisplayInfo(p: Plugin): (d: DisplayInfo)
    ensures d.name == p.name && d.icon == p.icon && d.description == p.description
    ensures d.status == GetStatus(p)
    ensures d.status != Error
  {
    DisplayInfo(p.name, GetStatus(p), p.icon, p.description)
  }

  /** A fresh plugin reports itself inactive until enabled. */
  lemma NewPluginIsInactive(id: string, name: string, description: string, icon: string)
    ensures GetStatus(New(id, name, description, icon)) == Inactive
    ensures GetStatus(Enable(New(id, name, description, icon))) == Active
  {
  }
}

=== FILE: migrations.dfy ===
/**
 * The migration runner: which files are migrations, in which order they
 * run, which are still pending, and what a run records.
 */
module Migrations {
  import opened Wrappers
  import opened Seqs

  /** A row of `schema_migrations`. */
  datatype MigrationRecord = MigrationRecord(id: nat, filename: string, appliedAt: nat)

  /** `filename.endsWith('.sql')`. */
  predicate EndsWithSql(name: string) {
    |name| >= 4 && name[|name| - 4..] == ".sql"
  }

  // ------------------------------------------------------- code-unit order

  /** The default order of `Array.prototype.sort` on strings: lexicographic by character. */
  predicate LexLe(a: string, b: string)
    decreases |a|
  {
    |a| == 0 || (|b| > 0 && (a[0] < b[0] || (a[0] == b[0] && LexLe(a[1..], b[1..]))))
  }

  lemma {:induction false} LexLeTotal(a: string, b: string)
    ensures LexLe(a, b) || LexLe(b, a)
    decreases |a|
  {
    if |a| > 0 && |b| > 0 && a[0] == b[0] {
      LexLeTotal(a[1..], b[1..]);
    }
  }

  lemma {:induction false} LexLeTransitive(a: string, b: string, c: string)
    requires LexLe(a, b) && LexLe(b, c)
    ensures LexLe(a, c)
    decreases |a|
  {
    if |a| > 0 && a[0] == b[0] && b[0] == c[0] {
      LexLeTransitive(a[1..], b[1..], c[1..]);
    }
  }

  lemma {:induction false} LexLeAntisymmetric(a: string, b: string)
    requires LexLe(a, b) && LexLe(b, a)
    ensures a == b
    decreases |a|
  {
    if |a| > 0 {
      LexLeAntisymmetric(a[1..], b[1..]);
      assert a == [a[0]] + a[1..] && b == [b[0]] + b[1..];
    }
  }

  ghost predicate Sorted(s: seq<string>) {
    forall i, j :: 0 <= i < j < |s| ==> LexLe(s[i], s[j])
  }

  /** Inserts `x` before the first element it does not exceed. */
  function Insert(x: string, s: seq<string>): (r: seq<string>)
    requires Sorted(s)
    ensures Sorted(r)
    ensures multiset(r) == multiset(s) + multiset{x}
    decreases |s|
  {
    if |s| == 0 then [x]
    else if LexLe(x, s[0]) then
      assert forall j :: 0 <= j < |s| ==> LexLe(x, s[j]) by {
        forall j | 0 <= j < |s| ensures LexLe(x, s[j]) {
          if j > 0 { LexLeTransitive(x, s[0], s[j]); }
        }
      }
      [x] + s
    else
      LexLeTotal(x, s[0]);
      var rest := Insert(x, s[1..]);
      assert s == [s[0]] + s[1..];
      forall k | 0 <= k < |rest| ensures LexLe(s[0], rest[k]) {
        assert rest[k] in multiset(rest);
        if rest[k] != x {
          assert rest[k] in multiset(s[1..]);
          var j :| 0 <= j < |s[1..]| && s[1..][j] == rest[k];
          assert s[j + 1] == rest[k];
        }
      }
      [s[0]] + rest
  }

  /** `Array.prototype.sort()` with the default comparison, as an insertion sort. */
  function Sort(s: seq<string>): (r: seq<string>)
    ensures Sorted(r)
    ensures multiset(r) == multiset(s)
  {
    if |s| == 0 then []
    else
      assert s == [s[0]] + s[1..];
      Insert(s[0], Sort(s[1..]))
  }

  /** Sorting a sorted list leaves it as it is. */
  lemma {:induction false} SortOfSorted(s: seq<string>)
    requires Sorted(s)
    ensures Sort(s) == s
  {
    if |s| > 0 {
      SortOfSorted(s[1..]);
      if |s| > 1 {
        assert LexLe(s[0], s[1]);
      }
    }
  }

  /** The elements of a filtered sorted list stay sorted. */
  lemma {:induction false} FilterKeepsSorted(p: string -> bool, s: seq<string>)
    requires Sorted(s)
    ensures Sorted(Filter(p, s))
  {
    if |s| > 0 {
      FilterKeepsSorted(p, s[1..]);
      var rest := Filter(p, s[1..]);
      if p(s[0]) {
        forall k | 0 <= k < |rest| ensures LexLe(s[0], rest[k]) {
          var j :| 0 <= j < |s[1..]| && s[1..][j] == rest[k];
          assert s[j + 1] == rest[k];
        }
      }
    }
  }

  // -------------------------------------------------------- the pure steps

  /** `filterAndSortSqlFiles`: the `.sql` files, sorted. */
  function FilterAndSortSqlFiles(allFiles: seq<string>): (r: seq<string>)
    ensures Sorted(r)
    ensures forall i :: 0 <= i < |r| ==> EndsWithSql(r[i])
    ensures forall f :: f in r <==> f in allFiles && EndsWithSql(f)
    ensures multiset(r) == multiset(Filter(EndsWithSql, allFiles))
  {
    var sql := Filter(EndsWithSql, allFiles);
    var r := Sort(sql);
    forall f ensures f in r <==> f in allFiles && EndsWithSql(f) {
      assert f in r <==> f in multiset(r);
      assert f in sql <==> f in multiset(sql);
      FilterMembership(EndsWithSql, allFiles, f);
    }
    r
  }

  /** Filtering and sorting twice is filtering and sorting once. */
  lemma FilterAndSortIdempotent(allFiles: seq<string>)
    ensures FilterAndSortSqlFiles(FilterAndSortSqlFiles(allFiles)) == FilterAndSortSqlFiles(allFiles)
  {
    var once := FilterAndSortSqlFiles(allFiles);
    FilterAll(EndsWithSql, once);
    SortOfSorted(once);
  }

  /** The result depends only on the files, not on the order the directory lists them in. */
  lemma {:induction false} SortIsUnique(a: seq<string>, b: seq<string>)
    requires Sorted(a) && Sorted(b) && multiset(a) == multiset(b)
    ensures a == b
    decreases |a|
  {
    if |a| > 0 {
      assert |b| > 0 by { assert a[0] in multiset(b); }
      SortedHeadsAgree(a, b);
      TailMultiset(a);
      TailMultiset(b);
      SortIsUnique(a[1..], b[1..]);
      assert a == [a[0]] + a[1..] && b == [b[0]] + b[1..];
    }
  }

  /** Two sorted lists with the same elements start with the same, least, element. */
  lemma SortedHeadsAgree(a: seq<string>, b: seq<string>)
    requires |a| > 0 && |b| > 0
    requires Sorted(a) && Sorted(b) && multiset(a) == multiset(b)
    ensures a[0] == b[0]
  {
    assert a[0] in multiset(b) && b[0] in multiset(a);
    var i :| 0 <= i < |b| && b[i] == a[0];
    var j :| 0 <= j < |a| && a[j] == b[0];
    assert LexLe(b[0], b[i]) || i == 0;
    assert LexLe(a[0], a[j]) || j == 0;
    if a[0] != b[0] {
      LexLeAntisymmetric(a[0], b[0]);
    }
  }

  /** Dropping the head removes one copy of it from the multiset. */
  lemma TailMultiset(a: seq<string>)
    requires |a| > 0
    ensures multiset(a[1..]) == multiset(a) - multiset{a[0]}
  {
    assert a == [a[0]] + a[1..];
  }

  /** The test `getPendingMigrations` filters with. */
  function NotIn(xs: seq<string>): string -> bool {
    (f: string) => f !in xs
  }

  /** `getPendingMigrations`: the migrations not applied yet, in their order. */
  function GetPendingMigrations(allMigrations: seq<string>, appliedMigrations: seq<string>): (r: seq<string>)
    ensures forall f :: f in r <==> f in allMigrations && f !in appliedMigrations
    ensures IsSubsequence(r, allMigrations)
  {
    FilterIsSubsequence(NotIn(appliedMigrations), allMigrations);
    Filter(NotIn(appliedMigrations), allMigrations)
  }

  /** `extractFilenames`: the file name of each row, row by row. */
  function ExtractFilenames(rows: seq<MigrationRecord>): (r: seq<string>)
    ensures |r| == |rows|
    ensures forall i :: 0 <= i < |rows| ==> r[i] == rows[i].filename
  {
    if |rows| == 0 then [] else [rows[0].filename] + ExtractFilenames(rows[1..])
  }

  // ---------------------------------------------------------------- a run

  /**
   * The index of the first pending migration whose transaction fails, or
   * the length when none does: `fails` stands for executing the file.
   */
  function FirstFailure(pending: seq<string>, fails: string -> bool): (k: nat)
    ensures k <= |pending|
    ensures forall j :: 0 <= j < k ==> !fails(pending[j])
    ensures k < |pending| ==> fails(pending[k])
  {
    if |pending| == 0 || fails(pending[0]) then 0
    else 1 + FirstFailure(pending[1..], fails)
  }

  /**
   * The loop over the pending migrations: each runs in its own transaction
   * and is recorded when it commits; the first failure rolls back that file
   * and stops the run. It stops where `ExecuteAll` does, with the same record.
   */
  method ExecutePending(pending: seq<string>, applied: seq<string>, fails: string -> bool)
    returns (recorded: seq<string>, failedAt: Option<string>)
    ensures |applied| <= |recorded| <= |applied| + |pending|
    ensures recorded == applied + pending[..|recorded| - |applied|]
    ensures forall j :: 0 <= j < |recorded| - |applied| ==> !fails(pending[j])
    ensures failedAt.None? <==> |recorded| - |applied| == |pending|
    ensures failedAt.Some? ==> failedAt.value == pending[|recorded| - |applied|] && fails(failedAt.value)
    ensures |recorded| - |applied| == FirstFailure(pending, fails)
    ensures pending != [] ==> recorded == ExecuteAll(applied, pending, fails).0
    ensures pending != [] ==> (failedAt.Some? <==> ExecuteAll(applied, pending, fails).1.Failed?)
    ensures pending != [] && failedAt.Some? ==> failedAt.value == ExecuteAll(applied, pending, fails).1.failedAt
  {
    recorded := applied;
    failedAt := None;
    var i := 0;
    while i < |pending|
      invariant 0 <= i <= |pending|
      invariant recorded == applied + pending[..i]
      invariant forall j :: 0 <= j < i ==> !fails(pending[j])
      invariant failedAt.None?
    {
      if fails(pending[i]) {
        failedAt := Some(pending[i]);
        FirstFailureUnique(pending, fails, i);
        return;
      }
      recorded := recorded + [pending[i]];
      i := i + 1;
      assert pending[..i] == pending[..i - 1] + [pending[i - 1]];
    }
    FirstFailureUnique(pending, fails, i);
  }

  /**
   * `FirstFailure` is the only index with its two properties, so the
   * stopping point `ExecutePending` describes is the one `RunMigrations` uses.
   */
  lemma FirstFailureUnique(pending: seq<string>, fails: string -> bool, k: nat)
    requires k <= |pending|
    requires forall j :: 0 <= j < k ==> !fails(pending[j])
    requires k < |pending| ==> fails(pending[k])
    ensures FirstFailure(pending, fails) == k
  {
  }

  datatype RunOutcome =
    | NoFiles
    | UpToDate
    | Completed(ran: seq<string>)
    | Failed(ran: seq<string>, failedAt: string)

  /**
   * `runMigrations` given the directory listing, the applied file names in
   * the order they were applied, and which files fail: the applied list
   * afterwards and how the run ended.
   */
  function RunMigrations(files: seq<string>, applied: seq<string>, fails: string -> bool)
    : (r: (seq<string>, RunOutcome))
    ensures r.1 == NoFiles <==> forall f :: f in files ==> !EndsWithSql(f)
    ensures r.1.NoFiles? || r.1.UpToDate? ==> r.0 == applied
    ensures r.1.UpToDate? <==>
              && (exists f :: f in files && EndsWithSql(f))
              && forall f :: f in files && EndsWithSql(f) ==> f in applied
    ensures r.1.Completed? ==>
              && r.0 == applied + r.1.ran
              && r.1.ran == PendingOf(files, applied)
              && forall f :: f in files && EndsWithSql(f) ==> f in r.0
    ensures r.1.Failed? ==>
              && r.0 == applied + r.1.ran
              && |r.1.ran| < |PendingOf(files, applied)|
              && r.1.ran == PendingOf(files, applied)[..|r.1.ran|]
              && r.1.failedAt == PendingOf(files, applied)[|r.1.ran|]
              && r.1.failedAt !in r.0 && fails(r.1.failedAt)
    ensures |applied| <= |r.0| && r.0[..|applied|] == applied
    ensures forall j :: |applied| <= j < |r.0| ==> !fails(r.0[j])
  {
    var migrationFiles := FilterAndSortSqlFiles(files);
    var pending := PendingOf(files, applied);
    PendingFacts(files, applied);
    if migrationFiles == [] then (applied, NoFiles)
    else if pending == [] then (applied, UpToDate)
    else
      var r := ExecuteAll(applied, pending, fails);
      assert r.1.Completed? ==> forall f :: f in files && EndsWithSql(f) ==> f in r.0 by {
        if r.1.Completed? {
          forall f | f in files && EndsWithSql(f) ensures f in r.0 {
            assert f in migrationFiles;
            if f !in applied { assert f in pending; }
          }
        }
      }
      r
  }

  /**
   * The loop of a run over a non-empty pending list: the files before the
   * first failing one are recorded in order; the failing one is reported.
   */
  function ExecuteAll(applied: seq<string>, pending: seq<string>, fails: string -> bool)
    : (r: (seq<string>, RunOutcome))
    requires pending != []
    ensures r.1.Completed? || r.1.Failed?
    ensures r.0 == applied + r.1.ran
    ensures r.1.Completed? ==> r.1.ran == pending
    ensures r.1.Failed? ==>
              && |r.1.ran| < |pending| && r.1.ran == pending[..|r.1.ran|]
              && r.1.failedAt == pending[|r.1.ran|] && fails(r.1.failedAt)
              && r.1.failedAt !in r.1.ran
    ensures forall j :: 0 <= j < |r.1.ran| ==> !fails(r.1.ran[j])
  {
    var k := FirstFailure(pending, fails);
    if k == |pending| then
      assert pending[..k] == pending;
      (applied + pending, Completed(pending))
    else
      (applied + pending[..k], Failed(pending[..k], pending[k]))
  }

  /** When a run finds no files, and when it finds nothing pending. */
  lemma PendingFacts(files: seq<string>, applied: seq<string>)
    ensures FilterAndSortSqlFiles(files) == [] <==> forall f :: f in files ==> !EndsWithSql(f)
    ensures PendingOf(files, applied) == [] <==> forall f :: f in files && EndsWithSql(f) ==> f in applied
    ensures forall f :: f in PendingOf(files, applied) ==> f !in applied
  {
    var m := FilterAndSortSqlFiles(files);
    if m != [] {
      assert m[0] in files && EndsWithSql(m[0]);
    }
    var p := PendingOf(files, applied);
    if p != [] {
      assert p[0] in m && p[0] !in applied;
    }
  }

  /** The pending files a run goes through, in order. */
  function PendingOf(files: seq<string>, applied: seq<string>): seq<string> {
    GetPendingMigrations(FilterAndSortSqlFiles(files), applied)
  }

  /** Running again after a completed run finds nothing to do. */
  lemma RerunAfterCompletionIsUpToDate(files: seq<string>, applied: seq<string>,
                                       fails: string -> bool, fails2: string -> bool)
    requires RunMigrations(files, applied, fails).1.Completed?
    ensures RunMigrations(files, RunMigrations(files, applied, fails).0, fails2)
            == (RunMigrations(files, applied, fails).0, UpToDate)
  {
  }

  /** Excluding `a + d` is excluding `a` and then excluding `d`. */
  lemma {:induction false} FilterNotInAppend(m: seq<string>, a: seq<string>, d: seq<string>)
    ensures Filter(NotIn(a + d), m) == Filter(NotIn(d), Filter(NotIn(a), m))
  {
    if |m| > 0 {
      FilterNotInAppend(m[1..], a, d);
    }
  }

  /** Excluding the first `k` elements of a duplicate-free list leaves the rest. */
  lemma DropPrefix(pending: seq<string>, k: nat)
    requires k <= |pending| && NoDup(pending)
    ensures Filter(NotIn(pending[..k]), pending) == pending[k..]
  {
    var d := pending[..k];
    var rest := pending[k..];
    assert pending == d + rest;
    FilterAppend(NotIn(d), d, rest);
    FilterEmpty(NotIn(d), d);
    forall j | 0 <= j < |rest| ensures NotIn(d)(rest[j]) {
      assert rest[j] == pending[k + j];
    }
    FilterAll(NotIn(d), rest);
  }

  /**
   * After a failed run, fixing the file and running again resumes at the
   * file that failed: the pending list is the old one without the files
   * that committed.
   */
  lemma RerunAfterFailureResumes(files: seq<string>, applied: seq<string>, fails: string -> bool)
    requires RunMigrations(files, applied, fails).1.Failed?
    requires NoDup(PendingOf(files, applied))
    ensures var r := RunMigrations(files, applied, fails);
            && PendingOf(files, r.0) == PendingOf(files, applied)[|r.1.ran|..]
            && PendingOf(files, r.0)[0] == r.1.failedAt
  {
    var m := FilterAndSortSqlFiles(files);
    var pending := PendingOf(files, applied);
    var r := RunMigrations(files, applied, fails);
    var k := FirstFailure(pending, fails);
    assert r.0 == applied + pending[..k];
    FilterNotInAppend(m, applied, pending[..k]);
    DropPrefix(pending, k);
  }
}

=== FILE: password_policy.dfy ===
/**
 * The composite password policy of the client (`validatePassword`): five
 * rules, checked in a fixed order, every violated rule reported.
 */
module PasswordPolicy {
  import opened Text

  const MinLength: nat := 8
  const SpecialChars: string := "@$!%*?&#"

  const LengthError: string := "Password must be at least 8 characters long"
  const UppercaseError: string := "Password must contain at least one uppercase letter"
  const LowercaseError: string := "Password must contain at least one lowercase letter"
  const NumberError: string := "Password must contain at least one number"
  const SpecialError: string := "Password must contain at least one special character (@$!%*?&#)"

  predicate IsUpper(c: char) { 'A' <= c <= 'Z' }
  predicate IsLower(c: char) { 'a' <= c <= 'z' }
  predicate IsDigit(c: char) { '0' <= c <= '9' }
  predicate IsSpecial(c: char) { c in SpecialChars }

  /** `/[A-Z]/.test(pw)` and its three siblings. */
  predicate HasUpper(pw: string) { exists i :: 0 <= i < |pw| && IsUpper(pw[i]) }
  predicate HasLower(pw: string) { exists i :: 0 <= i < |pw| && IsLower(pw[i]) }
  predicate HasDigit(pw: string) { exists i :: 0 <= i < |pw| && IsDigit(pw[i]) }
  predicate HasSpecial(pw: string) { exists i :: 0 <= i < |pw| && IsSpecial(pw[i]) }

  /** The five rules, in the order the validator checks them. */
  datatype Rule = MinimumLength | Uppercase | Lowercase | Number | Special

  const RuleOrder: seq<Rule> := [MinimumLength, Uppercase, Lowercase, Number, Special]

  function Message(rule: Rule): string {
    match rule
    case MinimumLength => LengthError
    case Uppercase => UppercaseError
    case Lowercase => LowercaseError
    case Number => NumberError
    case Special => SpecialError
  }

  /** Whether `pw` breaks `rule`. */
  predicate Violates(pw: string, rule: Rule) {
    match rule
    case MinimumLength => Utf16Length(pw) < MinLength
    case Uppercase => !HasUpper(pw)
    case Lowercase => !HasLower(pw)
    case Number => !HasDigit(pw)
    case Special => !HasSpecial(pw)
  }

  /** `[x]` when `cond` holds, otherwise nothing: one `errors.push` guarded by `cond`. */
  function When<T>(cond: bool, x: T): seq<T> {
    if cond then [x] else []
  }

  /** Reference definition: the rules of `rules` that `pw` breaks, in order. */
  function ViolatedAmong(pw: string, rules: seq<Rule>): seq<Rule> {
    if |rules| == 0 then []
    else When(Violates(pw, rules[0]), rules[0]) + ViolatedAmong(pw, rules[1..])
  }

  function Messages(rules: seq<Rule>): seq<string> {
    if |rules| == 0 then [] else [Message(rules[0])] + Messages(rules[1..])
  }

  datatype ValidationResult = ValidationResult(isValid: bool, errors: seq<string>)

  /**
   * `validatePassword`: collects the message of every violated rule. The
   * length is JavaScript's `password.length`, in UTF-16 code units.
   */
  function ValidatePassword(pw: string): (r: ValidationResult)
    ensures r.isValid <==> r.errors == []
    ensures Utf16Length(pw) < MinLength <==> LengthError in r.errors
    ensures !HasUpper(pw) <==> UppercaseError in r.errors
    ensures !HasLower(pw) <==> LowercaseError in r.errors
    ensures !HasDigit(pw) <==> NumberError in r.errors
    ensures !HasSpecial(pw) <==> SpecialError in r.errors
    ensures |r.errors| <= |RuleOrder|
  {
    var errors :=
      When(Utf16Length(pw) < MinLength, LengthError)
      + When(!HasUpper(pw), UppercaseError)
      + When(!HasLower(pw), LowercaseError)
      + When(!HasDigit(pw), NumberError)
      + When(!HasSpecial(pw), SpecialError);
    ValidationResult(|errors| == 0, errors)
  }

  /**
   * The error list is exactly the messages of the violated rules, in the
   * fixed order length, upper, lower, digit, special; so it has one entry per
   * violated rule.
   */
  lemma ErrorsFollowRuleOrder(pw: string)
    ensures ValidatePassword(pw).errors == Messages(ViolatedAmong(pw, RuleOrder))
    ensures |ValidatePassword(pw).errors| == |ViolatedAmong(pw, RuleOrder)|
  {
    ReferenceMessages(pw);
    MessagesLength(ViolatedAmong(pw, RuleOrder));
  }

  /** The message of `rule` when `pw` breaks it, otherwise nothing. */
  function MessageIf(pw: string, rule: Rule): seq<string> {
    When(Violates(pw, rule), Message(rule))
  }

  /** The reference definition unrolled over the five rules. */
  lemma ReferenceMessages(pw: string)
    ensures Messages(ViolatedAmong(pw, RuleOrder)) ==
      MessageIf(pw, MinimumLength) + MessageIf(pw, Uppercase) + MessageIf(pw, Lowercase)
      + MessageIf(pw, Number) + MessageIf(pw, Special)
  {
    assert RuleOrder[1..] == [Uppercase, Lowercase, Number, Special];
    ViolatedStep(pw, RuleOrder);
    UnrollFour(pw);
  }

  lemma UnrollFour(pw: string)
    ensures Messages(ViolatedAmong(pw, [Uppercase, Lowercase, Number, Special])) ==
      MessageIf(pw, Uppercase) + MessageIf(pw, Lowercase) + MessageIf(pw, Number) + MessageIf(pw, Special)
  {
    assert [Uppercase, Lowercase, Number, Special][1..] == [Lowercase, Number, Special];
    ViolatedStep(pw, [Uppercase, Lowercase, Number, Special]);
    UnrollThree(pw);
  }

  lemma UnrollThree(pw: string)
    ensures Messages(ViolatedAmong(pw, [Lowercase, Number, Special])) ==
      MessageIf(pw, Lowercase) + MessageIf(pw, Number) + MessageIf(pw, Special)
  {
    assert [Lowercase, Number, Special][1..] == [Number, Special];
    ViolatedStep(pw, [Lowercase, Number, Special]);
    UnrollTwo(pw);
  }

  lemma UnrollTwo(pw: string)
    ensures Messages(ViolatedAmong(pw, [Number, Special])) == MessageIf(pw, Number) + MessageIf(pw, Special)
  {
    assert [Number, Special][1..] == [Special];
    assert [Special][1..] == [];
    ViolatedStep(pw, [Number, Special]);
    ViolatedStep(pw, [Special]);
  }

  /** One step of the reference definition, on the message level. */
  lemma ViolatedStep(pw: string, rules: seq<Rule>)
    requires |rules| > 0
    ensures Messages(ViolatedAmong(pw, rules)) == MessageIf(pw, rules[0]) + Messages(ViolatedAmong(pw, rules[1..]))
  {
    MessagesAppend(When(Violates(pw, rules[0]), rules[0]), ViolatedAmong(pw, rules[1..]));
    MessagesOfWhen(Violates(pw, rules[0]), rules[0]);
  }

  lemma MessagesOfWhen(cond: bool, rule: Rule)
    ensures Messages(When(cond, rule)) == When(cond, Message(rule))
  {
    if cond { assert When(cond, rule)[1..] == []; }
  }

  lemma {:induction false} MessagesAppend(a: seq<Rule>, b: seq<Rule>)
    ensures Messages(a + b) == Messages(a) + Messages(b)
  {
    if |a| == 0 {
      assert a + b == b;
    } else {
      assert (a + b)[1..] == a[1..] + b;
      MessagesAppend(a[1..], b);
    }
  }

  lemma {:induction false} MessagesLength(rules: seq<Rule>)
    ensures |Messages(rules)| == |rules|
  {
    if |rules| > 0 { MessagesLength(rules[1..]); }
  }

  /** The five messages are pairwise different, so no message stands for two rules. */
  lemma MessagesDistinct(a: Rule, b: Rule)
    ensures Message(a) == Message(b) ==> a == b
  {
    // The length message differs from the others at index 14 ("be" / "contain");
    // the other four differ at index 35 (the first letter of the character class).
    assert LengthError[14] == 'b' && UppercaseError[14] == 'c' && LowercaseError[14] == 'c';
    assert NumberError[14] == 'c' && SpecialError[14] == 'c';
    assert UppercaseError[35] == 'u' && LowercaseError[35] == 'l';
    assert NumberError[35] == 'n' && SpecialError[35] == 's';
  }

  /** The length message differs from the other four. */
  lemma LengthMessageIsDistinct()
    ensures LengthError != UppercaseError && LengthError != LowercaseError
    ensures LengthError != NumberError && LengthError != SpecialError
  {
    MessagesDistinct(MinimumLength, Uppercase);
    MessagesDistinct(MinimumLength, Lowercase);
    MessagesDistinct(MinimumLength, Number);
    MessagesDistinct(MinimumLength, Special);
  }

  /** The number message differs from the other four. */
  lemma NumberMessageIsDistinct()
    ensures NumberError != LengthError && NumberError != UppercaseError
    ensures NumberError != LowercaseError && NumberError != SpecialError
  {
    MessagesDistinct(Number, MinimumLength);
    MessagesDistinct(Number, Uppercase);
    MessagesDistinct(Number, Lowercase);
    MessagesDistinct(Number, Special);
  }

  /**
   * A password shorter than eight UTF-16 code units is never valid, and the
   * length message comes first. Fewer than four characters always fall short; a
   * character beyond U+FFFF counts twice, so six characters may not.
   */
  lemma ShortPasswordRejected(pw: string)
    requires Utf16Length(pw) < MinLength || |pw| < MinLength / 2
    ensures Utf16Length(pw) < MinLength
    ensures !ValidatePassword(pw).isValid
    ensures ValidatePassword(pw).errors[0] == LengthError
  {
    assert Utf16Length(pw) <= 2 * |pw|;
    assert Utf16Length(pw) < MinLength;
  }

  /** `'Aa1!😀😀'` has six characters but a JavaScript length of eight, so it is long enough. */
  lemma AstralPasswordIsLongEnough()
    ensures |"Aa1!\U{1F600}\U{1F600}"| == 6
    ensures Utf16Length("Aa1!\U{1F600}\U{1F600}") == MinLength
    ensures LengthError !in ValidatePassword("Aa1!\U{1F600}\U{1F600}").errors
  {
    AstralExampleLengths();
    LengthMessageIsDistinct();
  }

  /** `'Str0ng!Pass'` passes every rule. */
  lemma StrongExampleIsValid()
    ensures ValidatePassword("Str0ng!Pass") == ValidationResult(true, [])
  {
    StrongExampleRules();
    NoRuleBroken("Str0ng!Pass");
  }

  /** Which characters of `'Str0ng!Pass'` meet which rule. */
  lemma StrongExampleRules()
    ensures Utf16Length("Str0ng!Pass") >= MinLength
    ensures HasUpper("Str0ng!Pass") && HasLower("Str0ng!Pass") && HasDigit("Str0ng!Pass") && HasSpecial("Str0ng!Pass")
  {
    var pw := "Str0ng!Pass";
    assert Utf16Length(pw) >= MinLength by { assert |pw| == 11; }
    assert HasUpper(pw) by { assert IsUpper(pw[0]); }
    assert HasLower(pw) by { assert IsLower(pw[1]); }
    assert HasDigit(pw) by { assert IsDigit(pw[3]); }
    assert HasSpecial(pw) by { assert IsSpecial(pw[6]); }
  }

  /** A password that breaks no rule is valid with no message. */
  lemma NoRuleBroken(pw: string)
    requires Utf16Length(pw) >= MinLength && HasUpper(pw) && HasLower(pw) && HasDigit(pw) && HasSpecial(pw)
    ensures ValidatePassword(pw) == ValidationResult(true, [])
  {
  }

  /** `'weak'` breaks four rules and only has lowercase letters. */
  lemma WeakExampleErrors()
    ensures ValidatePassword("weak").errors == [LengthError, UppercaseError, NumberError, SpecialError]
  {
    WeakExampleRules();
    OnlyLowercaseKept("weak");
  }

  /** A short password with lowercase letters only breaks every rule but the lowercase one. */
  lemma OnlyLowercaseKept(pw: string)
    requires Utf16Length(pw) < MinLength && HasLower(pw)
    requires !HasUpper(pw) && !HasDigit(pw) && !HasSpecial(pw)
    ensures ValidatePassword(pw).errors == [LengthError, UppercaseError, NumberError, SpecialError]
  {
    assert ValidatePassword(pw).errors == [LengthError] + [UppercaseError] + [] + [NumberError] + [SpecialError];
  }

  /** Which rules `'weak'` breaks, character by character. */
  lemma WeakExampleRules()
    ensures Utf16Length("weak") < MinLength && HasLower("weak")
    ensures !HasUpper("weak") && !HasDigit("weak") && !HasSpecial("weak")
  {
    var pw := "weak";
    assert pw[0] == 'w' && pw[1] == 'e' && pw[2] == 'a' && pw[3] == 'k';
    assert IsLower(pw[0]);
    assert !HasSpecial(pw) by {
      forall i | 0 <= i < |pw| ensures !IsSpecial(pw[i]) {
        assert SpecialChars == ['@', '$', '!', '%', '*', '?', '&', '#'];
      }
    }
  }
}

=== FILE: plugin_slice.dfy ===
/**
 * The client plugin store (`pluginSlice`): the catalogue of plugins, the list
 * of enabled plugin ids, and the cases for the device-storage thunks.
 */
module PluginSlice {
  import opened Wrappers
  import opened Seqs
  import opened Text

  type PluginId = string

  datatype PluginItem = PluginItem(id: PluginId, name: string, icon: string, description: string)

  datatype PluginState = PluginState(
    availablePlugins: seq<PluginItem>,
    enabledPluginIds: seq<PluginId>,
    isLoading: bool,
    error: Option<string>)

  const SamplePlugins: seq<PluginItem> := [
    PluginItem("workout-tracker", "Workout Tracker", "\U{1F3CB}\U{FE0F}",
               "Track your fitness progress and body recomposition"),
    PluginItem("nutrition-logger", "Nutrition Logger", "\U{1F34E}",
               "Log meals and track your 2,200 calorie goal"),
    PluginItem("progress-photos", "Progress Photos", "\U{1F4F8}",
               "Take monthly body recomposition photos")
  ]

  const LoadPluginsError: string := "Failed to load enabled plugins"
  const SavePluginsError: string := "Failed to save enabled plugins"

  /** `initialState`: the sample catalogue and nothing enabled. */
  const InitialState: PluginState := PluginState(SamplePlugins, [], false, None)

  /** Some catalogue entry carries `id`. */
  predicate PluginExists(s: PluginState, id: PluginId) {
    exists i :: 0 <= i < |s.availablePlugins| && s.availablePlugins[i].id == id
  }

  /**
   * `enablePlugin`: appends `id` and clears the error only when `id` names a
   * catalogue entry and is not yet enabled; otherwise nothing changes.
   */
  function EnablePlugin(s: PluginState, id: PluginId): (r: PluginState)
    ensures PluginExists(s, id) && id !in s.enabledPluginIds ==>
              r == s.(enabledPluginIds := s.enabledPluginIds + [id], error := None)
    ensures !(PluginExists(s, id) && id !in s.enabledPluginIds) ==> r == s
    ensures NoDup(s.enabledPluginIds) ==> NoDup(r.enabledPluginIds)
  {
    var pluginExists := exists i :: 0 <= i < |s.availablePlugins| && s.availablePlugins[i].id == id;
    var alreadyEnabled := id in s.enabledPluginIds;
    if pluginExists && !alreadyEnabled then
      s.(enabledPluginIds := s.enabledPluginIds + [id], error := None)
    else s
  }

  /** Enabling twice is enabling once. */
  lemma EnablePluginIdempotent(s: PluginState, id: PluginId)
    ensures EnablePlugin(EnablePlugin(s, id), id) == EnablePlugin(s, id)
  {
  }

  /**
   * `disablePlugin`: removes every occurrence of `id`, keeping the order of
   * the rest, and clears the error; the list is untouched when `id` is absent.
   */
  function DisablePlugin(s: PluginState, id: PluginId): (r: PluginState)
    ensures id !in r.enabledPluginIds
    ensures forall i :: 0 <= i < |s.enabledPluginIds| && s.enabledPluginIds[i] != id ==>
              s.enabledPluginIds[i] in r.enabledPluginIds
    ensures forall i :: 0 <= i < |r.enabledPluginIds| ==> r.enabledPluginIds[i] in s.enabledPluginIds
    ensures id !in s.enabledPluginIds ==> r.enabledPluginIds == s.enabledPluginIds
    ensures r == s.(enabledPluginIds := r.enabledPluginIds, error := None)
  {
    s.(enabledPluginIds := Without(s.enabledPluginIds, id), error := None)
  }

  /** Disabling keeps the order of the other enabled plugins. */
  lemma DisablePluginKeepsOrder(s: PluginState, id: PluginId)
    ensures IsSubsequence(DisablePlugin(s, id).enabledPluginIds, s.enabledPluginIds)
  {
    WithoutKeepsOrder(s.enabledPluginIds, id);
  }

  /** Enabling a catalogue plugin that was off and then disabling it restores the list. */
  lemma EnableThenDisableRestores(s: PluginState, id: PluginId)
    requires PluginExists(s, id) && id !in s.enabledPluginIds
    ensures DisablePlugin(EnablePlugin(s, id), id).enabledPluginIds == s.enabledPluginIds
  {
    AppendThenWithout(s.enabledPluginIds, id);
  }

  /** `addPlugin`. */
  function AddPlugin(s: PluginState, plugin: PluginItem): (r: PluginState)
    ensures PluginExists(r, plugin.id)
    ensures r == s.(availablePlugins := s.availablePlugins + [plugin])
  {
    var r := s.(availablePlugins := s.availablePlugins + [plugin]);
    assert r.availablePlugins[|s.availablePlugins|] == plugin;
    r
  }

  /** `loadEnabledPluginsFromStorage`: the stored list, or the empty list when nothing is stored. */
  function LoadEnabledPluginsFromStorage(stored: Option<seq<PluginId>>): (r: seq<PluginId>)
    ensures stored.Some? ==> r == stored.value
    ensures stored.None? ==> r == []
  {
    stored.GetOr([])
  }

  /** The storage thunks' outcomes; a rejection carries the thrown error's message, if any. */
  datatype PluginAction =
    | EnablePluginAction(id: PluginId)
    | DisablePluginAction(id: PluginId)
    | AddPluginAction(plugin: PluginItem)
    | ClearPluginErrorAction
    | LoadPending
    | LoadFulfilled(ids: seq<PluginId>)
    | LoadRejected(message: Option<string>)
    | SavePending
    | SaveFulfilled
    | SaveRejected(message: Option<string>)

  /** The slice reducer with its `extraReducers`. */
  function Reduce(s: PluginState, a: PluginAction): (r: PluginState)
    ensures a.LoadFulfilled? ==> r == s.(isLoading := false, enabledPluginIds := a.ids)
    ensures a.LoadRejected? ==>
              r.enabledPluginIds == s.enabledPluginIds && !r.isLoading
              && r.error == Some(MessageOr(a.message, LoadPluginsError))
    ensures a.SaveRejected? ==>
              r.enabledPluginIds == s.enabledPluginIds && !r.isLoading
              && r.error == Some(MessageOr(a.message, SavePluginsError))
    ensures (a.LoadPending? || a.SavePending?) ==> r == s.(isLoading := true, error := None)
    ensures a.SaveFulfilled? ==> r == s.(isLoading := false)
    ensures a.LoadRejected? ==> r == s.(isLoading := false, error := Some(MessageOr(a.message, LoadPluginsError)))
    ensures a.SaveRejected? ==> r == s.(isLoading := false, error := Some(MessageOr(a.message, SavePluginsError)))
    ensures a.EnablePluginAction? ==> r == EnablePlugin(s, a.id)
    ensures a.DisablePluginAction? ==> r == DisablePlugin(s, a.id)
    ensures a.AddPluginAction? ==> r == AddPlugin(s, a.plugin)
    ensures a.ClearPluginErrorAction? ==> r == s.(error := None)
  {
    match a
    case EnablePluginAction(id) => EnablePlugin(s, id)
    case DisablePluginAction(id) => DisablePlugin(s, id)
    case AddPluginAction(plugin) => AddPlugin(s, plugin)
    case ClearPluginErrorAction => s.(error := None)
    case LoadPending => s.(isLoading := true, error := None)
    case LoadFulfilled(ids) => s.(isLoading := false, enabledPluginIds := ids)
    case LoadRejected(message) => s.(isLoading := false, error := Some(MessageOr(message, LoadPluginsError)))
    case SavePending => s.(isLoading := true, error := None)
    case SaveFulfilled => s.(isLoading := false)
    case SaveRejected(message) => s.(isLoading := false, error := Some(MessageOr(message, SavePluginsError)))
  }

  /** Only catalogue plugins can become enabled through the reducers the user drives. */
  ghost predicate EnabledAreKnown(s: PluginState) {
    forall i :: 0 <= i < |s.enabledPluginIds| ==> PluginExists(s, s.enabledPluginIds[i])
  }

  lemma UserActionsKeepEnabledKnown(s: PluginState, a: PluginAction)
    requires EnabledAreKnown(s)
    requires !a.LoadFulfilled?
    ensures EnabledAreKnown(Reduce(s, a))
  {
    match a
    case AddPluginAction(p) =>
      var r := Reduce(s, a);
      forall i | 0 <= i < |r.enabledPluginIds| ensures PluginExists(r, r.enabledPluginIds[i]) {
        var k :| 0 <= k < |s.availablePlugins| && s.availablePlugins[k].id == s.enabledPluginIds[i];
        assert r.availablePlugins[k] == s.availablePlugins[k];
      }
    case EnablePluginAction(id) =>
      var r := Reduce(s, a);
      forall i | 0 <= i < |r.enabledPluginIds| ensures PluginExists(r, r.enabledPluginIds[i]) {
        if i < |s.enabledPluginIds| { assert r.enabledPluginIds[i] == s.enabledPluginIds[i] || r == s; }
      }
    case DisablePluginAction(id) =>
      var r := Reduce(s, a);
      forall i | 0 <= i < |r.enabledPluginIds| ensures PluginExists(r, r.enabledPluginIds[i]) {
        var x := r.enabledPluginIds[i];
        assert x in s.enabledPluginIds;
        var j :| 0 <= j < |s.enabledPluginIds| && s.enabledPluginIds[j] == x;
        assert PluginExists(s, s.enabledPluginIds[j]);
      }
    case _ =>
  }
}

=== FILE: seqs.dfy ===
/**
 * Sequence helpers shared by the client reducers and the server handlers:
 * `Array.prototype.filter`, removal of every occurrence of a value,
 * order-preserving sub-lists and duplicate-freedom.
 */
module Seqs {

  /** `a` is obtained from `b` by deleting elements, keeping the order of the rest. */
  ghost predicate IsSubsequence<T>(a: seq<T>, b: seq<T>)
    decreases |b|
  {
    if |a| == 0 then true
    else if |b| == 0 then false
    else if a[0] == b[0] then IsSubsequence(a[1..], b[1..])
    else IsSubsequence(a, b[1..])
  }

  /** No value occurs twice. */
  ghost predicate NoDup<T>(s: seq<T>) {
    forall i, j :: 0 <= i < j < |s| ==> s[i] != s[j]
  }

  /** `s.filter(p)`: the elements of `s` that satisfy `p`, in their original order. */
  function Filter<T(==)>(p: T -> bool, s: seq<T>): (r: seq<T>)
    ensures |r| <= |s|
    ensures forall i :: 0 <= i < |r| ==> r[i] in s && p(r[i])
    ensures forall i :: 0 <= i < |s| && p(s[i]) ==> s[i] in r
  {
    if |s| == 0 then []
    else
      var rest := Filter(p, s[1..]);
      assert forall i :: 1 <= i < |s| ==> s[i] == s[1..][i - 1];
      if p(s[0]) then [s[0]] + rest else rest
  }

  /** A value is kept exactly when it occurs and passes. */
  lemma FilterMembership<T>(p: T -> bool, s: seq<T>, x: T)
    ensures x in Filter(p, s) <==> x in s && p(x)
  {
    if x in Filter(p, s) {
      var i :| 0 <= i < |Filter(p, s)| && Filter(p, s)[i] == x;
    } else if x in s {
      var i :| 0 <= i < |s| && s[i] == x;
    }
  }

  /** The filter keeps the relative order of what it keeps. */
  lemma {:induction false} FilterIsSubsequence<T>(p: T -> bool, s: seq<T>)
    ensures IsSubsequence(Filter(p, s), s)
  {
    if |s| > 0 {
      FilterIsSubsequence(p, s[1..]);
      var rest := Filter(p, s[1..]);
      if !p(s[0]) && |rest| > 0 {
        assert p(rest[0]);
      }
    }
  }

  /** The filter never duplicates an element. */
  lemma {:induction false} FilterMultiset<T>(p: T -> bool, s: seq<T>)
    ensures multiset(Filter(p, s)) <= multiset(s)
  {
    if |s| > 0 {
      FilterMultiset(p, s[1..]);
      assert s == [s[0]] + s[1..];
    }
  }

  /** A duplicate-free list stays duplicate-free under filtering. */
  lemma {:induction false} FilterNoDup<T>(p: T -> bool, s: seq<T>)
    requires NoDup(s)
    ensures NoDup(Filter(p, s))
  {
    if |s| > 0 {
      assert NoDup(s[1..]);
      FilterNoDup(p, s[1..]);
      var rest := Filter(p, s[1..]);
      if p(s[0]) {
        assert s[0] !in s[1..];
        assert s[0] !in rest;
        var r := [s[0]] + rest;
        forall i, j | 0 <= i < j < |r| ensures r[i] != r[j] {
          if i > 0 { assert r[i] == rest[i - 1] && r[j] == rest[j - 1]; }
          else { assert r[j] == rest[j - 1]; }
        }
      }
    }
  }

  /** When every element passes, the filter is the identity. */
  lemma {:induction false} FilterAll<T>(p: T -> bool, s: seq<T>)
    requires forall i :: 0 <= i < |s| ==> p(s[i])
    ensures Filter(p, s) == s
  {
    if |s| > 0 {
      FilterAll(p, s[1..]);
      assert s == [s[0]] + s[1..];
    }
  }

  /** The filter is empty exactly when no element passes. */
  lemma FilterEmpty<T>(p: T -> bool, s: seq<T>)
    ensures Filter(p, s) == [] <==> forall i :: 0 <= i < |s| ==> !p(s[i])
  {
    if Filter(p, s) != [] {
      assert Filter(p, s)[0] in Filter(p, s);
    }
  }

  /** Filtering distributes over concatenation. */
  lemma {:induction false} FilterAppend<T>(p: T -> bool, a: seq<T>, b: seq<T>)
    ensures Filter(p, a + b) == Filter(p, a) + Filter(p, b)
    decreases |a|
  {
    if |a| == 0 {
      assert a + b == b;
    } else {
      assert (a + b)[0] == a[0];
      assert (a + b)[1..] == a[1..] + b;
      FilterAppend(p, a[1..], b);
    }
  }

  /**
   * The first element kept by the filter is the element at the first index of
   * `s` that satisfies `p`.
   */
  lemma {:induction false} FilterHead<T>(p: T -> bool, s: seq<T>)
    requires Filter(p, s) != []
    ensures exists k :: 0 <= k < |s| && p(s[k]) && Filter(p, s)[0] == s[k]
                        && forall j :: 0 <= j < k ==> !p(s[j])
  {
    if p(s[0]) {
      assert Filter(p, s)[0] == s[0];
    } else {
      var t := s[1..];
      assert Filter(p, s) == Filter(p, t);
      FilterHead(p, t);
      var k :| 0 <= k < |t| && p(t[k]) && Filter(p, t)[0] == t[k]
               && forall j :: 0 <= j < k ==> !p(t[j]);
      assert s[k + 1] == t[k];
      assert forall j :: 1 <= j < k + 1 ==> s[j] == t[j - 1];
    }
  }

  /** Removes every occurrence of `x`, keeping the order of the other elements. */
  function Without<T(==)>(s: seq<T>, x: T): (r: seq<T>)
    ensures x !in r
    ensures forall i :: 0 <= i < |s| && s[i] != x ==> s[i] in r
    ensures forall i :: 0 <= i < |r| ==> r[i] in s
    ensures x !in s ==> r == s
    ensures |r| <= |s|
  {
    var p := (y: T) => y != x;
    var r := Filter(p, s);
    if x !in s then FilterAll(p, s); r else r
  }

  /** Removal keeps order and duplicate-freedom. */
  lemma WithoutKeepsOrder<T>(s: seq<T>, x: T)
    ensures IsSubsequence(Without(s, x), s)
    ensures NoDup(s) ==> NoDup(Without(s, x))
  {
    FilterIsSubsequence(y => y != x, s);
    if NoDup(s) { FilterNoDup(y => y != x, s); }
  }

  /** Removing a value that was just appended, and occurred nowhere else, restores the list. */
  lemma AppendThenWithout<T>(s: seq<T>, x: T)
    requires x !in s
    ensures Without(s + [x], x) == s
  {
    FilterAppend(y => y != x, s, [x]);
    FilterAll(y => y != x, s);
  }

  /** Appending a value that is absent keeps a duplicate-free list duplicate-free. */
  lemma AppendFreshNoDup<T>(s: seq<T>, x: T)
    requires NoDup(s) && x !in s
    ensures NoDup(s + [x])
  {
  }
}

=== FILE: tables.dfy ===
/**
 * The backend's persistent state as in-memory tables: `users` (rows in
 * insertion order), `user_preferences` keyed by user id and
 * `user_enabled_plugins` keyed by (user id, plugin id); plus the two
 * cryptographic collaborators, bcrypt and signed session tokens, as
 * symbolic values.
 */
module Tables {
  import opened Wrappers
  import opened ThemeUtils
  import opened Text

  type UserId = string
  type Email = string
  type PluginId = string

  /** bcrypt's key limit: only the first 72 bytes of a password are used. */
  const BcryptMaxKeyBytes: nat := 72

  /** The part of a password bcrypt commits to: at most the first 72 bytes of its UTF-8 encoding. */
  function BcryptKey(password: string): (k: seq<Byte>)
    ensures |k| == if |Utf8(password)| <= BcryptMaxKeyBytes then |Utf8(password)| else BcryptMaxKeyBytes
    ensures k == Utf8(password)[..|k|]
  {
    var b := Utf8(password);
    if |b| <= BcryptMaxKeyBytes then b else b[..BcryptMaxKeyBytes]
  }

  /**
   * A bcrypt hash as a symbolic term: the work factor, the random salt and
   * the key it commits to. Only `Compare` looks inside it.
   */
  datatype PasswordHash = BcryptHash(rounds: nat, salt: nat, key: seq<Byte>)

  function Hash(password: string, rounds: nat, salt: nat): PasswordHash {
    BcryptHash(rounds, salt, BcryptKey(password))
  }

  /** `bcrypt.compare`: true exactly for the passwords whose first 72 bytes the hash was made from. */
  predicate Compare(password: string, h: PasswordHash) {
    BcryptKey(password) == h.key
  }

  /**
   * A hash accepts its own password and exactly the passwords that agree
   * with it on the first 72 bytes; when neither is longer than that, only
   * the password itself.
   */
  lemma HashThenCompare(password: string, candidate: string, rounds: nat, salt: nat)
    ensures Compare(password, Hash(password, rounds, salt))
    ensures Compare(candidate, Hash(password, rounds, salt)) <==> BcryptKey(candidate) == BcryptKey(password)
    ensures |Utf8(password)| <= BcryptMaxKeyBytes && |Utf8(candidate)| <= BcryptMaxKeyBytes ==>
              (Compare(candidate, Hash(password, rounds, salt)) <==> candidate == password)
  {
    Utf8Injective(password, candidate);
  }

  /**
   * Two passwords that share their first 72 characters are the same key to
   * bcrypt, whatever follows: the hash of one accepts the other.
   */
  lemma {:induction false} SharedPrefixCollides(prefix: string, x: string, y: string, rounds: nat, salt: nat)
    requires |prefix| >= BcryptMaxKeyBytes
    ensures Compare(prefix + y, Hash(prefix + x, rounds, salt))
  {
    Utf8Append(prefix, x);
    Utf8Append(prefix, y);
    var p := Utf8(prefix);
    assert BcryptKey(prefix + x) == p[..BcryptMaxKeyBytes];
    assert BcryptKey(prefix + y) == p[..BcryptMaxKeyBytes];
  }

  datatype User = User(
    id: UserId,
    email: Email,
    name: string,
    passwordHash: PasswordHash,
    emailVerified: bool,
    verificationToken: Option<string>,
    verificationExpires: Option<nat>)   // milliseconds since the epoch

  /** A row of `user_preferences`; a NULL current theme is None. */
  datatype Prefs = Prefs(currentTheme: Option<ThemeId>, enabledThemes: seq<ThemeId>, updatedAt: nat)

  /** A JSON value, for plugin settings. */
  datatype Json =
    | JNull
    | JBool(b: bool)
    | JNumber(n: int)
    | JString(s: string)
    | JArray(items: seq<Json>)
    | JObject(fields: map<string, Json>)

  /** The `{}` that settings default to. */
  const EmptySettings: Json := JObject(map[])

  /** A row of `user_enabled_plugins`. */
  datatype PluginRow = PluginRow(settings: Json, enabledAt: nat)

  datatype Db = Db(
    users: seq<User>,
    prefs: map<UserId, Prefs>,
    plugins: map<(UserId, PluginId), PluginRow>)

  /** The index of the first row satisfying `p`: what `rows[0]` of a `SELECT ... WHERE p` reads. */
  function FirstMatch(users: seq<User>, p: User -> bool): (r: Option<nat>)
    ensures r.None? <==> forall i :: 0 <= i < |users| ==> !p(users[i])
    ensures r.Some? ==> r.value < |users| && p(users[r.value])
                        && forall j :: 0 <= j < r.value ==> !p(users[j])
  {
    if |users| == 0 then None
    else if p(users[0]) then Some(0)
    else
      match FirstMatch(users[1..], p)
      case None =>
        assert forall i :: 1 <= i < |users| ==> users[i] == users[1..][i - 1];
        None
      case Some(k) =>
        assert forall j :: 1 <= j < k + 1 ==> users[j] == users[1..][j - 1];
        Some(k + 1)
  }

  /** `SELECT ... FROM users WHERE email = $1`. */
  function FindByEmail(users: seq<User>, email: Email): (r: Option<nat>)
    ensures r.None? <==> forall i :: 0 <= i < |users| ==> users[i].email != email
    ensures r.Some? ==> r.value < |users| && users[r.value].email == email
                        && forall j :: 0 <= j < r.value ==> users[j].email != email
  {
    FirstMatch(users, (u: User) => u.email == email)
  }

  /**
   * Appending a row leaves an earlier first match where it is; when no
   * earlier row passes `p`, the appended row is the first match exactly when
   * it passes.
   */
  lemma {:induction false} FirstMatchAppend(users: seq<User>, u: User, p: User -> bool)
    ensures FirstMatch(users, p).Some? ==> FirstMatch(users + [u], p) == FirstMatch(users, p)
    ensures FirstMatch(users, p).None? ==> FirstMatch(users + [u], p) == if p(u) then Some(|users|) else None
  {
    var all := users + [u];
    assert all[|users|] == u;
    assert forall i :: 0 <= i < |users| ==> all[i] == users[i];
  }

  /** A new row whose e-mail no earlier row has is what that e-mail finds. */
  lemma FindByEmailAppend(users: seq<User>, u: User)
    requires FindByEmail(users, u.email).None?
    ensures FindByEmail(users + [u], u.email) == Some(|users|)
  {
    FirstMatchAppend(users, u, (v: User) => v.email == u.email);
  }

  /** Rewriting the first match with a row that still passes `p` keeps it the first match. */
  lemma FirstMatchUpdate(users: seq<User>, n: nat, v: User, p: User -> bool)
    requires FirstMatch(users, p) == Some(n)
    requires p(v)
    ensures FirstMatch(users[n := v], p) == Some(n)
  {
    var all := users[n := v];
    assert forall i :: 0 <= i < n ==> all[i] == users[i];
    assert all[n] == v;
  }

  /** Updating the row an e-mail finds, without changing its e-mail, keeps it found. */
  lemma FindByEmailUpdate(users: seq<User>, n: nat, v: User)
    requires FindByEmail(users, v.email) == Some(n)
    ensures FindByEmail(users[n := v], v.email) == Some(n)
  {
    FirstMatchUpdate(users, n, v, (u: User) => u.email == v.email);
  }

  /** `SELECT ... FROM users WHERE email_verification_token = $1`. */
  function FindByToken(users: seq<User>, token: string): (r: Option<nat>)
    ensures r.None? <==> forall i :: 0 <= i < |users| ==> users[i].verificationToken != Some(token)
    ensures r.Some? ==> r.value < |users| && users[r.value].verificationToken == Some(token)
                        && forall j :: 0 <= j < r.value ==> users[j].verificationToken != Some(token)
  {
    FirstMatch(users, (u: User) => u.verificationToken == Some(token))
  }

  /** A new row holding a token no earlier row holds is what that token finds. */
  lemma FindByTokenAppend(users: seq<User>, u: User, token: string)
    requires forall i :: 0 <= i < |users| ==> users[i].verificationToken != Some(token)
    requires u.verificationToken == Some(token)
    ensures FindByToken(users + [u], token) == Some(|users|)
  {
    FirstMatchAppend(users, u, (v: User) => v.verificationToken == Some(token));
  }

  /** `SELECT ... FROM users WHERE id = $1 AND email_verified = true`. */
  function FindVerifiedById(users: seq<User>, id: UserId): (r: Option<nat>)
    ensures r.None? <==> forall i :: 0 <= i < |users| ==> !(users[i].id == id && users[i].emailVerified)
    ensures r.Some? ==> r.value < |users| && users[r.value].id == id && users[r.value].emailVerified
                        && forall j :: 0 <= j < r.value ==> !(users[j].id == id && users[j].emailVerified)
  {
    FirstMatch(users, (u: User) => u.id == id && u.emailVerified)
  }

  /**
   * The table invariants the auth routes keep: e-mail addresses and ids are
   * unique, a verified user has no verification token or expiry, an
   * unverified one has both, and no two users share a token.
   */
  ghost predicate WellFormed(db: Db) {
    && (forall i, j :: 0 <= i < j < |db.users| ==>
          db.users[i].email != db.users[j].email && db.users[i].id != db.users[j].id)
    && (forall i :: 0 <= i < |db.users| ==>
          (db.users[i].emailVerified <==> db.users[i].verificationToken.None?))
    && (forall i :: 0 <= i < |db.users| ==>
          (db.users[i].emailVerified <==> db.users[i].verificationExpires.None?))
    && (forall i, j :: 0 <= i < j < |db.users| && db.users[i].verificationToken.Some? ==>
          db.users[i].verificationToken != db.users[j].verificationToken)
  }

  /** `7 * 24 * 60 * 60`: the session lifetime in seconds. */
  const JwtLifetimeSeconds: nat := 7 * 24 * 60 * 60

  /** The claims of a signed session token (`iat` and `exp` in whole seconds). */
  datatype SessionToken = SessionToken(userId: UserId, email: Email, issuedAt: nat, expiresAt: nat)

  /** `createJWTToken`: signed at `nowMs`, expiring seven days later. */
  function CreateJwtToken(userId: UserId, email: Email, nowMs: nat): (t: SessionToken)
    ensures t.userId == userId && t.email == email
    ensures t.expiresAt - t.issuedAt == 604800
    ensures t.issuedAt * 1000 <= nowMs < (t.issuedAt + 1) * 1000
  {
    var iat := nowMs / 1000;
    SessionToken(userId, email, iat, iat + JwtLifetimeSeconds)
  }

  /** The outcome of `jwt.verify`: the claimed user id, or which error it throws. */
  datatype JwtCheck = JwtValid(userId: UserId) | JwtMalformed | JwtExpired

  /** `jwt.verify` on a token this server signed: expired once the clock reaches `exp`. */
  function VerifySession(t: SessionToken, nowMs: nat): (c: JwtCheck)
    ensures c.JwtValid? <==> nowMs / 1000 < t.expiresAt
    ensures c.JwtValid? ==> c.userId == t.userId
    ensures !c.JwtMalformed?
  {
    if nowMs / 1000 >= t.expiresAt then JwtExpired else JwtValid(t.userId)
  }

  /** A token signed at `issued` is accepted for exactly seven days of whole seconds. */
  lemma SessionLifetime(userId: UserId, email: Email, issued: nat, nowMs: nat)
    ensures VerifySession(CreateJwtToken(userId, email, issued), nowMs).JwtValid?
            <==> nowMs / 1000 < issued / 1000 + 604800
  {
  }
}

=== FILE: text.dfy ===
/**
 * The JavaScript notion of white space (the `\s` class of ECMAScript regular
 * expressions) and `String.prototype.trim`, as used by the request validators.
 */
module Text {
  import opened Wrappers

  /** The characters matched by `\s` in an ECMAScript regular expression. */
  predicate IsJsWhitespace(c: char) {
    || c == '\t' || c == '\n' || c == '\U{000B}' || c == '\U{000C}' || c == '\r' || c == ' '
    || c == '\U{00A0}' || c == '\U{1680}' || ('\U{2000}' <= c <= '\U{200A}')
    || c == '\U{2028}' || c == '\U{2029}' || c == '\U{202F}' || c == '\U{205F}'
    || c == '\U{3000}' || c == '\U{FEFF}'
  }

  /** Drops leading white space. */
  function TrimStart(s: string): (r: string)
    ensures |r| <= |s| && r == s[|s| - |r|..]
    ensures forall i :: 0 <= i < |s| - |r| ==> IsJsWhitespace(s[i])
    ensures |r| > 0 ==> !IsJsWhitespace(r[0])
  {
    if |s| > 0 && IsJsWhitespace(s[0]) then
      var r := TrimStart(s[1..]);
      assert forall i :: 1 <= i < |s| ==> s[i] == s[1..][i - 1];
      r
    else s
  }

  /** Drops trailing white space. */
  function TrimEnd(s: string): (r: string)
    ensures |r| <= |s| && r == s[..|r|]
    ensures forall i :: |r| <= i < |s| ==> IsJsWhitespace(s[i])
    ensures |r| > 0 ==> !IsJsWhitespace(r[|r| - 1])
  {
    if |s| > 0 && IsJsWhitespace(s[|s| - 1]) then
      var r := TrimEnd(s[..|s| - 1]);
      assert forall i :: 0 <= i < |s| - 1 ==> s[i] == s[..|s| - 1][i];
      r
    else s
  }

  /** Nothing but white space (or nothing at all). */
  predicate IsBlank(s: string) {
    forall k :: 0 <= k < |s| ==> IsJsWhitespace(s[k])
  }

  /** `s.trim()`: white space removed from both ends. */
  function Trim(s: string): (r: string)
    ensures |r| > 0 ==> !IsJsWhitespace(r[0]) && !IsJsWhitespace(r[|r| - 1])
    ensures r == [] <==> IsBlank(s)
  {
    var a := TrimStart(s);
    var r := TrimEnd(a);
    assert |r| > 0 ==> r[0] == a[0];
    TrimOfBlank(s);
    r
  }

  /** What `Trim` keeps is a contiguous slice of the input, starting after the leading white space. */
  lemma TrimIsSlice(s: string)
    ensures var i, r := |s| - |TrimStart(s)|, TrimEnd(TrimStart(s));
            i + |r| <= |s| && r == s[i..i + |r|]
  {
    var a := TrimStart(s);
    PrefixOfSuffix(s, |s| - |a|, a, TrimEnd(a));
  }

  /** A prefix of the suffix from `i` is the slice starting at `i`. */
  lemma PrefixOfSuffix(s: string, i: nat, a: string, r: string)
    requires i <= |s| && a == s[i..] && |r| <= |a| && r == a[..|r|]
    ensures r == s[i..i + |r|]
  {
  }

  /** Trimming leaves nothing exactly when the input is blank. */
  lemma TrimOfBlank(s: string)
    ensures TrimEnd(TrimStart(s)) == [] <==> IsBlank(s)
  {
    var a := TrimStart(s);
    var r := TrimEnd(a);
    if r != [] {
      assert r[0] == a[0] == s[|s| - |a|];
    }
  }

  // ------------------------------------------------------------- lengths

  /** The UTF-16 code units of one character: two beyond U+FFFF, otherwise one. */
  function CodeUnits(c: char): nat {
    if c as int > 0xFFFF then 2 else 1
  }

  /** Within the Basic Multilingual Plane, so a single UTF-16 code unit. */
  predicate InBmp(c: char) {
    c as int <= 0xFFFF
  }

  /** JavaScript's `s.length`: the number of UTF-16 code units. */
  function Utf16Length(s: string): (n: nat)
    ensures |s| <= n <= 2 * |s|
  {
    if |s| == 0 then 0 else CodeUnits(s[0]) + Utf16Length(s[1..])
  }

  /** U+FE0E and U+FE0F, the text and emoji presentation selectors. */
  predicate IsPresentationSelector(c: char) {
    c == '\U{FE0E}' || c == '\U{FE0F}'
  }

  /**
   * The length validator.js's `isLength` measures: code points (a surrogate
   * pair counts once), with the two presentation selectors not counted.
   */
  function ValidatorLength(s: string): (n: nat)
    ensures n <= |s|
  {
    if |s| == 0 then 0
    else (if IsPresentationSelector(s[0]) then 0 else 1) + ValidatorLength(s[1..])
  }

  /** Text on which every notion of length agrees: no astral character, no presentation selector. */
  predicate IsPlainText(s: string) {
    forall k :: 0 <= k < |s| ==> InBmp(s[k]) && !IsPresentationSelector(s[k])
  }

  /** `s.length` counts characters exactly when none lies beyond the Basic Multilingual Plane. */
  lemma {:induction false} Utf16LengthOfBmp(s: string)
    ensures Utf16Length(s) == |s| <==> forall k :: 0 <= k < |s| ==> InBmp(s[k])
  {
    if |s| > 0 {
      Utf16LengthOfBmp(s[1..]);
      assert forall k :: 1 <= k < |s| ==> s[k] == s[1..][k - 1];
    }
  }

  /** `isLength` counts characters exactly when there is no presentation selector. */
  lemma {:induction false} ValidatorLengthWithoutSelectors(s: string)
    ensures ValidatorLength(s) == |s| <==> forall k :: 0 <= k < |s| ==> !IsPresentationSelector(s[k])
  {
    if |s| > 0 {
      ValidatorLengthWithoutSelectors(s[1..]);
      assert forall k :: 1 <= k < |s| ==> s[k] == s[1..][k - 1];
    }
  }

  /** `'Aa1!😀😀'`: six characters, eight UTF-16 code units, six for `isLength`. */
  lemma AstralExampleLengths()
    ensures |"Aa1!\U{1F600}\U{1F600}"| == 6
    ensures Utf16Length("Aa1!\U{1F600}\U{1F600}") == 8
    ensures ValidatorLength("Aa1!\U{1F600}\U{1F600}") == 6
  {
    var pw := "Aa1!\U{1F600}\U{1F600}";
    assert pw[1..] == "a1!\U{1F600}\U{1F600}";
    assert pw[1..][1..] == "1!\U{1F600}\U{1F600}";
    assert pw[1..][1..][1..] == "!\U{1F600}\U{1F600}";
    assert pw[1..][1..][1..][1..] == "\U{1F600}\U{1F600}";
    assert pw[1..][1..][1..][1..][1..] == "\U{1F600}";
    assert Utf16Length("\U{1F600}") == 2 && ValidatorLength("\U{1F600}") == 1;
  }

  /** On plain text JavaScript and validator.js agree on the length, which is the number of characters. */
  lemma LengthsAgreeOnPlainText(s: string)
    ensures IsPlainText(s) ==> Utf16Length(s) == ValidatorLength(s) == |s|
  {
    Utf16LengthOfBmp(s);
    ValidatorLengthWithoutSelectors(s);
  }

  // ------------------------------------------------------------- UTF-8

  /** A byte of an encoded string. */
  type Byte = b: int | 0 <= b < 0x100

  /** The UTF-8 encoding of one character: one to four bytes. */
  function EncodeChar(c: char): (b: seq<Byte>)
    ensures 1 <= |b| <= 4
  {
    var n := c as int;
    if n < 0x80 then [n]
    else if n < 0x800 then [0xC0 + n / 0x40, 0x80 + n % 0x40]
    else if n < 0x1_0000 then [0xE0 + n / 0x1000, 0x80 + n / 0x40 % 0x40, 0x80 + n % 0x40]
    else [0xF0 + n / 0x4_0000, 0x80 + n / 0x1000 % 0x40, 0x80 + n / 0x40 % 0x40, 0x80 + n % 0x40]
  }

  /** How many bytes a UTF-8 sequence has, read off its first byte. */
  function SequenceLength(lead: Byte): nat {
    if lead < 0x80 then 1 else if lead < 0xE0 then 2 else if lead < 0xF0 then 3 else 4
  }

  /** The code point a well-formed UTF-8 sequence of one to four bytes stands for. */
  function DecodeChar(b: seq<Byte>): int
    requires 1 <= |b| <= 4
  {
    var p := seq(|b|, i requires 0 <= i < |b| => b[i] as int);
    if |p| == 1 then p[0]
    else if |p| == 2 then (p[0] - 0xC0) * 0x40 + (p[1] - 0x80)
    else if |p| == 3 then (p[0] - 0xE0) * 0x1000 + (p[1] - 0x80) * 0x40 + (p[2] - 0x80)
    else (p[0] - 0xF0) * 0x4_0000 + (p[1] - 0x80) * 0x1000 + (p[2] - 0x80) * 0x40 + (p[3] - 0x80)
  }

  /** A character's encoding announces its own length and decodes back to the character. */
  lemma EncodeCharDecodes(c: char)
    ensures SequenceLength(EncodeChar(c)[0]) == |EncodeChar(c)|
    ensures DecodeChar(EncodeChar(c)) == c as int
  {
    var n := c as int;
    if n < 0x80 {
    } else if n < 0x800 {
      Split2(n);
    } else if n < 0x1_0000 {
      Split3(n);
    } else {
      Split4(n);
    }
  }

  /** The arithmetic behind each encoding length. */
  lemma Split2(n: int)
    requires 0x80 <= n < 0x800
    ensures 0xC0 <= 0xC0 + n / 0x40 < 0xE0 && (n / 0x40) * 0x40 + n % 0x40 == n
  {
  }

  lemma Split3(n: int)
    requires 0x800 <= n < 0x1_0000
    ensures 0xE0 <= 0xE0 + n / 0x1000 < 0xF0
    ensures (n / 0x1000) * 0x1000 + (n / 0x40 % 0x40) * 0x40 + n % 0x40 == n
  {
  }

  lemma Split4(n: int)
    requires 0x1_0000 <= n < 0x11_0000
    ensures 0xF0 <= 0xF0 + n / 0x4_0000 < 0x100
    ensures (n / 0x4_0000) * 0x4_0000 + (n / 0x1000 % 0x40) * 0x1000 + (n / 0x40 % 0x40) * 0x40 + n % 0x40 == n
  {
  }

  /** `Buffer.from(s, 'utf8')`: the characters' encodings, one after another. */
  function Utf8(s: string): (b: seq<Byte>)
    ensures |s| <= |b| <= 4 * |s|
  {
    if |s| == 0 then [] else EncodeChar(s[0]) + Utf8(s[1..])
  }

  /** The encoding of a concatenation is the concatenation of the encodings. */
  lemma {:induction false} Utf8Append(s: string, t: string)
    ensures Utf8(s + t) == Utf8(s) + Utf8(t)
  {
    if |s| > 0 {
      assert (s + t)[1..] == s[1..] + t;
      Utf8Append(s[1..], t);
    } else {
      assert s + t == t;
    }
  }

  /** Different strings have different encodings. */
  lemma {:induction false} Utf8Injective(s: string, t: string)
    ensures Utf8(s) == Utf8(t) <==> s == t
  {
    if Utf8(s) == Utf8(t) && |s| > 0 && |t| > 0 {
      var b := Utf8(s);
      var k := |EncodeChar(s[0])|;
      EncodeCharDecodes(s[0]);
      EncodeCharDecodes(t[0]);
      assert b[0] == EncodeChar(s[0])[0] == EncodeChar(t[0])[0];
      assert EncodeChar(s[0]) == b[..k] == EncodeChar(t[0]);
      assert Utf8(s[1..]) == b[k..] == Utf8(t[1..]);
      Utf8Injective(s[1..], t[1..]);
      assert s == [s[0]] + s[1..];
      assert t == [t[0]] + t[1..];
    }
  }

  /** `trim().isLength({ min: 1 })` fails: what is left after trimming has validator length zero. */
  predicate TrimsToNothing(s: string) {
    ValidatorLength(Trim(s)) == 0
  }

  /**
   * A blank string trims to nothing; so does a lone presentation selector,
   * which is not blank, because `isLength` does not count it.
   */
  lemma BlankTrimsToNothing(s: string)
    ensures IsBlank(s) ==> TrimsToNothing(s)
    ensures TrimsToNothing("\U{FE0F}") && !IsBlank("\U{FE0F}")
  {
    LoneSelectorTrimsToNothing('\U{FE0F}');
  }

  /** A presentation selector on its own survives trimming and then counts for nothing. */
  lemma LoneSelectorTrimsToNothing(c: char)
    requires IsPresentationSelector(c)
    ensures Trim([c]) == [c] && TrimsToNothing([c]) && !IsBlank([c])
  {
    var v := [c];
    assert !IsJsWhitespace(v[0]);
    assert TrimStart(v) == v;
    assert TrimEnd(v) == v;
    assert ValidatorLength(v[1..]) == 0;
  }

  /** `message || fallback`: an absent or empty message gives the fallback. */
  function MessageOr(message: Option<string>, fallback: string): (r: string)
    ensures message.Some? && message.value != "" ==> r == message.value
    ensures !(message.Some? && message.value != "") ==> r == fallback
  {
    if message.Some? && message.value != "" then message.value else fallback
  }
}

=== FILE: theme_slice.dfy ===
/**
 * The client theme store (`themeSlice`): the record
 * {currentThemeId, currentTheme, availableThemes, enabledThemes, isLoading, error},
 * its reducers, the cases it handles for the asynchronous theme thunks, and
 * the pure parts of those thunks (fallback chains and failure handling).
 */
module ThemeSlice {
  import opened Wrappers
  import opened Seqs
  import opened ThemeUtils

  datatype ThemeState = ThemeState(
    currentThemeId: ThemeId,
    currentTheme: Theme,
    availableThemes: seq<Theme>,
    enabledThemes: seq<ThemeId>,
    isLoading: bool,
    error: Option<string>)

  const CoreThemeError: string := "Cannot disable core themes"
  const LoadPreferencesError: string := "Failed to load preferences"

  /** `initialState`: light theme, both core themes enabled, every built-in theme available. */
  const InitialState: ThemeState :=
    ThemeState(LightDefault, LightTheme, AllThemes, CoreThemeIds, false, None)

  /**
   * The consistency the reducers are meant to keep: the theme object matches
   * the id, the current theme is enabled, the core themes stay enabled and the
   * light core theme is available as a fallback.
   */
  ghost predicate Consistent(s: ThemeState) {
    && s.currentTheme in s.availableThemes
    && s.currentTheme.id == s.currentThemeId
    && s.currentThemeId in s.enabledThemes
    && LightDefault in s.enabledThemes
    && DarkDefault in s.enabledThemes
    && IdAvailable(s.availableThemes, LightDefault)
  }

  lemma InitialStateIsConsistent()
    ensures InitialState.currentThemeId == "light-default"
    ensures InitialState.enabledThemes == ["light-default", "dark-default"]
    ensures Consistent(InitialState)
  {
    assert AllThemes[0].id == LightDefault;
  }

  /** `setTheme`: switches to `id` only when it is both available and enabled. */
  function SetTheme(s: ThemeState, id: ThemeId): (r: ThemeState)
    ensures IdAvailable(s.availableThemes, id) && id in s.enabledThemes ==>
              && r.currentThemeId == id && r.currentTheme.id == id
              && r.currentTheme in s.availableThemes && IsFirstWithId(s.availableThemes, id, r.currentTheme)
              && r.error == None
              && r.enabledThemes == s.enabledThemes && r.availableThemes == s.availableThemes
              && r.isLoading == s.isLoading
    ensures !(IdAvailable(s.availableThemes, id) && id in s.enabledThemes) ==> r == s
  {
    match FindTheme(s.availableThemes, id)
    case Some(theme) =>
      if id in s.enabledThemes then s.(currentThemeId := id, currentTheme := theme, error := None)
      else s
    case None => s
  }

  /** The theme `toggleTheme` switches to. */
  function ToggleTarget(currentThemeId: ThemeId): ThemeId {
    if currentThemeId == LightDefault then DarkDefault else LightDefault
  }

  /**
   * `toggleTheme`: from the light core theme to the dark one, from anything
   * else to the light one; only when the target is available and enabled.
   * Unlike `setTheme` it leaves `error` alone.
   */
  function ToggleTheme(s: ThemeState): (r: ThemeState)
    ensures var target := if s.currentThemeId == LightDefault then DarkDefault else LightDefault;
            if IdAvailable(s.availableThemes, target) && target in s.enabledThemes then
              && r.currentThemeId == target && r.currentTheme.id == target
              && r.currentTheme in s.availableThemes && IsFirstWithId(s.availableThemes, target, r.currentTheme)
              && r == s.(currentThemeId := target, currentTheme := r.currentTheme)
            else r == s
  {
    var nextId := ToggleTarget(s.currentThemeId);
    match FindTheme(s.availableThemes, nextId)
    case Some(theme) =>
      if nextId in s.enabledThemes then s.(currentThemeId := nextId, currentTheme := theme) else s
    case None => s
  }

  /** `addTheme`: appends a theme to the catalogue. */
  function AddTheme(s: ThemeState, theme: Theme): (r: ThemeState)
    ensures r.availableThemes == s.availableThemes + [theme]
    ensures r == s.(availableThemes := r.availableThemes)
  {
    s.(availableThemes := s.availableThemes + [theme])
  }

  /** `clearThemeError`. */
  function ClearThemeError(s: ThemeState): (r: ThemeState)
    ensures r.error.None? && r == s.(error := None)
  {
    s.(error := None)
  }

  /** `enableTheme`: appends `id` unless it is already enabled. */
  function EnableTheme(s: ThemeState, id: ThemeId): (r: ThemeState)
    ensures id in r.enabledThemes
    ensures id in s.enabledThemes ==> r == s
    ensures id !in s.enabledThemes ==> r == s.(enabledThemes := s.enabledThemes + [id])
    ensures NoDup(s.enabledThemes) ==> NoDup(r.enabledThemes)
  {
    if id !in s.enabledThemes then s.(enabledThemes := s.enabledThemes + [id]) else s
  }

  /** Enabling twice is enabling once. */
  lemma EnableThemeIdempotent(s: ThemeState, id: ThemeId)
    ensures EnableTheme(EnableTheme(s, id), id) == EnableTheme(s, id)
  {
  }

  /**
   * `disableTheme`: refuses the core themes with an error; otherwise removes
   * every occurrence of `id` and, when `id` was current, falls back to the
   * first enabled available theme if there is one.
   */
  function DisableTheme(s: ThemeState, id: ThemeId): (r: ThemeState)
    ensures !CanDisableTheme(id) ==> r == s.(error := Some(CoreThemeError))
    ensures CanDisableTheme(id) ==>
              && r.enabledThemes == Without(s.enabledThemes, id)
              && r.availableThemes == s.availableThemes
              && r.error == s.error && r.isLoading == s.isLoading
    ensures CanDisableTheme(id) && s.currentThemeId == id ==>
              match GetFirstEnabledTheme(s.availableThemes, r.enabledThemes)
              case Some(fallback) => r.currentThemeId == fallback.id && r.currentTheme == fallback
              case None => r.currentThemeId == s.currentThemeId && r.currentTheme == s.currentTheme
    ensures CanDisableTheme(id) && s.currentThemeId != id ==>
              r.currentThemeId == s.currentThemeId && r.currentTheme == s.currentTheme
  {
    if !CanDisableTheme(id) then s.(error := Some(CoreThemeError))
    else
      var s1 := s.(enabledThemes := Without(s.enabledThemes, id));
      if s1.currentThemeId == id then
        match GetFirstEnabledTheme(s1.availableThemes, s1.enabledThemes)
        case Some(fallback) => s1.(currentThemeId := fallback.id, currentTheme := fallback)
        case None => s1
      else s1
  }

  /** The payload both load thunks fulfil with. */
  datatype PreferencePayload = PreferencePayload(currentThemeId: ThemeId, enabledThemes: seq<ThemeId>)

  /**
   * The shared body of the load-fulfilled cases: the enabled list is
   * overwritten unconditionally; the current theme changes only when the
   * payload id is available, and membership in the new enabled list is not
   * checked.
   */
  function ApplyPreferences(s: ThemeState, p: PreferencePayload): (r: ThemeState)
    ensures r.enabledThemes == p.enabledThemes
    ensures IdAvailable(s.availableThemes, p.currentThemeId) ==>
              r.currentThemeId == p.currentThemeId && r.currentTheme.id == p.currentThemeId
              && r.currentTheme in s.availableThemes && IsFirstWithId(s.availableThemes, p.currentThemeId, r.currentTheme)
    ensures !IdAvailable(s.availableThemes, p.currentThemeId) ==>
              r.currentThemeId == s.currentThemeId && r.currentTheme == s.currentTheme
    ensures r.availableThemes == s.availableThemes && r.error == s.error && r.isLoading == s.isLoading
  {
    var s1 := s.(enabledThemes := p.enabledThemes);
    match FindTheme(s1.availableThemes, p.currentThemeId)
    case Some(theme) => s1.(currentThemeId := theme.id, currentTheme := theme)
    case None => s1
  }

  /** The outcome of an asynchronous thunk as the store sees it. */
  datatype Settled<T> = Fulfilled(payload: T) | Rejected(reason: Option<string>)

  /** The actions the theme store receives. */
  datatype ThemeAction =
    | SetThemeAction(id: ThemeId)
    | ToggleThemeAction
    | AddThemeAction(theme: Theme)
    | ClearThemeErrorAction
    | EnableThemeAction(id: ThemeId)
    | DisableThemeAction(id: ThemeId)
    | LocalLoadSettled(local: Settled<PreferencePayload>)
    | UserPreferencesPending
    | UserPreferencesSettled(server: Settled<PreferencePayload>)
    | SaveCurrentThemeSettled(saved: Settled<ThemeId>)
    | EnableThemeOnServerSettled(enabled: Settled<seq<ThemeId>>)
    | DisableThemeOnServerSettled(disabled: Settled<PreferencePayload>)

  /** The slice reducer: the reducers above plus the `extraReducers` cases; unhandled cases change nothing. */
  function Reduce(s: ThemeState, a: ThemeAction): (r: ThemeState)
    ensures a.SaveCurrentThemeSettled? ==> r == s
    ensures a.EnableThemeOnServerSettled? && a.enabled.Rejected? ==> r == s
    ensures a.DisableThemeOnServerSettled? && a.disabled.Rejected? ==> r == s
    ensures a.LocalLoadSettled? && a.local.Rejected? ==> r == s
    ensures a.UserPreferencesSettled? ==> !r.isLoading
    ensures a.UserPreferencesSettled? && a.server.Rejected? ==>
              r == s.(isLoading := false, error := Some(a.server.reason.GetOr(LoadPreferencesError)))
    ensures a.SetThemeAction? ==> r == SetTheme(s, a.id)
    ensures a.ToggleThemeAction? ==> r == ToggleTheme(s)
    ensures a.AddThemeAction? ==> r == AddTheme(s, a.theme)
    ensures a.ClearThemeErrorAction? ==> r == ClearThemeError(s)
    ensures a.EnableThemeAction? ==> r == EnableTheme(s, a.id)
    ensures a.DisableThemeAction? ==> r == DisableTheme(s, a.id)
    ensures a.LocalLoadSettled? && a.local.Fulfilled? ==> r == ApplyPreferences(s, a.local.payload)
    ensures a.UserPreferencesPending? ==> r == s.(isLoading := true)
    ensures a.UserPreferencesSettled? && a.server.Fulfilled? ==>
              r == ApplyPreferences(s.(isLoading := false), a.server.payload)
    ensures a.EnableThemeOnServerSettled? && a.enabled.Fulfilled? ==> r == s.(enabledThemes := a.enabled.payload)
    ensures a.DisableThemeOnServerSettled? && a.disabled.Fulfilled? ==> r == ApplyPreferences(s, a.disabled.payload)
  {
    match a
    case SetThemeAction(id) => SetTheme(s, id)
    case ToggleThemeAction => ToggleTheme(s)
    case AddThemeAction(theme) => AddTheme(s, theme)
    case ClearThemeErrorAction => ClearThemeError(s)
    case EnableThemeAction(id) => EnableTheme(s, id)
    case DisableThemeAction(id) => DisableTheme(s, id)
    case LocalLoadSettled(Fulfilled(p)) => ApplyPreferences(s, p)
    case LocalLoadSettled(Rejected(_)) => s
    case UserPreferencesPending => s.(isLoading := true)
    case UserPreferencesSettled(Fulfilled(p)) => ApplyPreferences(s.(isLoading := false), p)
    case UserPreferencesSettled(Rejected(reason)) =>
      s.(isLoading := false, error := Some(reason.GetOr(LoadPreferencesError)))
    case SaveCurrentThemeSettled(_) => s
    case EnableThemeOnServerSettled(Fulfilled(enabled)) => s.(enabledThemes := enabled)
    case EnableThemeOnServerSettled(Rejected(_)) => s
    case DisableThemeOnServerSettled(Fulfilled(p)) => ApplyPreferences(s, p)
    case DisableThemeOnServerSettled(Rejected(_)) => s
  }

  /** The actions that only touch local state (no payload from storage or server). */
  predicate IsLocalAction(a: ThemeAction) {
    || a.SetThemeAction? || a.ToggleThemeAction? || a.AddThemeAction? || a.ClearThemeErrorAction?
    || a.EnableThemeAction? || a.DisableThemeAction? || a.UserPreferencesPending?
    || (a.UserPreferencesSettled? && a.server.Rejected?) || a.SaveCurrentThemeSettled?
    || (a.EnableThemeOnServerSettled? && a.enabled.Rejected?)
    || (a.DisableThemeOnServerSettled? && a.disabled.Rejected?)
    || (a.LocalLoadSettled? && a.local.Rejected?)
  }

  /** Disabling a non-core theme keeps the store consistent: the light core theme is always a fallback. */
  lemma DisableThemeKeepsConsistent(s: ThemeState, id: ThemeId)
    requires Consistent(s)
    ensures Consistent(DisableTheme(s, id))
  {
    if CanDisableTheme(id) {
      var enabled := Without(s.enabledThemes, id);
      assert LightDefault in enabled && DarkDefault in enabled;
      if s.currentThemeId == id {
        var k :| 0 <= k < |s.availableThemes| && s.availableThemes[k].id == LightDefault;
        assert s.availableThemes[k].id in enabled;
        assert GetFirstEnabledTheme(s.availableThemes, enabled).Some?;
      }
    }
  }

  /** Every local action keeps the store consistent. */
  lemma LocalActionKeepsConsistent(s: ThemeState, a: ThemeAction)
    requires Consistent(s) && IsLocalAction(a)
    ensures Consistent(Reduce(s, a))
  {
    match a
    case DisableThemeAction(id) => DisableThemeKeepsConsistent(s, id);
    case AddThemeAction(t) =>
      var k :| 0 <= k < |s.availableThemes| && s.availableThemes[k].id == LightDefault;
      assert (s.availableThemes + [t])[k].id == LightDefault;
    case _ =>
  }

  /** Runs a sequence of actions from left to right. */
  function ReduceAll(s: ThemeState, actions: seq<ThemeAction>): ThemeState
    decreases |actions|
  {
    if |actions| == 0 then s else ReduceAll(Reduce(s, actions[0]), actions[1..])
  }

  /** Consistency survives any run of local actions from a consistent start. */
  lemma {:induction false} LocalRunKeepsConsistent(s: ThemeState, actions: seq<ThemeAction>)
    requires Consistent(s)
    requires forall i :: 0 <= i < |actions| ==> IsLocalAction(actions[i])
    ensures Consistent(ReduceAll(s, actions))
    decreases |actions|
  {
    if |actions| > 0 {
      LocalActionKeepsConsistent(s, actions[0]);
      LocalRunKeepsConsistent(Reduce(s, actions[0]), actions[1..]);
    }
  }

  /**
   * The load-fulfilled cases do not check the enabled list: a stored snapshot
   * whose theme is available but not enabled leaves the current theme outside
   * the enabled list.
   */
  lemma LoadFulfilledCanLeaveCurrentDisabled()
    ensures var r := Reduce(InitialState, LocalLoadSettled(Fulfilled(
                       PreferencePayload("grayscale-default", [LightDefault]))));
            r.currentThemeId == "grayscale-default" && r.currentThemeId !in r.enabledThemes
  {
    assert AllThemes[4].id == "grayscale-default";
  }

  // ---------------------------------------------------------------------------
  // The pure parts of the thunks
  // ---------------------------------------------------------------------------

  datatype ColorScheme = SchemeDark | SchemeLight | SchemeUnspecified

  /** What the local load sees: the two stored values and the system scheme, or an exception. */
  datatype LocalSnapshot =
    | LocalSnapshot(storedTheme: Option<ThemeId>, storedEnabled: Option<seq<ThemeId>>, scheme: ColorScheme)
    | LocalReadThrew

  /** JavaScript truthiness of the stored theme: present and not the empty string. */
  predicate StoredThemeTruthy(t: Option<ThemeId>) {
    t.Some? && t.value != ""
  }

  /**
   * `loadLocalThemePreferences`: the stored pair when both are present; else
   * the system scheme (dark gives the dark core theme, anything else the light
   * one) with the core list; on an exception the light core theme with the
   * core list. It never rejects.
   */
  function LoadLocalThemePreferences(snap: LocalSnapshot): (p: PreferencePayload)
    ensures snap.LocalSnapshot? && StoredThemeTruthy(snap.storedTheme) && snap.storedEnabled.Some? ==>
              p == PreferencePayload(snap.storedTheme.value, snap.storedEnabled.value)
    ensures snap.LocalSnapshot? && !(StoredThemeTruthy(snap.storedTheme) && snap.storedEnabled.Some?) ==>
              p.enabledThemes == CoreThemeIds
              && (p.currentThemeId == DarkDefault <==> snap.scheme == SchemeDark)
              && p.currentThemeId in CoreThemeIds
    ensures snap.LocalReadThrew? ==> p == PreferencePayload(LightDefault, CoreThemeIds)
  {
    match snap
    case LocalReadThrew => PreferencePayload(LightDefault, CoreThemeIds)
    case LocalSnapshot(storedTheme, storedEnabled, scheme) =>
      if StoredThemeTruthy(storedTheme) && storedEnabled.Some? then
        PreferencePayload(storedTheme.value, storedEnabled.value)
      else
        var systemThemeId := if scheme == SchemeDark then DarkDefault else LightDefault;
        PreferencePayload(systemThemeId, CoreThemeIds)
  }

  /** The fallback branches always produce a current theme that is enabled; only a stored snapshot can fail to. */
  lemma LocalFallbackIsConsistent(snap: LocalSnapshot)
    requires !(snap.LocalSnapshot? && StoredThemeTruthy(snap.storedTheme) && snap.storedEnabled.Some?)
    ensures LoadLocalThemePreferences(snap).currentThemeId in LoadLocalThemePreferences(snap).enabledThemes
  {
  }

  /** The themes part of a successful `GET /preferences` response; either field may be null. */
  datatype ServerThemes = ServerThemes(current: Option<ThemeId>, enabled: Option<seq<ThemeId>>)

  const LoadFromServerError: string := "Failed to load from server"
  const SaveThemeError: string := "Failed to save theme to server"
  const EnableThemeError: string := "Failed to enable theme"
  const DisableThemeError: string := "Failed to disable theme"

  /**
   * `loadUserPreferences`: null fields default to the light core theme and
   * the core list; a failed request (`None`) rejects with a fixed message.
   * The device writes that follow the request swallow their own failures,
   * so they never change the outcome.
   */
  function LoadUserPreferences(response: Option<ServerThemes>): (r: Settled<PreferencePayload>)
    ensures response.None? ==> r == Rejected(Some(LoadFromServerError))
    ensures response.Some? ==>
              && r.Fulfilled?
              && r.payload.currentThemeId == response.value.current.GetOr(LightDefault)
              && r.payload.enabledThemes == response.value.enabled.GetOr(CoreThemeIds)
  {
    match response
    case None => Rejected(Some(LoadFromServerError))
    case Some(themes) =>
      Fulfilled(PreferencePayload(themes.current.GetOr(LightDefault), themes.enabled.GetOr(CoreThemeIds)))
  }

  /** `enableThemeOnServer`: the server's list, or the core list when the response has none. */
  function EnableThemeOnServer(response: Option<Option<seq<ThemeId>>>): (r: Settled<seq<ThemeId>>)
    ensures response.None? <==> r.Rejected?
    ensures r.Rejected? ==> r.reason == Some(EnableThemeError)
    ensures response.Some? ==> r == Fulfilled(response.value.GetOr(CoreThemeIds))
  {
    match response
    case None => Rejected(Some(EnableThemeError))
    case Some(enabled) => Fulfilled(enabled.GetOr(CoreThemeIds))
  }

  /** `disableThemeOnServer`: the server's pair, with the same defaults as the load. */
  function DisableThemeOnServer(response: Option<ServerThemes>): (r: Settled<PreferencePayload>)
    ensures response.None? ==> r == Rejected(Some(DisableThemeError))
    ensures response.Some? ==>
              && r.Fulfilled?
              && r.payload.currentThemeId == response.value.current.GetOr(LightDefault)
              && r.payload.enabledThemes == response.value.enabled.GetOr(CoreThemeIds)
  {
    match response
    case None => Rejected(Some(DisableThemeError))
    case Some(themes) =>
      Fulfilled(PreferencePayload(themes.current.GetOr(LightDefault), themes.enabled.GetOr(CoreThemeIds)))
  }

  /** The cached theme key of the device store. */
  datatype ThemeCache = ThemeCache(storedTheme: Option<ThemeId>)

  /**
   * `saveCurrentThemeToAPI`: the theme is written to the device store whether
   * or not the server call succeeds (the write is retried in the catch
   * block). `StorageService.saveTheme` logs and swallows its own failures, so
   * a failed device write never reaches the thunk's catch: the thunk fulfils
   * exactly when the server call succeeds.
   */
  function SaveCurrentThemeToAPI(themeId: ThemeId, serverOk: bool, storageOk: bool, cache: ThemeCache)
    : (r: (ThemeCache, Settled<ThemeId>))
    ensures storageOk ==> r.0.storedTheme == Some(themeId)
    ensures !storageOk ==> r.0 == cache
    ensures serverOk <==> r.1 == Fulfilled(themeId)
    ensures !serverOk ==> r.1 == Rejected(Some(SaveThemeError))
  {
    var cache' := if storageOk then ThemeCache(Some(themeId)) else cache;
    (cache', if serverOk then Fulfilled(themeId) else Rejected(Some(SaveThemeError)))
  }

  /** The outcome of the save never depends on the device write, which only decides what the device holds. */
  lemma SaveOutcomeIgnoresDeviceWrite(themeId: ThemeId, serverOk: bool, cache: ThemeCache)
    ensures SaveCurrentThemeToAPI(themeId, serverOk, true, cache).1 == SaveCurrentThemeToAPI(themeId, serverOk, false, cache).1
    ensures SaveCurrentThemeToAPI(themeId, serverOk, true, cache).0 == ThemeCache(Some(themeId))
    ensures SaveCurrentThemeToAPI(themeId, serverOk, false, cache).0 == cache
  {
  }

  /**
   * Selecting a theme is optimistic and never rolled back: after `setTheme`
   * and a failed save, the store keeps the new theme and the device store
   * holds it too.
   */
  lemma FailedSaveKeepsOptimisticTheme(s: ThemeState, id: ThemeId, cache: ThemeCache)
    requires IdAvailable(s.availableThemes, id) && id in s.enabledThemes
    ensures var saved := SaveCurrentThemeToAPI(id, false, true, cache);
            var r := Reduce(Reduce(s, SetThemeAction(id)), SaveCurrentThemeSettled(saved.1));
            r.currentThemeId == id && saved.0.storedTheme == Some(id) && saved.1.Rejected?
  {
  }
}

=== FILE: theme_utils.dfy ===
/**
 * Theme identities, the built-in theme list and the membership helpers of
 * `themeUtils` shared by the client reducers.
 */
module ThemeUtils {
  import opened Wrappers
  import opened Seqs

  type ThemeId = string

  datatype ThemeType = Light | Dark | Colorblind | Grayscale | HighContrast

  /** A theme; its colour table is static data and is not part of the model. */
  datatype Theme = Theme(id: ThemeId, kind: ThemeType, name: string)

  const LightDefault: ThemeId := "light-default"
  const DarkDefault: ThemeId := "dark-default"

  /** `CORE_THEME_IDS`: the themes that can never be disabled. */
  const CoreThemeIds: seq<ThemeId> := [LightDefault, DarkDefault]

  const LightTheme := Theme(LightDefault, Light, "Light")
  const DarkTheme := Theme(DarkDefault, Dark, "Dark")
  const ColorblindTheme := Theme("colorblind-default", Colorblind, "Colorblind Friendly")
  const HighContrastTheme := Theme("high-contrast", HighContrast, "High Contrast")
  const GrayscaleTheme := Theme("grayscale-default", Grayscale, "Grayscale")

  /** `allThemes`, in its canonical order. */
  const AllThemes: seq<Theme> := [LightTheme, DarkTheme, ColorblindTheme, HighContrastTheme, GrayscaleTheme]

  /** Some theme of `available` carries `id`. */
  predicate IdAvailable(available: seq<Theme>, id: ThemeId) {
    exists i :: 0 <= i < |available| && available[i].id == id
  }

  /** `t` carries `id` and no theme before it in `available` does: what `find` picks. */
  predicate IsFirstWithId(available: seq<Theme>, id: ThemeId, t: Theme) {
    && t.id == id
    && exists k :: 0 <= k < |available| && available[k] == t
                   && forall j :: 0 <= j < k ==> available[j].id != id
  }

  /** There is only one first theme carrying an id, whatever duplicates follow it. */
  lemma FirstWithIdUnique(available: seq<Theme>, id: ThemeId, t: Theme, u: Theme)
    requires IsFirstWithId(available, id, t) && IsFirstWithId(available, id, u)
    ensures t == u
  {
    var k :| 0 <= k < |available| && available[k] == t && forall j :: 0 <= j < k ==> available[j].id != id;
    var m :| 0 <= m < |available| && available[m] == u && forall j :: 0 <= j < m ==> available[j].id != id;
    if k < m {
      assert available[k].id == id;
    }
  }

  /** `availableThemes.find(t => t.id === id)`: the first theme carrying `id`. */
  function FindTheme(available: seq<Theme>, id: ThemeId): (r: Option<Theme>)
    ensures r.None? <==> !IdAvailable(available, id)
    ensures r.Some? ==> r.value in available && r.value.id == id
    ensures r.Some? ==> IsFirstWithId(available, id, r.value)
  {
    if |available| == 0 then None
    else if available[0].id == id then Some(available[0])
    else
      var r := FindTheme(available[1..], id);
      assert forall i :: 1 <= i < |available| ==> available[i] == available[1..][i - 1];
      assert r.Some? ==> exists k :: 0 <= k < |available[1..]| && available[1..][k] == r.value
                                     && forall j :: 0 <= j < k ==> available[1..][j].id != id;
      assert r.Some? ==> exists k :: 0 <= k < |available| && available[k] == r.value
                                     && forall j :: 0 <= j < k ==> available[j].id != id by {
        if r.Some? {
          var k :| 0 <= k < |available[1..]| && available[1..][k] == r.value
                   && forall j :: 0 <= j < k ==> available[1..][j].id != id;
          assert available[k + 1] == r.value;
          assert forall j :: 0 <= j < k + 1 ==> available[j].id != id;
        }
      }
      r
  }

  /** `getEnabledThemes`: the available themes whose id is enabled, in catalogue order. */
  function GetEnabledThemes(available: seq<Theme>, enabled: seq<ThemeId>): (r: seq<Theme>)
    ensures forall i :: 0 <= i < |r| ==> r[i] in available && r[i].id in enabled
    ensures forall i :: 0 <= i < |available| && available[i].id in enabled ==> available[i] in r
    ensures |r| <= |available|
  {
    Filter((t: Theme) => t.id in enabled, available)
  }

  /** The enabled themes keep the order of the catalogue. */
  lemma EnabledThemesKeepOrder(available: seq<Theme>, enabled: seq<ThemeId>)
    ensures IsSubsequence(GetEnabledThemes(available, enabled), available)
  {
    FilterIsSubsequence((t: Theme) => t.id in enabled, available);
  }

  /** `isThemeEnabled`: plain list membership. */
  function IsThemeEnabled(themeId: ThemeId, enabled: seq<ThemeId>): (b: bool)
    ensures b <==> exists i :: 0 <= i < |enabled| && enabled[i] == themeId
  {
    themeId in enabled
  }

  /** `canDisableTheme`: every theme except the two core themes may be disabled. */
  function CanDisableTheme(themeId: ThemeId): (b: bool)
    ensures !b <==> themeId == LightDefault || themeId == DarkDefault
  {
    themeId !in CoreThemeIds
  }

  /**
   * `getFirstEnabledTheme`: the first theme of the catalogue whose id is
   * enabled, or nothing when no available theme is enabled.
   */
  function GetFirstEnabledTheme(available: seq<Theme>, enabled: seq<ThemeId>): (r: Option<Theme>)
    ensures r.None? <==> forall i :: 0 <= i < |available| ==> available[i].id !in enabled
    ensures r.Some? ==> r.value in available && r.value.id in enabled
    ensures r.Some? ==> r.value == GetEnabledThemes(available, enabled)[0]
    ensures r.Some? ==> exists k :: 0 <= k < |available| && available[k] == r.value
                                    && forall j :: 0 <= j < k ==> available[j].id !in enabled
  {
    var p := (t: Theme) => t.id in enabled;
    var ts := GetEnabledThemes(available, enabled);
    FilterEmpty(p, available);
    if |ts| > 0 then
      FilterHead(p, available);
      Some(ts[0])
    else None
  }
}

=== FILE: user_preferences.dfy ===
/**
 * The preferences routes: reading a user's preferences, choosing the
 * current theme, enabling and disabling themes and plugins, and updating
 * plugin settings. Every route runs behind `authenticateToken` and only
 * touches the rows of the authenticated user.
 */
module UserPreferences {
  import opened Wrappers
  import opened Seqs
  import opened Text
  import opened ThemeUtils
  import opened Tables
  import AuthMiddleware
  import AuthRoutes
  import PasswordPolicy

  const PrefsNotFoundError: string := "User preferences not found"
  const CurrentNotEnabledError: string := "Cannot set theme that is not enabled. Enable the theme first."
  const ThemeAlreadyEnabledError: string := "Theme is already enabled"
  const ThemeIdRequiredError: string := "Theme ID is required"
  const CoreThemeError: string := "Core themes cannot be disabled"
  const ThemeNotEnabledError: string := "Theme is not enabled"
  const PluginIdRequiredError: string := "Plugin ID is required"
  const PluginAlreadyEnabledError: string := "Plugin is already enabled"
  const PluginNotEnabledError: string := "Plugin is not enabled"
  const PluginNotFoundError: string := "Plugin not found or not enabled"
  const SettingsObjectError: string := "Settings must be an object"
  /** express-validator's message for a validator that has no `withMessage` of its own (here `isString`). */
  const InvalidValueMessage: string := "Invalid value"

  datatype PrefResponse =
    | Refused(status: int, error: string)
    | Invalid(details: seq<string>)   // 400 "Validation failed" with `errors.array()`
    | PreferencesBody(current: Option<ThemeId>, enabled: seq<ThemeId>,
                      plugins: map<PluginId, PluginRow>, lastUpdated: nat)
    | CurrentThemeBody(currentTheme: ThemeId, updatedAt: nat)
    | EnabledThemesBody(enabledThemes: seq<ThemeId>, updatedAt: nat)
    | ThemeDisabledBody(newCurrent: Option<ThemeId>, remaining: seq<ThemeId>, disabledAt: nat)
    | PluginBody(pluginId: PluginId, settings: Json, enabledAt: nat)
    | PluginDisabledBody(disabledId: PluginId)
  {
    function Status(): int {
      if Refused? then status else if Invalid? then 400 else 200
    }

    /** An error answer: nothing is written. */
    predicate IsError() {
      Refused? || Invalid?
    }
  }

  /**
   * A body field checked by `isString().trim().isLength({ min: 1 })`: None
   * when it is missing or not a string, or when nothing `isLength` counts is
   * left after trimming; otherwise the trimmed value, which is what the
   * handler reads.
   */
  function ValidId(field: Option<string>): (r: Option<string>)
    ensures r.Some? <==> field.Some? && !TrimsToNothing(field.value)
    ensures field.Some? && IsBlank(field.value) ==> r.None?
    ensures r.Some? ==> r.value == Trim(field.value) && r.value != []
  {
    match field
    case None => None
    case Some(s) => BlankTrimsToNothing(s); if TrimsToNothing(s) then None else Some(Trim(s))
  }

  /**
   * The `details` of an id field checked by
   * `isString().trim().isLength({ min: 1 }).withMessage(required)`: the
   * message belongs to `isLength` alone, so a missing field fails both
   * validators and `isString` reports the default message.
   */
  function IdErrors(field: Option<string>, required: string): (errs: seq<string>)
    ensures errs == [] <==> ValidId(field).Some?
    ensures field.None? ==> errs == [InvalidValueMessage, required]
    ensures field.Some? && ValidId(field).None? ==> errs == [required]
  {
    PasswordPolicy.When(field.None?, InvalidValueMessage) + PasswordPolicy.When(ValidId(field).None?, required)
  }

  /** `isObject()`: a JSON object, not null and not an array. */
  predicate IsObject(j: Json) {
    j.JObject?
  }

  /** The table rows of every user other than `userId` are as they were, and so are the users. */
  ghost predicate OnlyTouches(db: Db, db': Db, userId: UserId) {
    && db'.users == db.users
    && (forall k :: k != userId ==> (k in db'.prefs <==> k in db.prefs))
    && (forall k :: k != userId && k in db.prefs ==> db'.prefs[k] == db.prefs[k])
    && (forall key: (UserId, PluginId) :: key.0 != userId ==> (key in db'.plugins <==> key in db.plugins))
    && (forall key: (UserId, PluginId) :: key.0 != userId && key in db.plugins ==> db'.plugins[key] == db.plugins[key])
  }

  /** The plugin rows of one user, by plugin id. */
  function UserPlugins(db: Db, userId: UserId): (m: map<PluginId, PluginRow>)
    ensures forall p :: p in m <==> (userId, p) in db.plugins
    ensures forall p :: p in m ==> m[p] == db.plugins[(userId, p)]
  {
    map key | key in db.plugins && key.0 == userId :: key.1 := db.plugins[key]
  }

  // ----------------------------------------------------------------- themes

  /** `GET /preferences`: the user's themes and plugins, or 404 without a preferences row. */
  function GetPreferences(db: Db, userId: UserId): (r: PrefResponse)
    ensures r.Refused? <==> userId !in db.prefs
    ensures r.Refused? ==> r == Refused(404, PrefsNotFoundError)
    ensures !r.Refused? ==>
              && r.PreferencesBody?
              && r.current == db.prefs[userId].currentTheme
              && r.enabled == db.prefs[userId].enabledThemes
              && (forall p :: p in r.plugins <==> (userId, p) in db.plugins)
              && (forall p :: p in r.plugins ==> r.plugins[p] == db.plugins[(userId, p)])
              && r.lastUpdated == db.prefs[userId].updatedAt
  {
    if userId !in db.prefs then Refused(404, PrefsNotFoundError)
    else
      var p := db.prefs[userId];
      PreferencesBody(p.currentTheme, p.enabledThemes, UserPlugins(db, userId), p.updatedAt)
  }

  /** `PUT /current-theme`: only an enabled theme can become current. */
  function PutCurrentTheme(db: Db, userId: UserId, themeId: Option<string>, now: nat): (r: (Db, PrefResponse))
    ensures r.1.Invalid? <==> ValidId(themeId).None?
    ensures themeId.None? ==> r.1 == Invalid([InvalidValueMessage, ThemeIdRequiredError])
    ensures themeId.Some? && ValidId(themeId).None? ==> r.1 == Invalid([ThemeIdRequiredError])
    ensures r.1 == Refused(404, PrefsNotFoundError) <==> ValidId(themeId).Some? && userId !in db.prefs
    ensures r.1 == Refused(400, CurrentNotEnabledError)
            <==> ValidId(themeId).Some? && userId in db.prefs
                 && ValidId(themeId).value !in db.prefs[userId].enabledThemes
    ensures r.1.IsError() ==> r.0 == db
    ensures !r.1.IsError() ==>
              && var t := ValidId(themeId).value;
                 && userId in r.0.prefs && userId in db.prefs
                 && r.0.prefs[userId].currentTheme == Some(t)
                 && t in r.0.prefs[userId].enabledThemes
                 && r.0.prefs[userId].enabledThemes == db.prefs[userId].enabledThemes
                 && r.0.prefs[userId].updatedAt == now
                 && r.1 == CurrentThemeBody(t, now)
    ensures OnlyTouches(db, r.0, userId) && r.0.plugins == db.plugins
  {
    match ValidId(themeId)
    case None => (db, Invalid(IdErrors(themeId, ThemeIdRequiredError)))
    case Some(t) =>
      if userId !in db.prefs then (db, Refused(404, PrefsNotFoundError))
      else
        var p := db.prefs[userId];
        if t !in p.enabledThemes then (db, Refused(400, CurrentNotEnabledError))
        else (db.(prefs := db.prefs[userId := p.(currentTheme := Some(t), updatedAt := now)]), CurrentThemeBody(t, now))
  }

  /** `POST /enabled-themes`: appends a theme that is not enabled yet. */
  function PostEnabledTheme(db: Db, userId: UserId, themeId: Option<string>, now: nat): (r: (Db, PrefResponse))
    ensures r.1.Invalid? <==> ValidId(themeId).None?
    ensures themeId.None? ==> r.1 == Invalid([InvalidValueMessage, ThemeIdRequiredError])
    ensures themeId.Some? && ValidId(themeId).None? ==> r.1 == Invalid([ThemeIdRequiredError])
    ensures r.1 == Refused(404, PrefsNotFoundError) <==> ValidId(themeId).Some? && userId !in db.prefs
    ensures r.1 == Refused(400, ThemeAlreadyEnabledError)
            <==> ValidId(themeId).Some? && userId in db.prefs
                 && ValidId(themeId).value in db.prefs[userId].enabledThemes
    ensures r.1.IsError() ==> r.0 == db
    ensures !r.1.IsError() ==>
              && var t := ValidId(themeId).value;
                 && userId in r.0.prefs && userId in db.prefs
                 && t !in db.prefs[userId].enabledThemes
                 && r.0.prefs[userId].enabledThemes == db.prefs[userId].enabledThemes + [t]
                 && r.0.prefs[userId].currentTheme == db.prefs[userId].currentTheme
                 && r.0.prefs[userId].updatedAt == now
                 && r.1 == EnabledThemesBody(r.0.prefs[userId].enabledThemes, now)
    ensures OnlyTouches(db, r.0, userId) && r.0.plugins == db.plugins
  {
    match ValidId(themeId)
    case None => (db, Invalid(IdErrors(themeId, ThemeIdRequiredError)))
    case Some(t) =>
      if userId !in db.prefs then (db, Refused(404, PrefsNotFoundError))
      else
        var p := db.prefs[userId];
        if t in p.enabledThemes then (db, Refused(400, ThemeAlreadyEnabledError))
        else
          var enabled := p.enabledThemes + [t];
          (db.(prefs := db.prefs[userId := p.(enabledThemes := enabled, updatedAt := now)]), EnabledThemesBody(enabled, now))
  }

  /** The core themes as the route lists them. */
  const CoreThemes: seq<ThemeId> := ["light-default", "dark-default"]

  /**
   * `DELETE /enabled-themes/:themeId`: refuses the core themes and themes
   * that are not enabled; removes the theme, and when it was current the
   * first remaining theme becomes current (NULL when none remains).
   */
  function DeleteEnabledTheme(db: Db, userId: UserId, themeId: string, now: nat): (r: (Db, PrefResponse))
    ensures r.1 == Refused(400, ThemeIdRequiredError) <==> themeId == []
    ensures r.1 == Refused(400, CoreThemeError) <==> themeId in CoreThemeIds
    ensures r.1 == Refused(404, PrefsNotFoundError)
            <==> themeId != [] && themeId !in CoreThemeIds && userId !in db.prefs
    ensures r.1 == Refused(400, ThemeNotEnabledError)
            <==> themeId != [] && themeId !in CoreThemeIds && userId in db.prefs
                 && themeId !in db.prefs[userId].enabledThemes
    ensures r.1.IsError() ==> r.0 == db
    ensures !r.1.IsError() ==>
              && userId in r.0.prefs && userId in db.prefs
              && var before := db.prefs[userId];
                 var after := r.0.prefs[userId];
                 && themeId in before.enabledThemes
                 && after.enabledThemes == Without(before.enabledThemes, themeId)
                 && after.currentTheme != Some(themeId)
                 && (before.currentTheme != Some(themeId) ==> after.currentTheme == before.currentTheme)
                 && (before.currentTheme == Some(themeId) && after.enabledThemes != [] ==>
                       after.currentTheme == Some(after.enabledThemes[0]))
                 && (before.currentTheme == Some(themeId) && after.enabledThemes == [] ==>
                       after.currentTheme.None?)
                 && after.updatedAt == now
                 && r.1 == ThemeDisabledBody(after.currentTheme, after.enabledThemes, now)
    ensures OnlyTouches(db, r.0, userId) && r.0.plugins == db.plugins
  {
    if themeId == [] then (db, Refused(400, ThemeIdRequiredError))
    else if themeId in CoreThemes then (db, Refused(400, CoreThemeError))
    else if userId !in db.prefs then (db, Refused(404, PrefsNotFoundError))
    else
      var p := db.prefs[userId];
      if themeId !in p.enabledThemes then (db, Refused(400, ThemeNotEnabledError))
      else
        var remaining := Without(p.enabledThemes, themeId);
        var current :=
          if p.currentTheme == Some(themeId) then (if remaining == [] then None else Some(remaining[0]))
          else p.currentTheme;
        (db.(prefs := db.prefs[userId := Prefs(current, remaining, now)]), ThemeDisabledBody(current, remaining, now))
  }

  /**
   * What the theme routes keep true of a preferences row: both core themes
   * are enabled, no theme is listed twice, and the current theme is set and
   * enabled.
   */
  ghost predicate ValidPrefs(p: Prefs) {
    && LightDefault in p.enabledThemes
    && DarkDefault in p.enabledThemes
    && NoDup(p.enabledThemes)
    && p.currentTheme.Some?
    && p.currentTheme.value in p.enabledThemes
  }

  ghost predicate AllPrefsValid(db: Db) {
    forall k :: k in db.prefs ==> ValidPrefs(db.prefs[k])
  }

  /** The row a registration writes is valid. */
  lemma DefaultPrefsAreValid(now: nat)
    ensures ValidPrefs(AuthRoutes.DefaultPrefs(now))
  {
    var e := AuthRoutes.DefaultPrefs(now).enabledThemes;
    assert e == [LightDefault, DarkDefault];
    assert e[0] != e[1];
  }

  /** Disabling a theme from a valid row leaves a valid row: the fallback is never NULL. */
  lemma DeleteEnabledThemeKeepsValid(db: Db, userId: UserId, themeId: string, now: nat)
    requires userId in db.prefs ==> ValidPrefs(db.prefs[userId])
    ensures var r := DeleteEnabledTheme(db, userId, themeId, now);
            userId in r.0.prefs ==> ValidPrefs(r.0.prefs[userId])
  {
    var r := DeleteEnabledTheme(db, userId, themeId, now);
    if !r.1.IsError() {
      var before := db.prefs[userId].enabledThemes;
      var after := r.0.prefs[userId].enabledThemes;
      assert themeId != LightDefault && themeId != DarkDefault;
      assert LightDefault in after && DarkDefault in after by {
        assert exists i :: 0 <= i < |before| && before[i] == LightDefault;
        assert exists i :: 0 <= i < |before| && before[i] == DarkDefault;
      }
      WithoutKeepsOrder(before, themeId);
    }
  }

  /** Enabling a theme from a valid row leaves a valid row. */
  lemma PostEnabledThemeKeepsValid(db: Db, userId: UserId, themeId: Option<string>, now: nat)
    requires userId in db.prefs ==> ValidPrefs(db.prefs[userId])
    ensures var r := PostEnabledTheme(db, userId, themeId, now);
            userId in r.0.prefs ==> ValidPrefs(r.0.prefs[userId])
  {
    var r := PostEnabledTheme(db, userId, themeId, now);
    if !r.1.IsError() {
      AppendFreshNoDup(db.prefs[userId].enabledThemes, ValidId(themeId).value);
    }
  }

  /**
   * Enabling a theme and then disabling it restores the enabled list, and
   * the current theme is as before.
   */
  lemma EnableThenDisableTheme(db: Db, userId: UserId, themeId: string, now: nat, later: nat)
    requires userId in db.prefs && themeId !in CoreThemeIds
    requires ValidId(Some(themeId)) == Some(themeId)
    requires themeId !in db.prefs[userId].enabledThemes
    ensures var db1 := PostEnabledTheme(db, userId, Some(themeId), now).0;
            var db2 := DeleteEnabledTheme(db1, userId, themeId, later).0;
            && userId in db2.prefs
            && db2.prefs[userId].enabledThemes == db.prefs[userId].enabledThemes
            && (db.prefs[userId].currentTheme != Some(themeId) ==>
                  db2.prefs[userId].currentTheme == db.prefs[userId].currentTheme)
  {
    AppendThenWithout(db.prefs[userId].enabledThemes, themeId);
  }

  // ---------------------------------------------------------------- plugins

  /**
   * The `details` of `POST /enabled-plugins`: the plugin id's messages, then
   * "Settings must be an object" when settings are given and are not an
   * object.
   */
  function PluginPostErrors(pluginId: Option<string>, settings: Option<Json>): (errs: seq<string>)
    ensures errs == [] <==> ValidId(pluginId).Some? && (settings.None? || IsObject(settings.value))
    ensures PluginIdRequiredError in errs <==> ValidId(pluginId).None?
    ensures InvalidValueMessage in errs <==> pluginId.None?
    ensures SettingsObjectError in errs <==> settings.Some? && !IsObject(settings.value)
    ensures SettingsObjectError in errs ==> errs[|errs| - 1] == SettingsObjectError
  {
    var id := IdErrors(pluginId, PluginIdRequiredError);
    var rest := PasswordPolicy.When(settings.Some? && !IsObject(settings.value), SettingsObjectError);
    assert SettingsObjectError !in id && PluginIdRequiredError !in rest && InvalidValueMessage !in rest by {
      assert SettingsObjectError[0] == 'S' && PluginIdRequiredError[0] == 'P' && InvalidValueMessage[0] == 'I';
    }
    id + rest
  }

  /** `POST /enabled-plugins`: records a plugin with its settings, `{}` when none are given. */
  function PostEnabledPlugin(db: Db, userId: UserId, pluginId: Option<string>, settings: Option<Json>, now: nat)
    : (r: (Db, PrefResponse))
    ensures r.1.Invalid? <==> ValidId(pluginId).None? || (settings.Some? && !IsObject(settings.value))
    ensures r.1.Invalid? ==> r.1.details == PluginPostErrors(pluginId, settings)
    ensures r.1 == Refused(400, PluginAlreadyEnabledError)
            <==> ValidId(pluginId).Some? && (settings.None? || IsObject(settings.value))
                 && (userId, ValidId(pluginId).value) in db.plugins
    ensures r.1.IsError() ==> r.0 == db
    ensures !r.1.IsError() ==>
              && var p := ValidId(pluginId).value;
                 && (userId, p) !in db.plugins
                 && r.0.plugins == db.plugins[(userId, p) := PluginRow(settings.GetOr(EmptySettings), now)]
                 && IsObject(r.0.plugins[(userId, p)].settings)
                 && r.1 == PluginBody(p, settings.GetOr(EmptySettings), now)
    ensures OnlyTouches(db, r.0, userId) && r.0.prefs == db.prefs
  {
    var details := PluginPostErrors(pluginId, settings);
    if details != [] then (db, Invalid(details))
    else
      var p := ValidId(pluginId).value;
      if (userId, p) in db.plugins then (db, Refused(400, PluginAlreadyEnabledError))
      else
        var row := PluginRow(settings.GetOr(EmptySettings), now);
        (db.(plugins := db.plugins[(userId, p) := row]), PluginBody(p, row.settings, now))
  }

  /** `DELETE /enabled-plugins/:pluginId`: removes the user's row for the plugin. */
  function DeleteEnabledPlugin(db: Db, userId: UserId, pluginId: string): (r: (Db, PrefResponse))
    ensures r.1 == Refused(400, PluginIdRequiredError) <==> pluginId == []
    ensures r.1 == Refused(400, PluginNotEnabledError) <==> pluginId != [] && (userId, pluginId) !in db.plugins
    ensures r.1.IsError() ==> r.0 == db
    ensures !r.1.IsError() ==>
              && (userId, pluginId) in db.plugins
              && (userId, pluginId) !in r.0.plugins
              && r.0.plugins == db.plugins - {(userId, pluginId)}
              && r.1 == PluginDisabledBody(pluginId)
    ensures OnlyTouches(db, r.0, userId) && r.0.prefs == db.prefs
  {
    if pluginId == [] then (db, Refused(400, PluginIdRequiredError))
    else if (userId, pluginId) !in db.plugins then (db, Refused(400, PluginNotEnabledError))
    else (db.(plugins := db.plugins - {(userId, pluginId)}), PluginDisabledBody(pluginId))
  }

  /** `PUT /enabled-plugins/:pluginId/settings`: replaces the settings of an enabled plugin. */
  function PutPluginSettings(db: Db, userId: UserId, pluginId: string, settings: Option<Json>): (r: (Db, PrefResponse))
    ensures r.1 == Invalid([SettingsObjectError]) <==> settings.None? || !IsObject(settings.value)
    ensures r.1 == Refused(404, PluginNotFoundError)
            <==> settings.Some? && IsObject(settings.value) && (userId, pluginId) !in db.plugins
    ensures r.1.IsError() ==> r.0 == db
    ensures !r.1.IsError() ==>
              && (userId, pluginId) in db.plugins
              && r.0.plugins.Keys == db.plugins.Keys
              && r.0.plugins == db.plugins[(userId, pluginId) := db.plugins[(userId, pluginId)].(settings := settings.value)]
              && r.0.plugins[(userId, pluginId)].settings == settings.value
              && r.0.plugins[(userId, pluginId)].enabledAt == db.plugins[(userId, pluginId)].enabledAt
              && r.1 == PluginBody(pluginId, settings.value, db.plugins[(userId, pluginId)].enabledAt)
    ensures OnlyTouches(db, r.0, userId) && r.0.prefs == db.prefs
  {
    if settings.None? || !IsObject(settings.value) then (db, Invalid([SettingsObjectError]))
    else if (userId, pluginId) !in db.plugins then (db, Refused(404, PluginNotFoundError))
    else
      var row := db.plugins[(userId, pluginId)].(settings := settings.value);
      (db.(plugins := db.plugins[(userId, pluginId) := row]), PluginBody(pluginId, row.settings, row.enabledAt))
  }

  /** Enabling a plugin and then disabling it restores the plugin rows. */
  lemma EnableThenDisablePlugin(db: Db, userId: UserId, pluginId: string, settings: Option<Json>, now: nat)
    requires ValidId(Some(pluginId)) == Some(pluginId)
    requires settings.None? || IsObject(settings.value)
    requires (userId, pluginId) !in db.plugins
    ensures DeleteEnabledPlugin(PostEnabledPlugin(db, userId, Some(pluginId), settings, now).0, userId, pluginId).0 == db
  {
    assert PluginPostErrors(Some(pluginId), settings) == [];
    var db1 := PostEnabledPlugin(db, userId, Some(pluginId), settings, now).0;
    assert db1.plugins - {(userId, pluginId)} == db.plugins;
  }

  /** New settings are what the next read of the preferences shows. */
  lemma SettingsAreReadBack(db: Db, userId: UserId, pluginId: string, settings: Json)
    requires IsObject(settings) && (userId, pluginId) in db.plugins && userId in db.prefs
    ensures var g := GetPreferences(PutPluginSettings(db, userId, pluginId, Some(settings)).0, userId);
            g.PreferencesBody? && pluginId in g.plugins && g.plugins[pluginId].settings == settings
  {
  }

  // ------------------------------------------------------------- the router

  datatype PrefRequest =
    | GetPreferencesReq
    | PutCurrentThemeReq(themeField: Option<string>)
    | PostEnabledThemeReq(themeField: Option<string>)
    | DeleteEnabledThemeReq(themeParam: string)
    | PostEnabledPluginReq(pluginField: Option<string>, settings: Option<Json>)
    | DeleteEnabledPluginReq(pluginParam: string)
    | PutPluginSettingsReq(pluginParam: string, settings: Option<Json>)

  /** The route a request reaches once `req.user` is set. */
  function Route(db: Db, userId: UserId, req: PrefRequest, now: nat): (r: (Db, PrefResponse))
    ensures OnlyTouches(db, r.0, userId)
    ensures r.1.IsError() ==> r.0 == db
  {
    match req
    case GetPreferencesReq => (db, GetPreferences(db, userId))
    case PutCurrentThemeReq(t) => PutCurrentTheme(db, userId, t, now)
    case PostEnabledThemeReq(t) => PostEnabledTheme(db, userId, t, now)
    case DeleteEnabledThemeReq(t) => DeleteEnabledTheme(db, userId, t, now)
    case PostEnabledPluginReq(p, s) => PostEnabledPlugin(db, userId, p, s, now)
    case DeleteEnabledPluginReq(p) => DeleteEnabledPlugin(db, userId, p)
    case PutPluginSettingsReq(p, s) => PutPluginSettings(db, userId, p, s)
  }

  /**
   * `router.use(authenticateToken)` followed by the route: a refused
   * request is answered with the guard's status and changes nothing; an
   * admitted one changes at most the authenticated user's rows.
   */
  function Serve(db: Db, header: Option<string>, secretConfigured: bool, verify: string -> JwtCheck,
                 queryOk: bool, req: PrefRequest, now: nat): (r: (Db, PrefResponse))
    ensures var auth := AuthMiddleware.AuthenticateToken(db, header, secretConfigured, verify, queryOk);
            && (auth.Reject? ==> r.0 == db && r.1 == Refused(auth.status, auth.error))
            && (auth.Next? ==> OnlyTouches(db, r.0, auth.user.id) && auth.user.emailVerified)
    ensures AuthMiddleware.ExtractToken(header).None? ==> r.0 == db && r.1.Status() == 401
  {
    match AuthMiddleware.AuthenticateToken(db, header, secretConfigured, verify, queryOk)
    case Reject(status, error) => (db, Refused(status, error))
    case Next(user) => Route(db, user.id, req, now)
  }

  /** Every route keeps every preferences row valid. */
  lemma RouteKeepsPrefsValid(db: Db, userId: UserId, req: PrefRequest, now: nat)
    requires AllPrefsValid(db)
    ensures AllPrefsValid(Route(db, userId, req, now).0)
  {
    var r := Route(db, userId, req, now);
    match req {
      case PostEnabledThemeReq(t) => PostEnabledThemeKeepsValid(db, userId, t, now);
      case DeleteEnabledThemeReq(t) => DeleteEnabledThemeKeepsValid(db, userId, t, now);
      case _ =>
    }
    forall k | k in r.0.prefs ensures ValidPrefs(r.0.prefs[k]) {
      if k != userId {
        assert r.0.prefs[k] == db.prefs[k];
      }
    }
  }

  /** Serving any request, admitted or not, keeps every preferences row valid. */
  lemma ServeKeepsPrefsValid(db: Db, header: Option<string>, secretConfigured: bool, verify: string -> JwtCheck,
                             queryOk: bool, req: PrefRequest, now: nat)
    requires AllPrefsValid(db)
    ensures AllPrefsValid(Serve(db, header, secretConfigured, verify, queryOk, req, now).0)
  {
    var auth := AuthMiddleware.AuthenticateToken(db, header, secretConfigured, verify, queryOk);
    if auth.Next? {
      RouteKeepsPrefsValid(db, auth.user.id, req, now);
    }
  }

  /** A registration adds a valid row and keeps the others. */
  lemma RegisterKeepsPrefsValid(db: Db, req: AuthRoutes.RegisterRequest, env: AuthRoutes.RegisterEnv, now: nat)
    requires AllPrefsValid(db)
    ensures AllPrefsValid(AuthRoutes.Register(db, req, env, now).0)
  {
    DefaultPrefsAreValid(now);
    AuthRoutes.RegisterWrites(db, req, env, now);
    var prefs := db.prefs[env.newUserId := AuthRoutes.DefaultPrefs(now)];
    PrefsUpdateKeepsValid(db.prefs, env.newUserId, AuthRoutes.DefaultPrefs(now), prefs);
  }

  /** Writing a valid row over a map of valid rows keeps every row valid. */
  lemma PrefsUpdateKeepsValid(prefs: map<UserId, Prefs>, userId: UserId, p: Prefs, updated: map<UserId, Prefs>)
    requires forall k :: k in prefs ==> ValidPrefs(prefs[k])
    requires ValidPrefs(p) && updated == prefs[userId := p]
    ensures forall k :: k in updated ==> ValidPrefs(updated[k])
  {
  }
}

=== FILE: wrappers.dfy ===
/** Option, used wherever the source has `null`, `undefined` or a missing row. */
module Wrappers {

  datatype Option<+T> = None | Some(value: T) {

    /** Returns the value inside Some, or `default` for None (the `??` operator). */
    function GetOr(default: T): T {
      match this
      case Some(v) => v
      case None => default
    }
  }
}
